=== FILE: README.md ===
# HugOrm core in Dafny

This project models the core of HugOrm, a small TypeScript ORM for the
browser. The model covers:

- the migration engine (`MigrationManager`, `ModelContainer`, the checksum,
  `Database.transaction`);
- the two storage adapters underneath it, `InMemoryAdapter` and
  `LocalStorageAdapter`;
- the `Schema`/`Blueprint` builder that produces migration scripts;
- the six relationship resolvers;
- the model bookkeeping of `Model` (table name, connection lookup, dirty
  tracking, `save`, `update`, `delete`, `paginate`);
- `Paginator`, `EventEmitter`, the `HugOrm` setup state machine, error
  message formatting, and the migration-table name default.

Every asynchronous operation is a pure state transition. It takes the
adapter, registry or instance it acts on, and returns the new state together
with a `Result`, which is either a value or a thrown `Thrown`. A table store
is a `map<string, seq<Record>>`, and a record is a `map<string, Value>` over
JavaScript values. Objects are addresses, so `===` is `==` on `Value`.

The schema-changing adapter methods (`createTable(table, columns)`,
`addColumn`, `dropIndex`, …) are declared by the `Adapter` interface, but of
them both concrete adapters define only a one-argument `createTable`. A
`createTable(table, columns)` call reaches that method, creates the table and
is recorded in a log, `Adapter.ddlLog`. Every other schema-changing call
throws a `TypeError` ("adapter.addColumn is not a function") before anything
changes. A script's `up` and `down` are sequences of such calls and throws, so
a `Schema` script that adds a column fails its migration on either adapter,
and every `Schema.create` script fails its rollback at `dropTable`.

One module per source file or concern:

| module | file |
|---|---|
| `Basics` | basics.dfy |
| `Values` | values.dfy |
| `ErrorUtils` | error_utils.dfy |
| `Outcomes` | outcomes.dfy |
| `Storage` | tables.dfy |
| `InMemory` | in_memory.dfy |
| `LocalStore` | local_storage.dfy |
| `Ddl` | ddl.dfy |
| `Adapters` | adapters.dfy |
| `Database` | database.dfy |
| `Scripts` | scripts.dfy |
| `Hashing` | checksum.dfy |
| `Container` | container.dfy |
| `Schema` | schema.dfy |
| `Migrations` | migration_manager.dfy |
| `Relationships` | relationships.dfy |
| `Events` | events.dfy |
| `Pagination` | pagination.dfy |
| `Models` | models.dfy |
| `OrmConfig` | orm_config.dfy |
| `Orm` | hug_orm.dfy |

Where the code evidently does not do what its authors meant, the model keeps
both the code as written and a corrected version (see "## Findings"). The
rest of the model builds on the corrected versions. The adapter dispatch uses
the corrected in-memory `delete` and the corrected local-storage `commit`.
Migration scripts use `down` traces that do not flip between runs.

The prose description of `HasOne` says it matches related rows whose foreign
key is the source's id. The code instead looks up `find(source[foreignKey])`
(src/relationships/HasOne.ts:6-8). The model follows the code.

## Model

| member | source | states |
|---|---|---|
| Values.FalsyValues | src/relationships/BelongsTo.ts:6-9 | The values JavaScript treats as falsy are exactly `undefined`, `null`, `false`, `0` and the empty string. |
| ErrorUtils.GetErrorMessage | src/utils/errorUtils.ts:1-15 | An Error gives its message. A non-Error object with a `message` property gives `String(message)`. A value `JSON.stringify` rejects gives its `String` text. A primitive gives its JSON text, which is `undefined` exactly for `undefined`. An object is rendered as if it had no properties (see "## Left out"). |
| ErrorUtils.EscapeRoundTrip | src/utils/errorUtils.ts:10-11 | Decoding the inside of the JSON literal that `JSON.stringify` writes for a string gives the string back, so the message of a thrown string is recoverable. |
| ErrorUtils.UnescapeOneChar | src/utils/errorUtils.ts:10-11 | Each character's JSON escape decodes back to that character, whatever follows it. |
| ErrorUtils.UnescapeControlChar | src/utils/errorUtils.ts:10-11 | A control character written as a six-character `\u00XX` escape decodes back to itself. |
| ErrorUtils.UnescapeShortEscape | src/utils/errorUtils.ts:10-11 | A quote, backslash or control character written as a two-character escape decodes back to itself. |
| ErrorUtils.CreateError | src/utils/errorUtils.ts:17-19 | The result is an Error whose message starts with the context followed by ": ", and continues with the rendered message of the original error. |
| ErrorUtils.CreateErrorOfError | src/utils/errorUtils.ts:17-19 | Wrapping an Error yields an Error whose message is the context, ": ", and the inner message, so nested wraps chain their contexts. |
| Outcomes.Wrap | src/database/Database.ts:38-44 | A try/catch that rethrows through `createError` keeps success and its value. It turns any failure into an Error whose message is the context plus the inner message. |
| Storage.EnsureTable | src/database/adapters/LocalStorageAdapter.ts:47-57 | The table exists afterwards. An absent table is added empty. Every existing table keeps its rows, and no other table appears. |
| Storage.IndexOfId | src/database/adapters/InMemoryAdapter.ts:62 | The index found holds a row with the id and no earlier row has it. No index is returned exactly when no row has the id. |
| Storage.FindById | src/database/adapters/InMemoryAdapter.ts:45-49 | A found record is a stored row carrying the id. `null` is returned exactly when no row carries the id. |
| Storage.Filter | src/database/adapters/InMemoryAdapter.ts:93-97 | The kept rows are exactly the stored rows that pass the test, and there are never more of them than stored rows. |
| Storage.FilterConcat | src/database/adapters/InMemoryAdapter.ts:86-90 | Filtering distributes over concatenation, so the result keeps stored order. |
| Storage.FilterShrinks | src/database/adapters/InMemoryAdapter.ts:73-75 | A filter drops a row exactly when some row fails its test. |
| Storage.FilterKeepsAll | src/database/adapters/InMemoryAdapter.ts:86-90 | A filter every row passes returns the rows unchanged. |
| Storage.WhereSpec | src/database/adapters/InMemoryAdapter.ts:83-91 | `where` keeps exactly the rows whose every condition key holds a strictly equal value. With no conditions it returns every row, in order. |
| Storage.WithId | src/database/adapters/InMemoryAdapter.ts:54 | The created record has the given numeric id. Every other field is the input's. |
| Storage.Merge | src/database/adapters/InMemoryAdapter.ts:65 | Fields present in the update data take its values. All other fields keep the record's values. |
| Storage.Insert | src/database/adapters/InMemoryAdapter.ts:51-57 | `create` appends one record to the table, creating the table if needed. The record's id is the prior row count plus one. Other tables are unchanged. |
| Storage.UpdateFirst | src/database/adapters/InMemoryAdapter.ts:59-68 | Update fails exactly when no row has the id. Otherwise only the first row with the id is replaced, by the merge of the data over it, and the row count is unchanged. |
| Storage.IdsRepeatAfterDelete | src/database/adapters/InMemoryAdapter.ts:51-56 | After two creates and a delete of id 1, the next create is given id 2 again, which the surviving row already carries. |
| InMemory.WithTarget | src/database/adapters/InMemoryAdapter.ts:52 | Writes go to the snapshot during a transaction and to the data otherwise. A write inside a transaction never touches the committed data. |
| InMemory.BeginTransaction | src/database/adapters/InMemoryAdapter.ts:16-20 | A second begin fails with "Transaction already started" and changes nothing. Otherwise a transaction opens whose snapshot equals the committed data. |
| InMemory.Commit | src/database/adapters/InMemoryAdapter.ts:22-27 | With no transaction, commit fails with "No active transaction". Otherwise it closes the transaction with the snapshot as the committed data. |
| InMemory.Rollback | src/database/adapters/InMemoryAdapter.ts:29-33 | With no transaction, rollback fails with "No active transaction". Otherwise it closes the transaction and leaves the committed data as it was. |
| InMemory.CreateTable | src/database/adapters/InMemoryAdapter.ts:39-43 | The table exists in the committed data afterwards, existing tables are untouched, and any open snapshot is untouched. |
| InMemory.Find | src/database/adapters/InMemoryAdapter.ts:45-49 | Find reads the committed data even inside a transaction. A missing table throws "Table T does not exist". Otherwise it returns the first row with the id, or null. |
| InMemory.Create | src/database/adapters/InMemoryAdapter.ts:51-57 | Create appends `{...data, id: count + 1}` to the current target and returns that record. Other tables are unchanged, and the committed data is untouched inside a transaction. |
| InMemory.Update | src/database/adapters/InMemoryAdapter.ts:59-68 | Update throws "Record not found" with no change when the target has no row with the id. Otherwise it replaces the first such row by the merge and returns it. |
| InMemory.DeleteState | src/database/adapters/InMemoryAdapter.ts:70-74 | Delete leaves the target table holding exactly the rows whose id differs, in order. Other tables are unchanged, and so is the committed data inside a transaction. |
| InMemory.DeleteReportingRemoval | src/database/adapters/InMemoryAdapter.ts:70-76 | The corrected `delete` changes the state as the code does, and reports true exactly when some row had the id. |
| InMemory.DeleteReportsFalseAfterRemoving | src/database/adapters/InMemoryAdapter.ts:73-75 | The as-written `delete` removes a stored row yet reports false; the corrected one reports true. |
| InMemory.WritesDependOnTargetOnly | src/database/adapters/InMemoryAdapter.ts:51-76 | Creates, updates and deletes read and write only the current target, so equal targets give equal results. Inside a transaction they leave the committed data alone. |
| InMemory.WriteDependsOnTargetOnly | src/database/adapters/InMemoryAdapter.ts:51-76 | A single write depends only on the current target and keeps the transaction flag. |
| InMemory.CommitPublishesWrites | src/database/adapters/InMemoryAdapter.ts:16-27 | Writes made inside a transaction and committed give the same state as making them with no transaction. |
| InMemory.RollbackDiscardsWrites | src/database/adapters/InMemoryAdapter.ts:16-33 | Writes made inside a transaction and rolled back leave the adapter exactly as it was before the begin. |
| InMemory.CreateTableInsideTransaction | src/database/adapters/InMemoryAdapter.ts:24-43 | A table created inside a transaction goes to the committed data, so a commit loses it and a rollback keeps it. |
| LocalStore.SetData | src/database/adapters/LocalStorageAdapter.ts:139-146 | After `setData`, `getData` returns the data written. During a transaction the browser store is untouched. |
| LocalStore.BeginTransaction | src/database/adapters/LocalStorageAdapter.ts:21-27 | A second begin fails with "Transaction already started". Otherwise a transaction opens whose copy is the stored data. |
| LocalStore.Commit | src/database/adapters/LocalStorageAdapter.ts:29-36 | The corrected commit fails with "No active transaction" when none is open. Otherwise it writes the transaction copy to the store and closes the transaction. |
| LocalStore.CommitAsWrittenLosesWrites | src/database/adapters/LocalStorageAdapter.ts:33 | Under the as-written commit, a row created inside a transaction never reaches the browser store. The corrected commit stores it. |
| LocalStore.Rollback | src/database/adapters/LocalStorageAdapter.ts:38-44 | Rollback fails with "No active transaction" when none is open. Otherwise it drops the copy and leaves the store as it was. |
| LocalStore.CreateTable | src/database/adapters/LocalStorageAdapter.ts:47-57 | An absent table is added empty to whatever `getData` reads. An existing table leaves the adapter unchanged. During a transaction the store is untouched. |
| LocalStore.Find | src/database/adapters/LocalStorageAdapter.ts:64-71 | A missing table throws "Table T does not exist". Otherwise find returns the first row with the id, or null. |
| LocalStore.Create | src/database/adapters/LocalStorageAdapter.ts:73-86 | Create appends `{...data, id: count + 1}` to the table, creating it if needed, and returns that record. Other tables are unchanged. |
| LocalStore.Update | src/database/adapters/LocalStorageAdapter.ts:88-101 | A missing table throws "Table T does not exist". A missing row throws "Record with id I not found in table T". Otherwise update merges into the first row with the id and writes back. |
| LocalStore.Delete | src/database/adapters/LocalStorageAdapter.ts:103-112 | A missing table throws. Otherwise delete keeps exactly the rows whose id differs and reports true, whether or not a row went. |
| LocalStore.WritesDependOnDataOnly | src/database/adapters/LocalStorageAdapter.ts:73-112 | Creates, updates and deletes depend only on what `getData` reads. Inside a transaction they leave the browser store alone. |
| LocalStore.WriteDependsOnDataOnly | src/database/adapters/LocalStorageAdapter.ts:133-146 | A single write depends only on what `getData` reads and keeps the transaction flag. |
| LocalStore.CommitPublishesWrites | src/database/adapters/LocalStorageAdapter.ts:21-36 | With the corrected commit, writes made inside a transaction and committed give the state that making them directly gives. |
| LocalStore.RollbackDiscardsWrites | src/database/adapters/LocalStorageAdapter.ts:21-44 | Writes made inside a transaction and rolled back leave the adapter as before the begin. |
| LocalStore.CreateTableInsideTransaction | src/database/adapters/LocalStorageAdapter.ts:47-57 | A table created inside a transaction goes to the transaction copy, so it survives a commit and is gone after a rollback. |
| Adapters.InTransaction | src/database/adapters/Adapter.ts:4-44 | Outside a transaction the data writes see, the committed data, and the data `find` and `createTable` use are the same. |
| Adapters.OpenLocal | src/database/adapters/LocalStorageAdapter.ts:11-15 | A fresh local-storage adapter has no transaction and reads whatever the browser store holds. |
| Adapters.HasTable | src/database/adapters/InMemoryAdapter.ts:35-37 | `hasTable` is true exactly when the table is present in the data the adapter checks. |
| Adapters.CreateTable | src/database/adapters/LocalStorageAdapter.ts:47-57 | The table exists afterwards. No row of any table changes, the transaction flag is kept, and no other table appears. |
| Adapters.Find | src/database/adapters/InMemoryAdapter.ts:45-49 | Both adapters throw "Table T does not exist" for a missing table, and otherwise return the first row with the id. |
| Adapters.Create | src/database/adapters/InMemoryAdapter.ts:51-57 | Both adapters append `{...data, id: count + 1}` to the table the current view shows. Create always succeeds and leaves the committed data alone inside a transaction. |
| Adapters.Update | src/database/adapters/InMemoryAdapter.ts:59-68 | Update succeeds exactly when a row of the view has the id, and then only that table changes. A failure changes nothing. |
| Adapters.Delete | src/database/adapters/LocalStorageAdapter.ts:103-112 | Delete removes exactly the rows with the id. The in-memory adapter reports whether one went. The local-storage adapter reports true, or throws for a missing table. |
| Adapters.All | src/database/adapters/InMemoryAdapter.ts:78-81 | `all` returns the table's rows from the current view, or [] for a missing table. |
| Adapters.Where | src/database/adapters/LocalStorageAdapter.ts:119-126 | `where` returns exactly the view's rows that match every condition by strict equality, in stored order. |
| Adapters.Query | src/database/adapters/LocalStorageAdapter.ts:128-131 | `query` returns exactly the view's rows that the callback accepts. |
| Adapters.BeginTransaction | src/database/adapters/LocalStorageAdapter.ts:21-27 | A second begin fails with "Transaction already started" and changes nothing. Otherwise a transaction opens whose view equals the committed data. |
| Adapters.Commit | src/database/adapters/InMemoryAdapter.ts:22-27 | With no transaction, commit fails with "No active transaction" and changes nothing. Otherwise the committed data becomes the view. |
| Adapters.Rollback | src/database/adapters/InMemoryAdapter.ts:29-33 | With no transaction, rollback fails with "No active transaction". Otherwise the committed data stays as it stood before the begin. |
| Adapters.Issue | src/database/adapters/Adapter.ts:31-41 | A `createTable(table, columns)` call is answered by the adapter's one-argument `createTable` (InMemoryAdapter.ts:39, LocalStorageAdapter.ts:47): it is logged, creates the table and keeps every stored row. Every other schema-changing call throws "adapter.M is not a function" and changes nothing. |
| Database.HasTable | src/database/Database.ts:20-22 | `hasTable` is the adapter's answer. |
| Database.CreateTable | src/database/Database.ts:24-32 | The adapter's `createTable` runs only when `hasTable` reports the table missing. The table exists afterwards either way. |
| Database.EnsureTable | src/database/Database.ts:34-36 | `ensureTable` is `createTable`. It creates the table without changing any row or the transaction state. |
| Database.Find | src/database/Database.ts:38-44 | Find returns the adapter's row. A missing table is rethrown as "Failed to find record in table T: Table T does not exist". |
| Database.Create | src/database/Database.ts:46-52 | Create returns exactly the adapter's outcome, which never fails. |
| Database.Update | src/database/Database.ts:54-60 | Update passes the adapter's state and value through unchanged, and rewraps its error as "Failed to update record in table T: …". |
| Database.All | src/database/Database.ts:62-68 | `all` returns the view's rows of the table. |
| Database.Where | src/database/Database.ts:70-76 | `where` succeeds with exactly the matching rows, in stored order. |
| Database.Query | src/database/Database.ts:78-84 | `query` succeeds with exactly the rows the callback accepts. |
| Database.Delete | src/database/Database.ts:86-92 | Delete passes the adapter's state and answer through unchanged, and rewraps its error as "Failed to delete record in table T: …". |
| Database.Transaction | src/database/Database.ts:94-108 | A nested call fails with "Transaction already in progress" before any begin. Otherwise it runs begin, callback, commit; on success it returns the callback's value with the view committed. A callback failure rolls back and is rethrown as "Transaction failed: …". |
| Scripts.Trace | src/models/MigrationScript.ts:3-11 | The calls that go through are the body's leading call steps, in order, up to the first step that throws on the adapter. |
| Scripts.RaisesCons | src/models/MigrationScript.ts:3-11 | A body throws exactly when its first step or the rest of it does. |
| Scripts.TraceStopsAtThrow | src/database/adapters/InMemoryAdapter.ts:39-43 | Only `createTable` calls go through, since it is the one schema method the adapters define. A body throws exactly when its trace stops short of its end, and it then throws the error of the step where the trace stops. |
| Scripts.RunSteps | src/services/MigrationManager.ts:96-102 | Running a body succeeds exactly when no step throws, and otherwise fails with the first error. It logs exactly the calls issued before that error and keeps every stored row. |
| Hashing.CodeUnitsOf | src/services/MigrationManager.ts:138 | A character is one UTF-16 code unit below U+10000, and two otherwise. Each unit is below 0x10000. |
| Hashing.CodeUnits | src/services/MigrationManager.ts:137-138 | A string has between one and two code units per character, each below 0x10000. |
| Hashing.UHash | src/services/MigrationManager.ts:134-140 | The fold `h := 31 * h + unit mod 2^32` stays an unsigned 32-bit value. |
| Hashing.ToSigned | src/services/MigrationManager.ts:139 | An unsigned 32-bit value read as two's complement lies in the signed range and is congruent to it modulo 2^32. |
| Hashing.ToInt32 | src/services/MigrationManager.ts:138-139 | `ToInt32` yields a value in the signed 32-bit range. |
| Hashing.ToInt32Congruent | src/services/MigrationManager.ts:138-139 | Integers a multiple of 2^32 apart have the same `ToInt32`. |
| Hashing.StepAgrees | src/services/MigrationManager.ts:138-139 | One step of the JavaScript loop, `(hash << 5) - hash + code` and then `| 0`, is the signed reading of one step of the unsigned fold. |
| Hashing.ComputeChecksum | src/services/MigrationManager.ts:133-142 | The loop over `str.length` code units returns "c" followed by the signed 32-bit fold of the text. |
| Hashing.ChecksumShape | src/services/MigrationManager.ts:141 | A checksum is "c" followed by decimal text. The text parses back to the signed value of the hash, which lies in the signed 32-bit range. |
| Hashing.ChecksumDeterminesHash | src/services/MigrationManager.ts:133-142 | Two texts have equal checksums exactly when their hashes are equal. Equal texts therefore always agree. |
| Container.Lookup | src/container/ModelContainer.ts:31-33 | `map.get(k)` is undefined exactly when the key was never set. Otherwise it returns a value stored under the key. |
| Container.Put | src/container/ModelContainer.ts:40 | `map.set` replaces a present key's value in place and appends a new key at the end. Every other entry keeps its position, and the key then maps to the new value. |
| Container.PutKeepsKeysUnique | src/container/ModelContainer.ts:40 | Setting a key never creates a second entry for any key. |
| Container.LookupAfterPut | src/container/ModelContainer.ts:24 | Setting one key leaves every other key's value unchanged. |
| Container.Values | src/container/ModelContainer.ts:36 | `[...map.values()]` lists the values in entry order. |
| Container.RegisterMigration | src/container/ModelContainer.ts:39-41 | A script is keyed by its version, so re-registering a version replaces the earlier script. Other versions are unaffected, and keys stay unique. |
| Container.InsertByVersion | src/container/ModelContainer.ts:44-45 | Inserting into an ascending list gives an ascending list holding the same scripts plus the new one. |
| Container.SortByVersion | src/container/ModelContainer.ts:44-45 | The sort returns a permutation of its input, ascending by version. |
| Container.GetMigrations | src/container/ModelContainer.ts:43-46 | `getMigrations` returns every registered script exactly once, ascending by version. |
| Container.MigrationsStrictlyIncrease | src/container/ModelContainer.ts:40-46 | Because versions are unique keys, the listed versions strictly increase. |
| Container.PermutationKeepsDistinct | src/container/ModelContainer.ts:44-45 | Reordering scripts with distinct versions keeps the versions distinct. |
| Container.RegisteredScriptIsListed | src/container/ModelContainer.ts:39-46 | A script just registered is listed by `getMigrations`. |
| Container.LookedUpIsListed | src/container/ModelContainer.ts:39-46 | The script a version maps to is listed by `getMigrations`. |
| Container.RegisterClass | src/container/ModelContainer.ts:22-25 | A class is keyed by its name and the last registration wins. Other names are unaffected. |
| Container.GetModelClass | src/container/ModelContainer.ts:31-33 | `getModelClass` returns undefined exactly for a name never registered. |
| Container.GetModelClasses | src/container/ModelContainer.ts:35-37 | The classes come back in first-registration order of their names. |
| Container.GetAllInstances | src/container/ModelContainer.ts:27-29 | A name never registered gives []. Otherwise the result is that name's list. |
| Container.Register | src/container/ModelContainer.ts:14-20 | The instance goes at the end of its class name's list, which is created when missing. Other names' lists are unchanged. |
| Schema.Id | src/migrations/Schema.ts:35-42 | `id()` appends an `increments` primary column named `id`, or the given name. The other lists are unchanged. |
| Schema.StringColumn | src/migrations/Schema.ts:44-51 | `string()` appends a `string` column whose length defaults to 255. |
| Schema.IntegerColumn | src/migrations/Schema.ts:53-59 | `integer()` appends an `integer` column. |
| Schema.Index | src/migrations/Schema.ts:61-65 | `index()` appends its options to the index list only. |
| Schema.DropIndexDefinition | src/migrations/Schema.ts:67-70 | `dropIndex()` appends its options to the drop list only. |
| Schema.BuildCollectsInCallOrder | src/migrations/Schema.ts:30-71 | After any sequence of builder calls, each list holds exactly its own calls' definitions in call order. |
| Schema.AddColumns | src/migrations/Schema.ts:84-86 | One `addColumn` per column, in column order. |
| Schema.AddIndices | src/migrations/Schema.ts:88-90 | One `addIndex` per index, in index order. |
| Schema.DropIndices | src/migrations/Schema.ts:95-97 | One `dropIndex` by name per drop definition, in the order given. |
| Schema.DropColumns | src/migrations/Schema.ts:99-101 | One `dropColumn` by name per column, in the order given. |
| Schema.Steps | src/migrations/Schema.ts:81-102 | An awaited sequence of calls becomes one step per call, in order. |
| Schema.FirstMissing | src/database/adapters/InMemoryAdapter.ts:39-43 | The position of the first call to a method other than `createTable`, the only schema method the adapters define. Every earlier call is a `createTable` call. |
| Schema.StepsTrace | src/migrations/Schema.ts:81-102 | On either adapter an awaited sequence of calls issues exactly its leading `createTable` calls. |
| Schema.StepsOnAdapters | src/migrations/Schema.ts:81-102 | On either adapter such a body throws exactly when it holds a call other than `createTable`. It then throws the TypeError of the first such call. |
| Schema.ThrowsAtFirstCall | src/migrations/Schema.ts:81-102 | A body whose first call is not `createTable` issues nothing and throws that call's TypeError. |
| Schema.CreateUp | src/migrations/Schema.ts:81-91 | `create`'s up issues `createTable(table, columns)` first, then `addColumn` per column in order, then `addIndex` per index in order. |
| Schema.CreateDown | src/migrations/Schema.ts:92-102 | The first `down` issues `dropTable` first, then drops indices from the last defined to the first, then columns from last to first. |
| Schema.DownOrder | src/migrations/Schema.ts:92-102 | In the down trace, the i-th drop definition and the i-th column land at mirrored positions. |
| Schema.AlterUp | src/migrations/Schema.ts:114-122 | `table`'s up is `create`'s up without the `createTable` call. |
| Schema.AlterDown | src/migrations/Schema.ts:123-131 | `table`'s down is `create`'s down without the `dropTable` call. |
| Schema.StepsCons | src/migrations/Schema.ts:81-82 | A leading `createTable` call goes through. The rest of the body alone decides whether the body throws, and what. |
| Schema.CreateUpOnAdapters | src/migrations/Schema.ts:81-91 | On either adapter `create`'s up creates the table. It then throws "adapter.addColumn is not a function" when there is a column, else "adapter.addIndex is not a function" when there is an index. It succeeds exactly when the blueprint has neither. |
| Schema.CreateDownOnAdapters | src/migrations/Schema.ts:92-102 | On either adapter `create`'s down always throws "adapter.dropTable is not a function" and issues nothing. |
| Schema.AlterUpOnAdapters | src/migrations/Schema.ts:114-122 | On either adapter `table`'s up issues nothing. It throws at its first call, and succeeds exactly when there is no column and no index. |
| Schema.DropsThrow | src/migrations/Schema.ts:123-131 | On either adapter a body of index drops then column drops issues nothing, and throws exactly when it has a call. |
| Schema.DropsError | src/migrations/Schema.ts:123-131 | Such a body throws "adapter.dropIndex is not a function" when there is an index to drop, else "adapter.dropColumn is not a function". |
| Schema.AlterDownOnAdapters | src/migrations/Schema.ts:123-131 | On either adapter `table`'s down issues nothing. It throws "adapter.dropIndex is not a function" when there is a dropped index, else "adapter.dropColumn is not a function". It succeeds exactly when there is nothing to drop. |
| Schema.Create | src/migrations/Schema.ts:74-104 | `Schema.create` yields a script named "create_T_table" whose version is the creation time, constructor name "Object" and text "[object Object]". Its up and down attempt the calls of `CreateUp` and `CreateDown`. On either adapter, up creates the table, then throws at the first column or index, and down always throws at `dropTable`. |
| Schema.Alter | src/migrations/Schema.ts:107-133 | `Schema.table` yields a script named "alter_T_table" that attempts the alter calls. On either adapter, up and down issue nothing, throw at their first call, and succeed only when they have nothing to do. |
| Schema.SecondDownFlipsOrder | src/migrations/Schema.ts:95-99 | Because `reverse()` works in place, the second run of `down` drops columns in the opposite order to the first, and a later `up` adds them reversed. |
| Migrations.NewManager | src/services/MigrationManager.ts:15-21 | A new manager starts at version 0 on the given table. |
| Migrations.StoredRowFields | src/services/MigrationManager.ts:111-121 | A tracking row holds the script's version, constructor name, date, checksum of `toString()` and that text, plus the id the adapter assigned. |
| Migrations.MaxVersion | src/services/MigrationManager.ts:104-109 | The current version is the highest version among the tracking rows, and is attained by one of them. With no rows it is 0. |
| Migrations.Bootstrap | src/services/MigrationManager.ts:31-34 | `bootstrap` ensures the tracking table, then sets `currentVersion` to the highest recorded version (0 for none). |
| Migrations.FilterScripts | src/services/MigrationManager.ts:39 | Filtering keeps exactly the scripts passing the test, and keeps ascending order. |
| Migrations.Pending | src/services/MigrationManager.ts:39 | The pending scripts are exactly the registered ones above the current version, ascending. |
| Migrations.Completed | src/services/MigrationManager.ts:41-51 | The scripts that complete are the longest prefix whose bodies do not throw. The next script, if any, throws. |
| Migrations.Attempted | src/services/MigrationManager.ts:41-51 | The scripts whose body runs are the completed prefix plus the first failing one, if any. |
| Migrations.EachScriptOutcome | src/services/MigrationManager.ts:41-51 | The loop issues the calls of every attempted script in order, and ends outside a transaction. It succeeds exactly when all complete; otherwise it fails with the failing script's message, attempting nothing after it. |
| Migrations.UpAndRecord | src/services/MigrationManager.ts:43-46 | Inside the transaction, `up` runs and then the row is recorded. The callback fails exactly when `up` throws, with that error. |
| Migrations.ApplyOneOutcome | src/services/MigrationManager.ts:41-50 | One iteration issues `up`'s calls and ends outside a transaction. It succeeds exactly when `up` does not throw; otherwise it fails with "Migration failed at version V". |
| Migrations.ApplyOneRows | src/services/MigrationManager.ts:43-46 | A script's tracking row is committed together with its `up`, or not at all. |
| Migrations.RowsForAt | src/services/MigrationManager.ts:111-121 | The i-th new row records the i-th script under id n + i + 1. |
| Migrations.EachScriptRows | src/services/MigrationManager.ts:41-51 | After the loop the tracking table is the old rows plus one row per completed script, in order. |
| Migrations.ApplierIterates | src/services/MigrationManager.ts:41-51 | Every iteration of `migrate` keeps both the outcome and the row promises. |
| Migrations.MigrateAppliesPending | src/services/MigrationManager.ts:36-52 | `migrate` runs `up` for exactly the pending scripts, in ascending order, stopping at the first failure with "Migration failed at version V". The tracking table gains one row per completed script, and the manager keeps the bootstrap version. |
| Migrations.MigrateTwiceAppliesNothing | src/services/MigrationManager.ts:36-52 | After a successful `migrate`, a second `migrate` succeeds, changes nothing, and leaves nothing pending. |
| Migrations.MaxVersionCoversRecorded | src/services/MigrationManager.ts:104-121 | Recording scripts above the current version raises the current version to cover each of them. |
| Migrations.NothingPendingAbove | src/services/MigrationManager.ts:39 | No script is pending above a version no registered script exceeds. |
| Migrations.IdsOf | src/services/MigrationManager.ts:127-128 | The ids of the found rows, in order. |
| Migrations.WithoutIds | src/services/MigrationManager.ts:127-129 | Deleting each id leaves exactly the rows whose id is none of them. |
| Migrations.DeleteEach | src/services/MigrationManager.ts:127-129 | The deletes, one per found row, leave exactly the rows whose id was not found, and change no other table. |
| Migrations.VersionRows | src/services/MigrationManager.ts:124-126 | The rows found are exactly those whose version equals the script's. |
| Migrations.RemoveMigration | src/services/MigrationManager.ts:123-131 | `removeMigration` deletes, by id, every tracking row of the script's version. |
| Migrations.DownAndRemove | src/services/MigrationManager.ts:63-66 | Inside the transaction, `down` runs and then the rows are removed. The callback fails exactly when `down` throws. |
| Migrations.RevertOneOutcome | src/services/MigrationManager.ts:61-70 | One iteration of `rollback` issues `down`'s calls. It succeeds exactly when `down` does not throw; otherwise it fails with "Rollback failed at version V". |
| Migrations.RevertOneRows | src/services/MigrationManager.ts:63-66 | A script's tracking rows are removed together with its `down`, or not at all. |
| Migrations.ReverterIterates | src/services/MigrationManager.ts:61-71 | Every iteration of `rollback` keeps both the outcome and the removal promises. |
| Migrations.RemoveVersionExactly | src/services/MigrationManager.ts:123-131 | When ids identify rows, removing by id removes exactly the rows of that version. |
| Migrations.EachScriptRemoves | src/services/MigrationManager.ts:61-71 | After the rollback loop the tracking table holds exactly the old rows whose version is not that of a completed script. |
| Migrations.ReverseDescends | src/services/MigrationManager.ts:59 | Reversing the ascending list gives a newest-first list. |
| Migrations.RollbacksSpec | src/services/MigrationManager.ts:56-59 | `rollback` reverts exactly the registered scripts with target < version ≤ current, newest first. |
| Migrations.DefaultRollbackRevertsCurrent | src/services/MigrationManager.ts:56 | With no version given, the target is max(0, current - 1), so exactly the scripts of the current version are reverted. |
| Migrations.RollbackRevertsRange | src/services/MigrationManager.ts:54-72 | `rollback` runs `down` for the scripts in range, newest first, stopping at the first failure with "Rollback failed at version V". The tracking rows of the completed scripts' versions go. |
| Migrations.FindScript | src/services/MigrationManager.ts:78 | `find` returns a registered script of the row's version, and nothing exactly when none has it. |
| Migrations.FindScriptUnique | src/services/MigrationManager.ts:78 | With unique versions, `find` returns the one script of that version. |
| Migrations.ValidateSpec | src/services/MigrationManager.ts:74-81 | `validate` is true exactly when every tracking row has a registered script of its version whose checksum equals the stored one. An empty table gives true. |
| Migrations.ValidateDetectsDrift | src/services/MigrationManager.ts:74-81 | A stored checksum that differs from its script's current checksum makes `validate` false. |
| Migrations.RecordedRowValid | src/services/MigrationManager.ts:111-121 | A row recorded for a registered script passes `validate`'s test. |
| Migrations.RecordingKeepsValid | src/services/MigrationManager.ts:74-121 | Appending rows recorded for registered scripts keeps every row valid. |
| Migrations.Applied | src/services/MigrationManager.ts:39-41 | Every script a `migrate` applies is one of the registered scripts. |
| Migrations.MigrateRecordsApplied | src/services/MigrationManager.ts:36-52 | A `migrate` adds exactly one tracking row per script it applies, after the existing rows, and ends outside a transaction on the same table. |
| Migrations.ValidateAfterMigrate | src/services/MigrationManager.ts:36-81 | A `migrate` keeps a valid tracking table valid. |
| Migrations.StatusReports | src/services/MigrationManager.ts:83-94 | `status` reports the highest recorded version and the tracking rows. Its pending count is 0 exactly when no registered script is above that version. |
| Relationships.HasOne | src/relationships/HasOne.ts:5-9 | HasOne calls the supplier once and performs one lookup, `find(source[foreignKey])`, even for a missing key. The result is the first row with that id, or null. A missing table is an error. |
| Relationships.HasMany | src/relationships/HasMany.ts:5-10 | HasMany calls the supplier once and performs one `where` with foreignKey = source.id. It returns exactly the rows whose foreign key equals the source's id. |
| Relationships.HasManyIsFilter | src/relationships/HasMany.ts:7-9 | HasMany's result is the table filtered by that single condition. When nothing matches it is [], not null. |
| Relationships.BelongsTo | src/relationships/BelongsTo.ts:5-13 | A falsy key returns null with no lookup and no supplier call. |
| Relationships.BelongsToAgreesWithHasOne | src/relationships/BelongsTo.ts:11-12 | For a truthy key, BelongsTo performs exactly HasOne's lookup. For a falsy key it performs none where HasOne performs one. |
| Relationships.KeysOf | src/relationships/BelongsToMany.ts:22 | The related keys are collected from the pivot rows in pivot order. |
| Relationships.PivotRows | src/relationships/BelongsToMany.ts:16-20 | The first read returns exactly the pivot rows whose foreign key is the source's id. |
| Relationships.BelongsToManyAsWritten | src/relationships/BelongsToMany.ts:15-24 | As written, BelongsToMany makes two reads: the pivot `where`, then a `where` whose id condition is the whole array. |
| Relationships.BelongsToManyAsWrittenFindsNothing | src/relationships/BelongsToMany.ts:23 | With numeric ids, no row's id is the fresh array, so the as-written resolve always returns []. |
| Relationships.BelongsToManyMissesLinkedRow | src/relationships/BelongsToMany.ts:15-24 | A user linked to a role through the pivot table gets no roles from the as-written resolve, and that role from the corrected one. |
| Relationships.WithIdIn | src/relationships/BelongsToMany.ts:23 | The corrected batch fetch keeps exactly the rows whose id is one of the collected keys. |
| Relationships.LinkedRows | src/relationships/BelongsToMany.ts:15-24 | Filtering by the collected keys keeps exactly the rows that some pivot row of the source points at. |
| Relationships.BelongsToMany | src/relationships/BelongsToMany.ts:15-24 | The corrected resolve makes two reads and no writes. It returns exactly the related rows whose id a pivot row of the source points at. |
| Relationships.MorphTo | src/relationships/MorphTo.ts:17-24 | The registry supplier is called once. An unknown discriminator gives null with no lookup; a known one gives that model's `find(source[morphId])`. |
| Relationships.MorphToIsHasOneOnTarget | src/relationships/MorphTo.ts:22-23 | For a known discriminator, MorphTo resolves as HasOne does on the id field against the chosen model. |
| Relationships.MorphMany | src/relationships/MorphMany.ts:14-19 | MorphMany uses the related model directly, with no supplier call. It returns exactly the rows whose type field is the class name with ASCII capitals lowercased, and whose id field is the source's id. |
| Relationships.MorphManyUsesClassName | src/relationships/MorphMany.ts:16 | The discriminator is the lowercased class name ("user"), not the table name. |
| Events.On | src/events/EventEmitter.ts:6-11 | `on` appends the listener to the end of its event's list, creating the list when missing. Other events are untouched. |
| Events.Without | src/events/EventEmitter.ts:15 | The filter keeps exactly the listeners other than the removed one. |
| Events.WithoutConcat | src/events/EventEmitter.ts:15 | The filter keeps the remaining listeners in order. |
| Events.WithoutAbsent | src/events/EventEmitter.ts:15 | Removing a listener not in the list changes nothing. |
| Events.Off | src/events/EventEmitter.ts:13-17 | `off` on an event with no list changes nothing. Otherwise it removes every occurrence of the listener and keeps the others. Other events are untouched. |
| Events.Emit | src/events/EventEmitter.ts:19-23 | `emit` calls each listener of the event once, in registration order, with the same payload. No list means no calls. |
| Events.EmitEach | src/events/EventEmitter.ts:21 | `forEach` makes one call per listener, in order. |
| Events.OnThenOff | src/events/EventEmitter.ts:6-17 | Subscribing and then unsubscribing a listener removes every earlier occurrence too. |
| Events.OffOtherAfterOn | src/events/EventEmitter.ts:6-17 | Unsubscribing a different listener commutes with subscribing. |
| Events.EmitAfterOn | src/events/EventEmitter.ts:6-23 | A listener subscribed last is called last. |
| Events.OffAbsentKeepsCalls | src/events/EventEmitter.ts:13-23 | Unsubscribing a listener never subscribed leaves `emit`'s calls unchanged. |
| Pagination.LastPage | src/pagination/Paginator.ts:10-12 | `lastPage` is the ceiling of total / perPage: its pages hold the total, and one page fewer does not. |
| Pagination.LastPageIsLeast | src/pagination/Paginator.ts:10-12 | `lastPage` is the least page count whose pages hold every item. |
| Pagination.HasMorePagesIff | src/pagination/Paginator.ts:14-16 | There are more pages exactly when the pages up to the current one hold fewer than `total` items. |
| Pagination.EmptyHasNoPages | src/pagination/Paginator.ts:10-16 | With total 0, `lastPage` is 0 and there are no more pages from page 0 on. |
| Pagination.RelativeIndex | src/models/Model.ts:142 | A `slice` index is clamped into the array, and an index already inside is used as is. |
| Pagination.Slice | src/models/Model.ts:142 | For non-negative bounds, `slice(start, end)` is the clamped subrange. It is never longer than the array. |
| Pagination.PagesUpToPrefix | src/models/Model.ts:142 | Pages 1 to k, read in turn, are the first k × perPage items. |
| Pagination.PagesCoverAll | src/pagination/Paginator.ts:10-12 | Reading pages 1 to `lastPage` yields every item once, in order. |
| Basics.Lower | src/models/Model.ts:66 | `toLowerCase` on ASCII: each capital becomes the small letter at the same place in the alphabet, and every other character is kept. |
| Models.Table | src/models/Model.ts:65-67 | The derived table name is the class name with its ASCII capitals lowercased, plus "s". A subclass override is used as is. |
| Models.DerivedTableIgnoresCase | src/models/Model.ts:65-67 | Class names differing only in ASCII letter case share a table. A derived name is non-empty and holds no ASCII capital. |
| Models.ResolveDatabase | src/models/Model.ts:53-63 | The database is the class connection, else the global default. With neither it throws "Database not configured. Call Model.setDatabase() first.". |
| Models.ConnectionPrecedence | src/models/Model.ts:53-63 | After `setConnection` the class connection is used. `setDatabase` matters only for classes without one. |
| Models.Store | src/models/Model.ts:53-63 | A write through the resolved database is what later lookups see. |
| Models.New | src/models/Model.ts:36-45 | A new instance has the bookkeeping properties, then the data's fields; its original state is a copy of the data. |
| Models.GetDiffAsWritten | src/models/Model.ts:251-264 | As written, the diff holds every own property, bookkeeping included, whose value is not `===` the original's. |
| Models.NewIsDirtyAsWritten | src/models/Model.ts:247-264 | As written, a new instance is already dirty, because its `_originalState` property differs from the original data. |
| Models.GetDiff | src/models/Model.ts:251-264 | The corrected diff holds exactly the data properties whose value differs from the original, with their current values. |
| Models.IsDirtyIff | src/models/Model.ts:247-249 | `isDirty` holds exactly when some data property differs from the original. |
| Models.NewIsClean | src/models/Model.ts:40-45 | With the corrected diff, a new instance is clean. |
| Models.AssignMakesDirty | src/models/Model.ts:247-264 | Assigning a data property a value other than its original makes the instance dirty, with that value in the diff. |
| Models.Stamp | src/models/Model.ts:182-188 | With timestamps on, `updated_at` is set to now, and `created_at` is set too when the id is falsy. Nothing else changes, and with timestamps off nothing changes at all. |
| Models.Resnapshot | src/models/Model.ts:194 | After a write, the original state is a copy of the current properties. |
| Models.ResnapshotIsClean | src/models/Model.ts:194-200 | An instance right after a successful write is clean. |
| Models.SaveUpdate | src/models/Model.ts:191-195 | With a truthy id, save emits `updating`, updates that row with the pre-stamp payload, resnapshots, and emits `updated`. |
| Models.SaveCreate | src/models/Model.ts:196-202 | With a falsy id, save emits `creating`, creates a row from the pre-stamp payload, adopts the new id, resnapshots, and emits `created`. |
| Models.Save | src/models/Model.ts:179-225 | A successful save leaves the instance clean. A failure emits `error`, keeps the stamped properties, and is rethrown as "Model save failed for T: …". |
| Models.SaveCreates | src/models/Model.ts:179-202 | Saving without an id appends exactly one row built from the pre-stamp properties and gives the instance id count + 1. Timestamps set in that call are absent from the row. |
| Models.SaveUpdates | src/models/Model.ts:179-195 | Saving with an id succeeds exactly when a row has it. It then replaces that row with the merge of the pre-stamp properties. |
| Models.Update | src/models/Model.ts:164-177 | An `undefined` id fails with "Failed to update T record: Cannot update unsaved record" before any database call. Otherwise update merges the data and saves, and rewraps a failure. |
| Models.UpdateWithNullIdCreates | src/models/Model.ts:166 | `update` only tests for `undefined`, so an instance whose id is `null` is saved as a new row. |
| Models.PrepareSoftDelete | src/models/Model.ts:21-26 | A non-empty deleted-at field name is set to the current date. An empty name changes nothing, and a missing method throws. |
| Models.Delete | src/models/Model.ts:227-245 | A falsy id throws "Cannot delete a record without an ID." before any call. A soft-deleting class without `getDeletedAtFieldName` throws its TypeError with no event and no store change. Otherwise the deleted-at field is stamped first, and delete emits `deleting`, deletes by the id read after that stamp, and emits `deleted` or `error`, returning the database's answer. |
| Models.SoftDeleteStillDeletes | src/models/Model.ts:232-238 | With a deleted-at field other than "id", the row is still deleted: the database ends as after a plain delete, and only the instance gains the deleted-at field. |
| Models.SoftDeleteOnIdFieldKeepsRows | src/models/Model.ts:232-238 | A deleted-at field named "id" replaces the id with the fresh date before the delete reads it. No row matches that date, so the table keeps every row; the in-memory adapter answers false and the local-storage adapter answers true. |
| Models.Paginate | src/models/Model.ts:135-147 | The page holds the rows [(page-1)·perPage, page·perPage) of `all()`. Total is the row count, and the defaults are 15 per page and page 1. |
| Models.PaginateDefaults | src/models/Model.ts:135-147 | With the defaults, the page is the first fifteen rows, and there are more pages exactly when the table has more than fifteen. |
| Models.PaginatePagesCoverTable | src/models/Model.ts:135-147 | Walking pages 1 to `lastPage` yields the whole table once, in order. |
| OrmConfig.ResolveMigrationTableName | src/utils/resolveMigrationTableName.ts:3-5 | A non-empty configured name is used as given. A missing or empty one becomes "migrations". The result is never empty. |
| OrmConfig.ResolveIsStable | src/utils/resolveMigrationTableName.ts:3-5 | Writing the resolved name back into the configuration resolves to the same name. |
| Orm.NewOrm | src/HugOrm.ts:9-14 | A new HugOrm has neither a database nor a migration manager. |
| Orm.SetupDatabase | src/HugOrm.ts:16-24 | The first `setupDatabase` installs the configured adapter. A later one wraps the same shared adapter, so the state is unchanged. Its probe of the migration table cannot fail on either adapter. |
| Orm.SetupMigrationManager | src/HugOrm.ts:26-31 | Before `setupDatabase` it throws "Database not initialized". Afterwards it installs a manager at version 0 on the resolved table. |
| Orm.GetDatabase | src/HugOrm.ts:45-50 | `getDatabase` throws "Database not initialized" exactly before `setupDatabase`, and otherwise returns the database. |
| Orm.SyncModels | src/HugOrm.ts:57-77 | Every registered class with a non-empty table name has its table afterwards. Only missing tables are created, and no row changes. |
| Orm.SyncModelsNoop | src/HugOrm.ts:64-72 | When every table already exists, syncing changes nothing. |
| Orm.SyncModelsIdempotent | src/HugOrm.ts:57-77 | Syncing twice is the same as syncing once. |
| Orm.Bootstrap | src/HugOrm.ts:33-43 | `bootstrap` throws unless both the database and the manager exist. Otherwise it syncs the model tables first, then migrates only when `autoMigrate` is set. |
| Orm.SetupOrder | src/HugOrm.ts:16-50 | Before `setupDatabase` nothing else works. After it the manager can be set up. After both, `bootstrap` passes its guard, and without auto-migration it succeeds having created every registered table. |
| Orm.SetupAgainKeepsData | src/HugOrm.ts:16-17 | Setting up the database again after a bootstrap keeps every table and row the bootstrap wrote. |

## Left out

- Logging is not modelled: the `ILogger`/`ConsoleLogger` objects and every `console.error` call.
- Migrations.MigrateRecordsApplied and Migrations.ValidateAfterMigrate hold for script bodies as modelled here: a body is a sequence of schema calls and throws, and issues no data writes. In the source, `up(db: Adapter)` could also call `create`, `update` or `delete`, and a body that writes to the tracking table would break both promises.
- Adapters.HasTable, Storage and the two adapters treat every table name as absent until created. Both adapters index plain objects (`this.data[table]`, and the object `JSON.parse` returns), so for a name such as "constructor" or "toString" `hasTable` is true, `createTable` does nothing and `find` throws a TypeError. That case is not modelled.
- `async`/`await` scheduling is not modelled. Every operation is a sequential state transition. `Promise.all` in `removeMigration` runs its deletes one after another.
- Wall-clock values are inputs. `new Date()` and `Date.now()` become the parameters `appliedAt`, `now` and the date addresses. One `appliedAt` serves a whole `migrate` run.
- JSON deep copies (`JSON.parse(JSON.stringify(…))`) are identities on record values.
- Numbers are integers. Floating point, `NaN` and `Infinity` are not modelled.
- Pagination.LastPage requires `perPage > 0`, because a zero or negative page size gives `Infinity` or `NaN`.
- Migrations.VersionOf reads a tracking row whose `version` is not a number as 0. The engine only ever writes numbers there.
- Migrations.RollbackRevertsRange reverts every registered script in the version range, whether or not it was ever applied, as the code does. The model does not track "applied" separately.
- The `touches` loop of `save` (src/models/Model.ts:204-219) is not modelled. It needs `resolveRelationship` and Reflect metadata, and its errors are swallowed.
- Not modelled: the relationship registration methods and `resolveRelationship` (src/models/Model.ts:267-325), `on` and `touch`. They rest on decorators and Reflect metadata.
- Not modelled: the static `create`, `all`, `where`, `query` and `withTrashed`, and the instance `find`. They are thin wrappers over the `Database` calls above, plus `new this(record)`. `withTrashed` uses a `$ne` operator no adapter interprets.
- Models.Paginate returns the records each instance would be built from, not `Model` instances.
- Models.Delete, Adapters.Issue and the Schema scripts state the TypeError messages in V8's wording ("model.getDeletedAtFieldName is not a function"). Other engines word them differently.
- The related-model supplier of the relationships is an explicit parameter. The subclasses call `getRelatedModel()`, which the base class never defines. `Model.morphTo` passes a record where `MorphTo` expects a function. `Model` declares no static `find`: only the instance `find` at src/models/Model.ts:154 exists, and `IModelConstructor` merely declares a static one. That `find` on a related model is the database's `find` on its table is this model's choice, not something the code does.
- Relationships.MorphTo looks the discriminator up among the registry's own keys only. Keys inherited from `Object.prototype` are not modelled.
- Events.On, Events.Off and Events.Emit treat every event name as absent until subscribed. The source indexes a plain object, so for a name such as "constructor" or "toString" `this.events[event]` is an inherited function. `on`, `off` and `emit` then throw a TypeError, and that case is not modelled.
- Listener side effects are not modelled. `emit` yields the calls it makes, and model events are reduced to the names emitted.
- The rewraps "Database adapter check failed" (src/HugOrm.ts:22) and "Failed to sync model" (src/HugOrm.ts:74) are modelled but cannot fire: neither adapter's `all`, `hasTable` or `createTable` throws.
- Adapters.Issue models only the two adapters here. An adapter that defines `addColumn`, `dropTable` and the rest (the IndexedDB one) is not modelled, so those calls never succeed in this model.
- ErrorUtils.GetErrorMessage renders an object as if it had no properties. `JSON.stringify` of an object or array gives `{}`, and `String` of a `message` that is an object gives "[object Object]". Values are addresses without contents, so `{code: 5}` gives "{}" rather than `{"code":5}`, and a `message` of `[1,2]` gives "[object Object]" rather than "1,2".
- Basics.Lower lowercases ASCII capitals only, where `toLowerCase` folds all of Unicode. Class names are taken to be ASCII.
- Models.Table uses Basics.Lower, so a non-ASCII class name such as `Éclair` derives "Éclairs" here, where the code derives "éclairs".
- Models.DerivedTableIgnoresCase holds for ASCII letter case only, for the same reason.
- Relationships.MorphMany lowercases the class name for its type value with Basics.Lower, so it covers ASCII class names only.
- Orm.GetDatabase returns the database as a value. A model class whose connection is that database keeps its own copy, so writes made through the class are not seen in the HugOrm's `db`, whereas the code shares one adapter object between them.
- The IndexedDB adapter is not modelled. It is a wrapper over the `idb` library and browser upgrade events.
- Connection inheritance between model subclasses is simplified. Each class has its own `connection` slot and shares the global default.

## Findings

| source | as written | input that shows it | evidently intended | confidence | as-written member | corrected member |
|---|---|---|---|---|---|---|
| src/database/adapters/InMemoryAdapter.ts:70-76 | `delete` compares the length of the array it filtered from with that same array's length, so it always returns false | table `users` holding `{id: 1}`, `delete('users', 1)`: the row is removed and `false` is returned | return whether a row was removed | high, not executed | InMemory.DeleteReportsFalseAfterRemoving | InMemory.DeleteReportingRemoval |
| src/database/adapters/LocalStorageAdapter.ts:29-36 | `commit` calls `setData` while `inTransaction` is still true, so the data goes back into the transaction copy, which is then dropped | `beginTransaction()`, `create('t', {})`, `commit()`: the browser store stays `{}` | write the transaction data to the store | high, not executed | LocalStore.CommitAsWrittenLosesWrites | LocalStore.Commit |
| src/migrations/Schema.ts:92-102 | `down` calls `reverse()` on the blueprint's own lists, so each later `down` or `up` of the same script sees the order flipped | on an adapter that defines `dropTable` and `dropColumn` (neither adapter modelled here does, so on them `down` throws first), columns `a`, `b`: the first `down` drops `b` then `a`; the second drops `a` then `b`; a later `up` adds `b` first | drop in reverse definition order every time | medium, not executed | Schema.SecondDownFlipsOrder | Schema.CreateDown |
| src/relationships/BelongsToMany.ts:15-24 | the batch fetch passes `{ id: relatedIds }` to `where`, which compares each row's id with `===` against the array | user 1 linked to role 7 through `role_user`: the resolve returns `[]` | return the rows whose id is in the collected list | high, not executed | Relationships.BelongsToManyMissesLinkedRow | Relationships.BelongsToMany |
| src/models/Model.ts:247-264 | `getDiff` walks every own property, including `_instanceEvents` and `_originalState`, which never equal the original data's fields | `new Model({name: 'a'})`: `isDirty()` is true before any change | compare only the data properties | high, not executed | Models.NewIsDirtyAsWritten | Models.NewIsClean |

=== FILE: adapters.dfy ===
/** The `Adapter` interface (src/database/adapters/Adapter.ts) over the two
    concrete adapters. Of the schema-changing methods both define only
    `createTable`: a `createTable(table, columns)` call reaches that
    one-argument method and is appended to `ddlLog`, and every other
    schema-changing call throws a `TypeError`. The dispatch uses the corrected
    `delete` of `InMemoryAdapter` and the corrected `commit` of
    `LocalStorageAdapter`. */
module Adapters {
  import opened Basics
  import opened Values
  import opened ErrorUtils
  import opened Outcomes
  import opened Storage
  import opened Ddl
  import InMemory
  import LocalStore

  datatype Store = Memory(mem: InMemory.MemAdapter) | Local(local: LocalStore.LocalAdapter)

  datatype Adapter = Adapter(store: Store, ddlLog: seq<DdlCall>) {
    /** The data that `create`, `update`, `delete`, `all`, `where` and `query` see. */
    function View(): Tables {
      match store
      case Memory(m) => m.Target()
      case Local(l) => l.GetData()
    }

    /** The data outside any transaction: what a commit publishes into and a
        rollback returns to. */
    function Committed(): Tables {
      match store
      case Memory(m) => m.data
      case Local(l) => l.stored
    }

    /** The data that `hasTable`, `createTable` and `find` use: the committed
        data for the in-memory adapter, the view for the local-storage one. */
    function TableSource(): Tables {
      match store
      case Memory(m) => m.data
      case Local(l) => l.GetData()
    }

    /** `adapter.inTransaction`. Outside a transaction all three readings agree. */
    function InTransaction(): (b: bool)
      ensures !b ==> View() == Committed() && TableSource() == Committed()
    {
      match store
      case Memory(m) => m.InTransaction()
      case Local(l) => l.InTransaction()
    }
  }

  /** Every table of `a` is in `b` with the same rows. */
  predicate Extends(a: Tables, b: Tables) {
    forall x :: x in a ==> x in b && b[x] == a[x]
  }

  /** An adapter over a fresh in-memory store. */
  const FreshMemory := Adapter(Memory(InMemory.Fresh), [])

  /** An adapter over whatever the browser store holds. */
  function OpenLocal(stored: Tables): (a: Adapter)
    ensures !a.InTransaction() && a.Committed() == stored && a.ddlLog == []
  {
    Adapter(Local(LocalStore.Open(stored)), [])
  }

  function HasTable(a: Adapter, table: string): (b: bool)
    ensures b <==> table in a.TableSource()
  {
    match a.store
    case Memory(m) => InMemory.HasTable(m, table)
    case Local(l) => LocalStore.HasTable(l, table)
  }

  function CreateTable(a: Adapter, table: string): (r: Adapter)
    ensures table in r.TableSource()
    ensures r.InTransaction() == a.InTransaction() && r.ddlLog == a.ddlLog
    ensures Extends(a.View(), r.View()) && Extends(a.Committed(), r.Committed())
    ensures Extends(a.TableSource(), r.TableSource())
    ensures forall x :: x in r.TableSource() ==> x in a.TableSource() || x == table
    ensures forall x :: Rows(r.View(), x) == Rows(a.View(), x) && Rows(r.Committed(), x) == Rows(a.Committed(), x)
  {
    match a.store
    case Memory(m) => a.(store := Memory(InMemory.CreateTable(m, table)))
    case Local(l) => a.(store := Local(LocalStore.CreateTable(l, table)))
  }

  function Find(a: Adapter, table: string, id: Value): (r: Result<Option<Record>>)
    ensures table !in a.TableSource() ==> r == Fail("Table " + table + " does not exist")
    ensures table in a.TableSource() ==> r == Ok(FindById(a.TableSource()[table], id))
  {
    match a.store
    case Memory(m) => InMemory.Find(m, table, id)
    case Local(l) => LocalStore.Find(l, table, id)
  }

  function Create(a: Adapter, table: string, data: Record): (r: Run<Adapter, Record>)
    ensures r.result.Ok?
    ensures r.result.value == WithId(data, |Rows(a.View(), table)| + 1)
    ensures table in r.state.View()
    ensures Rows(r.state.View(), table) == Rows(a.View(), table) + [r.result.value]
    ensures forall x :: x != table ==>
              (x in r.state.View() <==> x in a.View()) && Rows(r.state.View(), x) == Rows(a.View(), x)
    ensures r.state.InTransaction() == a.InTransaction() && r.state.ddlLog == a.ddlLog
    ensures a.InTransaction() ==> r.state.Committed() == a.Committed()
  {
    match a.store
    case Memory(m) =>
      var c := InMemory.Create(m, table, data);
      Run(a.(store := Memory(c.state)), c.result)
    case Local(l) =>
      var c := LocalStore.Create(l, table, data);
      Run(a.(store := Local(c.state)), c.result)
  }

  /** Succeeds exactly when a row of the view carries the id. */
  function Update(a: Adapter, table: string, id: Value, data: Record): (r: Run<Adapter, Record>)
    ensures r.result.Ok? <==> UpdateFirst(Rows(a.View(), table), id, data).Some?
    ensures r.result.Ok? ==>
              var (rows, updated) := UpdateFirst(Rows(a.View(), table), id, data).value;
              r.result.value == updated && r.state.View() == a.View()[table := rows]
    ensures r.result.Err? ==> r.state == a
    ensures r.state.InTransaction() == a.InTransaction() && r.state.ddlLog == a.ddlLog
    ensures a.InTransaction() ==> r.state.Committed() == a.Committed()
  {
    match a.store
    case Memory(m) =>
      var u := InMemory.Update(m, table, id, data);
      Run(a.(store := Memory(u.state)), u.result)
    case Local(l) =>
      var u := LocalStore.Update(l, table, id, data);
      Run(a.(store := Local(u.state)), u.result)
  }

  /** Removes every row of the view with the id. The in-memory adapter reports
      whether a row went; the local-storage one reports `true`, or fails on a
      missing table. */
  function Delete(a: Adapter, table: string, id: Value): (r: Run<Adapter, bool>)
    ensures r.result.Ok? ==> Rows(r.state.View(), table) == WithoutId(Rows(a.View(), table), id)
    ensures r.result.Ok? ==> forall x :: x != table ==> Rows(r.state.View(), x) == Rows(a.View(), x)
    ensures a.store.Memory? ==>
              r.result == Ok(exists i :: 0 <= i < |Rows(a.View(), table)| && HasId(Rows(a.View(), table)[i], id))
    ensures a.store.Local? ==> (r.result.Ok? <==> table in a.View()) && (r.result.Ok? ==> r.result.value)
    ensures table in a.View() ==> r.result.Ok?
    ensures r.result.Ok? ==> table in r.state.View()
    ensures r.result.Err? ==> r.state == a
    ensures r.state.InTransaction() == a.InTransaction() && r.state.ddlLog == a.ddlLog
    ensures a.InTransaction() ==> r.state.Committed() == a.Committed()
  {
    match a.store
    case Memory(m) =>
      var d := InMemory.DeleteReportingRemoval(m, table, id);
      Run(a.(store := Memory(d.state)), d.result)
    case Local(l) =>
      var d := LocalStore.Delete(l, table, id);
      Run(a.(store := Local(d.state)), d.result)
  }

  function All(a: Adapter, table: string): (rows: seq<Record>)
    ensures rows == Rows(a.View(), table)
  {
    match a.store
    case Memory(m) => InMemory.All(m, table)
    case Local(l) => LocalStore.All(l, table)
  }

  function Where(a: Adapter, table: string, conds: Record): (rows: seq<Record>)
    ensures forall x :: x in rows <==> x in Rows(a.View(), table) && Matches(x, conds)
    ensures rows == Storage.Where(Rows(a.View(), table), conds)
  {
    WhereSpec(Rows(a.View(), table), conds);
    match a.store
    case Memory(m) => InMemory.Where(m, table, conds)
    case Local(l) => LocalStore.Where(l, table, conds)
  }

  function Query(a: Adapter, table: string, keep: Record -> bool): (rows: seq<Record>)
    ensures forall x :: x in rows <==> x in Rows(a.View(), table) && keep(x)
  {
    match a.store
    case Memory(m) => InMemory.Query(m, table, keep)
    case Local(l) => LocalStore.Query(l, table, keep)
  }

  function BeginTransaction(a: Adapter): (r: Run<Adapter, ()>)
    ensures a.InTransaction() ==> r == Run(a, Fail("Transaction already started"))
    ensures !a.InTransaction() ==>
              r.result.Ok? && r.state.InTransaction() && r.state.ddlLog == a.ddlLog
              && r.state.Committed() == a.Committed() && r.state.View() == a.Committed()
              && r.state.TableSource() == a.TableSource()
  {
    match a.store
    case Memory(m) =>
      var b := InMemory.BeginTransaction(m);
      Run(a.(store := Memory(b.state)), b.result)
    case Local(l) =>
      var b := LocalStore.BeginTransaction(l);
      Run(a.(store := Local(b.state)), b.result)
  }

  /** Publishes the view: afterwards the committed data is what the
      transaction saw. */
  function Commit(a: Adapter): (r: Run<Adapter, ()>)
    ensures !a.InTransaction() ==> r == Run(a, Fail("No active transaction"))
    ensures a.InTransaction() ==>
              r.result.Ok? && !r.state.InTransaction() && r.state.ddlLog == a.ddlLog
              && r.state.Committed() == a.View()
  {
    match a.store
    case Memory(m) =>
      var c := InMemory.Commit(m);
      Run(a.(store := Memory(c.state)), c.result)
    case Local(l) =>
      var c := LocalStore.Commit(l);
      Run(a.(store := Local(c.state)), c.result)
  }

  /** Drops the view: afterwards the committed data is as it stood. */
  function Rollback(a: Adapter): (r: Run<Adapter, ()>)
    ensures !a.InTransaction() ==> r == Run(a, Fail("No active transaction"))
    ensures a.InTransaction() ==>
              r.result.Ok? && !r.state.InTransaction() && r.state.ddlLog == a.ddlLog
              && r.state.Committed() == a.Committed()
  {
    match a.store
    case Memory(m) =>
      var c := InMemory.Rollback(m);
      Run(a.(store := Memory(c.state)), c.result)
    case Local(l) =>
      var c := LocalStore.Rollback(l);
      Run(a.(store := Local(c.state)), c.result)
  }

  /** The `TypeError` of a schema-changing call to a method the adapter does
      not define, in V8's wording for a call through a parameter named
      `adapter`. */
  function NotAFunction(call: DdlCall): Thrown {
    match call
    case CreateTable(_, _) => ErrorInstance("adapter.createTable is not a function")
    case DropTable(_) => ErrorInstance("adapter.dropTable is not a function")
    case AddColumn(_, _) => ErrorInstance("adapter.addColumn is not a function")
    case DropColumn(_, _) => ErrorInstance("adapter.dropColumn is not a function")
    case AddIndex(_, _) => ErrorInstance("adapter.addIndex is not a function")
    case DropIndex(_, _) => ErrorInstance("adapter.dropIndex is not a function")
  }

  /** Issues one schema-changing call. Of these methods both adapters define
      only their one-argument `createTable`, which answers
      `createTable(table, columns)`; that call is recorded and creates the
      table. Every other call throws a `TypeError` before anything changes. */
  function Issue(a: Adapter, call: DdlCall): (r: Run<Adapter, ()>)
    ensures r.result.Ok? <==> call.CreateTable?
    ensures r.result.Err? ==> r.state == a && r.result.error == NotAFunction(call)
    ensures r.result.Ok? ==> r.state.ddlLog == a.ddlLog + [call] && call.table in r.state.TableSource()
    ensures r.state.InTransaction() == a.InTransaction()
    ensures Extends(a.View(), r.state.View()) && Extends(a.Committed(), r.state.Committed())
  {
    if call.CreateTable? then Run(CreateTable(a.(ddlLog := a.ddlLog + [call]), call.table), Ok(()))
    else Run(a, Err(NotAFunction(call)))
  }
}

=== FILE: basics.dfy ===
/** Small shared vocabulary: an optional value, decimal rendering of integers
    (JavaScript's `String(n)` for integral numbers) with its parser, and the
    ASCII part of `String.prototype.toLowerCase`. */
module Basics {

  /** A value that may be absent; stands for JavaScript's `undefined`/`null` results. */
  datatype Option<T> = None | Some(value: T) {
    function GetOr(default: T): T {
      if Some? then value else default
    }
  }

  predicate IsDigit(c: char) {
    '0' <= c <= '9'
  }

  predicate AllDigits(s: string) {
    forall i :: 0 <= i < |s| ==> IsDigit(s[i])
  }

  function DigitChar(d: nat): (c: char)
    requires d < 10
    ensures IsDigit(c)
    ensures c as int - '0' as int == d
  {
    (('0' as int) + d) as char
  }

  function DigitValue(c: char): (d: nat)
    requires IsDigit(c)
    ensures d < 10
  {
    c as int - '0' as int
  }

  /** Decimal digits of `n`, most significant first, without leading zeros. */
  function NatToString(n: nat): (s: string)
    ensures |s| >= 1
    ensures AllDigits(s)
    ensures |s| > 1 ==> s[0] != '0'
    ensures n < 10 <==> |s| == 1
    decreases n
  {
    if n < 10 then [DigitChar(n)] else NatToString(n / 10) + [DigitChar(n % 10)]
  }

  /** `String(i)` for an integral JavaScript number of modest magnitude. */
  function IntToString(i: int): string {
    if i < 0 then "-" + NatToString(-i) else NatToString(i)
  }

  /** The value of a non-empty run of decimal digits. */
  function ParseDigits(s: string): nat
    requires AllDigits(s)
    decreases |s|
  {
    if |s| == 0 then 0 else ParseDigits(s[..|s| - 1]) * 10 + DigitValue(s[|s| - 1])
  }

  /** Reads an optional minus sign followed by at least one digit. */
  function ParseInt(s: string): Option<int> {
    if |s| > 1 && s[0] == '-' && AllDigits(s[1..]) then
      var magnitude: int := ParseDigits(s[1..]);
      Some(-magnitude)
    else if |s| > 0 && AllDigits(s) then
      var magnitude: int := ParseDigits(s);
      Some(magnitude)
    else None
  }

  lemma {:induction false} NatToStringRoundTrip(n: nat)
    ensures ParseDigits(NatToString(n)) == n
    decreases n
  {
    if n >= 10 {
      var s := NatToString(n);
      NatToStringRoundTrip(n / 10);
      assert s[..|s| - 1] == NatToString(n / 10);
    }
  }

  /** Rendering then parsing gives the integer back. */
  lemma IntToStringRoundTrip(i: int)
    ensures ParseInt(IntToString(i)) == Some(i)
  {
    var s := IntToString(i);
    if i < 0 {
      var digits := NatToString(-i);
      assert s == "-" + digits;
      assert s[1..] == digits;
      NatToStringRoundTrip(-i);
      assert |s| > 1 && s[0] == '-' && AllDigits(s[1..]);
    } else {
      NatToStringRoundTrip(i);
      assert s[0] != '-';
    }
  }

  /** Distinct integers render as distinct strings. */
  lemma IntToStringInjective(a: int, b: int)
    ensures IntToString(a) == IntToString(b) ==> a == b
  {
    IntToStringRoundTrip(a);
    IntToStringRoundTrip(b);
  }

  function LowerChar(c: char): char {
    if 'A' <= c <= 'Z' then (c as int + 32) as char else c
  }

  /** `toLowerCase` restricted to ASCII letters: an upper-case letter
      becomes the lower-case letter at the same place in the alphabet, and
      every other character is kept. */
  function Lower(s: string): (r: string)
    ensures |r| == |s|
    ensures forall i :: 0 <= i < |s| ==>
              if 'A' <= s[i] <= 'Z' then 'a' <= r[i] <= 'z' && r[i] as int - 'a' as int == s[i] as int - 'A' as int
              else r[i] == s[i]
  {
    if |s| == 0 then "" else [LowerChar(s[0])] + Lower(s[1..])
  }

  /** Lowering is idempotent and leaves no upper-case ASCII letter. */
  lemma LowerIdempotent(s: string)
    ensures Lower(Lower(s)) == Lower(s)
    ensures forall i :: 0 <= i < |s| ==> !('A' <= Lower(s)[i] <= 'Z')
  {
  }

  /** `array.reverse()` on a copy. */
  function Reverse<T>(s: seq<T>): (r: seq<T>)
    ensures |r| == |s|
    ensures forall i :: 0 <= i < |s| ==> r[i] == s[|s| - 1 - i]
  {
    if |s| == 0 then [] else Reverse(s[1..]) + [s[0]]
  }

  /** A sequence with no members is empty. */
  lemma NoMembersEmpty<T>(s: seq<T>)
    ensures (forall x :: x !in s) ==> s == []
  {
    if |s| > 0 {
      assert s[0] in s;
    }
  }

  /** Reversing keeps the same elements. */
  lemma ReverseMembers<T>(s: seq<T>)
    ensures forall x :: x in Reverse(s) <==> x in s
  {
    var r := Reverse(s);
    forall x ensures x in r <==> x in s {
      if x in r {
        var i :| 0 <= i < |r| && r[i] == x;
        assert s[|s| - 1 - i] == x;
      }
      if x in s {
        var i :| 0 <= i < |s| && s[i] == x;
        assert r[|s| - 1 - i] == x;
      }
    }
  }
}

=== FILE: checksum.dfy ===
/** `generateChecksum` (src/services/MigrationManager.ts): the 31-multiplier
    string hash over the UTF-16 code units of a script's text, kept as a
    signed 32-bit integer and written after a "c". */
module Hashing {
  import opened Basics

  const Modulus: int := 0x1_0000_0000

  /** The UTF-16 code units of one character: itself below U+10000, else a
      surrogate pair. */
  function CodeUnitsOf(c: char): (us: seq<int>)
    ensures 1 <= |us| <= 2
    ensures forall i :: 0 <= i < |us| ==> 0 <= us[i] < 0x1_0000
    ensures |us| == 1 <==> (c as int) < 0x1_0000
  {
    if (c as int) < 0x1_0000 then [c as int]
    else
      var v := c as int - 0x1_0000;
      [0xD800 + v / 0x400, 0xDC00 + v % 0x400]
  }

  /** What `str.charCodeAt(i)` gives for `i` below `str.length`. */
  function CodeUnits(s: string): (us: seq<int>)
    ensures |s| <= |us| <= 2 * |s|
    ensures forall i :: 0 <= i < |us| ==> 0 <= us[i] < 0x1_0000
  {
    if |s| == 0 then [] else CodeUnitsOf(s[0]) + CodeUnits(s[1..])
  }

  /** The unsigned hash: `h := (31 * h + unit) mod 2^32` from the left, from 0. */
  function UHash(us: seq<int>): (h: int)
    ensures 0 <= h < Modulus
  {
    if |us| == 0 then 0 else (31 * UHash(us[..|us| - 1]) + us[|us| - 1]) % Modulus
  }

  /** An unsigned 32-bit value read as two's-complement. */
  function ToSigned(x: int): (v: int)
    requires 0 <= x < Modulus
    ensures -0x8000_0000 <= v < 0x8000_0000
    ensures (v - x) % Modulus == 0
  {
    if x < 0x8000_0000 then x else x - Modulus
  }

  /** JavaScript's `ToInt32`, which `x | 0` and `x << 5` apply to integral x. */
  function ToInt32(x: int): (v: int)
    ensures -0x8000_0000 <= v < 0x8000_0000
  {
    ToSigned(x % Modulus)
  }

  /** `c${hash}`. */
  function Checksum(text: string): string {
    "c" + IntToString(ToSigned(UHash(CodeUnits(text))))
  }

  /** A checksum is "c" followed by the decimal text of the signed 32-bit
      hash, which reads back as that number. */
  lemma ChecksumShape(text: string)
    ensures var c := Checksum(text);
            && |c| >= 2 && c[0] == 'c'
            && ParseInt(c[1..]) == Some(ToSigned(UHash(CodeUnits(text))))
            && -0x8000_0000 <= ParseInt(c[1..]).value < 0x8000_0000
  {
    var h := ToSigned(UHash(CodeUnits(text)));
    IntToStringRoundTrip(h);
    var c := "c" + IntToString(h);
    assert c[1..] == IntToString(h);
  }

  /** Distinct hashes give distinct checksums, so the checksum determines the hash. */
  lemma ChecksumDeterminesHash(t1: string, t2: string)
    ensures Checksum(t1) == Checksum(t2) <==> UHash(CodeUnits(t1)) == UHash(CodeUnits(t2))
  {
    ChecksumShape(t1);
    ChecksumShape(t2);
    var h1, h2 := UHash(CodeUnits(t1)), UHash(CodeUnits(t2));
    if Checksum(t1) == Checksum(t2) {
      assert Checksum(t1)[1..] == Checksum(t2)[1..];
      assert ToSigned(h1) == ToSigned(h2);
    }
  }

  /** Two integers a multiple of 2^32 apart have the same `ToInt32`. */
  lemma ToInt32Congruent(x: int, y: int, k: int)
    requires x == y + k * Modulus
    ensures ToInt32(x) == ToInt32(y)
  {
    assert x % Modulus == y % Modulus by {
      var q := y / Modulus;
      assert y == q * Modulus + y % Modulus;
      assert x == (q + k) * Modulus + y % Modulus;
    }
  }

  /** One step of the JavaScript loop, `(hash << 5) - hash + unit` then `| 0`,
      is one step of the unsigned fold read as signed. */
  lemma StepAgrees(h: int, prefix: seq<int>, u: int)
    requires 0 <= UHash(prefix) < Modulus
    requires h == ToSigned(UHash(prefix))
    ensures ToInt32(ToInt32(h * 32) - h + u) == ToSigned(UHash(prefix + [u]))
  {
    var p := prefix + [u];
    assert p[..|p| - 1] == prefix;
    var x := UHash(prefix);
    var shifted := ToInt32(h * 32);
    // The shift and the signed reading are each off by a multiple of 2^32.
    var k1 := (shifted - h * 32) / Modulus;
    assert shifted - h * 32 == k1 * Modulus by {
      assert (h * 32) % Modulus == (h * 32) - ((h * 32) / Modulus) * Modulus;
    }
    var k2 := (h - x) / Modulus;
    assert h - x == k2 * Modulus;
    assert shifted - h + u == 31 * x + u + (k1 + 31 * k2) * Modulus;
    ToInt32Congruent(shifted - h + u, 31 * x + u, k1 + 31 * k2);
    assert ToInt32(31 * x + u) == ToSigned((31 * x + u) % Modulus);
  }

  /** The loop of `generateChecksum` over `str.length` code units. */
  method ComputeChecksum(text: string) returns (c: string)
    ensures c == Checksum(text)
  {
    var str := CodeUnits(text);
    var hash := 0;
    var i := 0;
    while i < |str|
      invariant 0 <= i <= |str|
      invariant hash == ToSigned(UHash(str[..i]))
    {
      StepAgrees(hash, str[..i], str[i]);
      assert str[..i] + [str[i]] == str[..i + 1];
      hash := ToInt32(ToInt32(hash * 32) - hash + str[i]);
      i := i + 1;
    }
    assert str[..i] == str;
    c := "c" + IntToString(hash);
  }
}

=== FILE: container.dfy ===
/** `ModelContainer` (src/container/ModelContainer.ts): three registries held
    in JavaScript `Map`s, which keep keys in first-insertion order and let a
    later `set` of a present key replace its value in place. */
module Container {
  import opened Basics
  import opened Scripts

  /** A `Map` as its entries in iteration order. */
  type Entries<K, V> = seq<(K, V)>

  ghost predicate UniqueKeys<K, V>(m: Entries<K, V>) {
    forall i, j :: 0 <= i < j < |m| ==> m[i].0 != m[j].0
  }

  ghost predicate HasKey<K, V>(m: Entries<K, V>, k: K) {
    exists i :: 0 <= i < |m| && m[i].0 == k
  }

  /** Past a first entry of another key, the key is present iff it is in the rest. */
  lemma HasKeyPastHead<K, V>(m: Entries<K, V>, k: K)
    requires |m| > 0 && m[0].0 != k
    ensures HasKey(m, k) <==> HasKey(m[1..], k)
  {
    if HasKey(m, k) {
      var i :| 0 <= i < |m| && m[i].0 == k;
      assert m[1..][i - 1] == m[i];
    }
    if HasKey(m[1..], k) {
      var i :| 0 <= i < |m[1..]| && m[1..][i].0 == k;
      assert m[i + 1] == m[1..][i];
    }
  }

  /** `map.get(k)`. */
  function Lookup<K(==), V>(m: Entries<K, V>, k: K): (r: Option<V>)
    ensures r.None? <==> !HasKey(m, k)
    ensures r.Some? ==> exists i :: 0 <= i < |m| && m[i].0 == k && m[i].1 == r.value
  {
    if |m| == 0 then None
    else if m[0].0 == k then Some(m[0].1)
    else
      var rest := Lookup(m[1..], k);
      HasKeyPastHead(m, k);
      assert rest.Some? ==> exists i :: 0 <= i < |m| && m[i].0 == k && m[i].1 == rest.value by {
        if rest.Some? {
          var i :| 0 <= i < |m[1..]| && m[1..][i].0 == k && m[1..][i].1 == rest.value;
          assert m[i + 1] == m[1..][i];
        }
      }
      rest
  }

  /** `map.set(k, v)`: replaces the value in place when the key is present,
      otherwise appends a new entry. */
  function Put<K(==), V>(m: Entries<K, V>, k: K, v: V): (r: Entries<K, V>)
    ensures HasKey(m, k) ==> |r| == |m|
    ensures !HasKey(m, k) ==> |r| == |m| + 1 && r[|m|] == (k, v)
    ensures forall i :: 0 <= i < |m| ==> r[i].0 == m[i].0
    ensures forall i :: 0 <= i < |m| && m[i].0 != k ==> r[i] == m[i]
    ensures exists i :: 0 <= i < |r| && r[i] == (k, v)
    ensures Lookup(r, k) == Some(v)
    decreases |m|
  {
    if |m| == 0 then [(k, v)]
    else if m[0].0 == k then [(k, v)] + m[1..]
    else
      var rest := Put(m[1..], k, v);
      HasKeyPastHead(m, k);
      assert exists j :: 0 <= j < |rest| + 1 && ([m[0]] + rest)[j] == (k, v) by {
        var i :| 0 <= i < |rest| && rest[i] == (k, v);
        assert ([m[0]] + rest)[i + 1] == (k, v);
      }
      assert ([m[0]] + rest)[1..] == rest;
      [m[0]] + rest
  }

  /** A `set` keeps keys unique. */
  lemma PutKeepsKeysUnique<K, V>(m: Entries<K, V>, k: K, v: V)
    ensures UniqueKeys(m) ==> UniqueKeys(Put(m, k, v))
  {
    var r := Put(m, k, v);
    if !UniqueKeys(m) {
    } else if HasKey(m, k) {
      forall i, j | 0 <= i < j < |r| ensures r[i].0 != r[j].0 {
        assert m[i].0 != m[j].0;
      }
    } else {
      forall i, j | 0 <= i < j < |r| ensures r[i].0 != r[j].0 {
        if j == |m| {
          assert m[i].0 != k;
        } else {
          assert m[i].0 != m[j].0;
        }
      }
    }
  }

  /** `[...map.values()]`. */
  function Values<K, V>(m: Entries<K, V>): (vs: seq<V>)
    ensures |vs| == |m|
    ensures forall i :: 0 <= i < |m| ==> vs[i] == m[i].1
  {
    if |m| == 0 then [] else [m[0].1] + Values(m[1..])
  }

  /** A later `set` of a present key leaves every other entry, and the key's
      position, as they were. */
  lemma {:induction false} LookupAfterPut<K, V>(m: Entries<K, V>, k: K, v: V, other: K)
    requires other != k
    ensures Lookup(Put(m, k, v), other) == Lookup(m, other)
    decreases |m|
  {
    if |m| > 0 && m[0].0 != k {
      LookupAfterPut(m[1..], k, v, other);
    }
  }

  // --- the migration registry, keyed by version ---

  /** Every entry is keyed by its script's version, and keys are unique. */
  ghost predicate WellKeyed(reg: Entries<int, Script>) {
    UniqueKeys(reg) && forall i :: 0 <= i < |reg| ==> reg[i].0 == reg[i].1.version
  }

  const NoMigrations: Entries<int, Script> := []

  /** `registerMigration`: keyed by version, so a later script of the same
      version replaces the earlier one. */
  function RegisterMigration(reg: Entries<int, Script>, s: Script): (r: Entries<int, Script>)
    ensures WellKeyed(reg) ==> WellKeyed(r)
    ensures Lookup(r, s.version) == Some(s)
    ensures forall v :: v != s.version ==> Lookup(r, v) == Lookup(reg, v)
  {
    var r := Put(reg, s.version, s);
    forall v | v != s.version ensures Lookup(r, v) == Lookup(reg, v) {
      LookupAfterPut(reg, s.version, s, v);
    }
    PutKeepsKeysUnique(reg, s.version, s);
    r
  }

  predicate Ascending(ss: seq<Script>) {
    forall i, j :: 0 <= i < j < |ss| ==> ss[i].version <= ss[j].version
  }

  predicate StrictlyAscending(ss: seq<Script>) {
    forall i, j :: 0 <= i < j < |ss| ==> ss[i].version < ss[j].version
  }

  /** Places `s` before the first script of a higher version. */
  function InsertByVersion(s: Script, sorted: seq<Script>): (r: seq<Script>)
    requires Ascending(sorted)
    ensures Ascending(r)
    ensures multiset(r) == multiset(sorted) + multiset{s}
    ensures |r| == |sorted| + 1
  {
    if |sorted| == 0 then [s]
    else if s.version <= sorted[0].version then [s] + sorted
    else
      var rest := InsertByVersion(s, sorted[1..]);
      assert sorted == [sorted[0]] + sorted[1..];
      assert multiset([sorted[0]] + rest) == multiset{sorted[0]} + multiset(rest);
      forall j | 0 <= j < |rest| ensures sorted[0].version <= rest[j].version {
        assert rest[j] in multiset(rest);
        if rest[j] != s {
          assert rest[j] in multiset(sorted[1..]);
          var k :| 0 <= k < |sorted[1..]| && sorted[1..][k] == rest[j];
          assert sorted[k + 1] == rest[j];
        }
      }
      [sorted[0]] + rest
  }

  /** `.sort((a, b) => a.version - b.version)`. */
  function SortByVersion(ss: seq<Script>): (r: seq<Script>)
    ensures Ascending(r)
    ensures multiset(r) == multiset(ss)
  {
    if |ss| == 0 then []
    else
      assert ss == [ss[0]] + ss[1..];
      InsertByVersion(ss[0], SortByVersion(ss[1..]))
  }

  /** `getMigrations`: every registered script exactly once, ascending by version. */
  function GetMigrations(reg: Entries<int, Script>): (r: seq<Script>)
    ensures Ascending(r)
    ensures multiset(r) == multiset(Values(reg))
  {
    SortByVersion(Values(reg))
  }

  predicate DistinctVersions(ss: seq<Script>) {
    forall i, j :: 0 <= i < j < |ss| ==> ss[i].version != ss[j].version
  }

  /** A script present twice in a sequence sits at two indices. */
  lemma TwiceMeansTwoIndices(ss: seq<Script>, x: Script)
    requires multiset(ss)[x] >= 2
    ensures exists p, q :: 0 <= p < q < |ss| && ss[p] == x && ss[q] == x
  {
    assert x in multiset(ss);
    var p :| 0 <= p < |ss| && ss[p] == x;
    assert ss == ss[..p] + [ss[p]] + ss[p + 1..];
    assert multiset(ss) == multiset(ss[..p]) + multiset{x} + multiset(ss[p + 1..]);
    if x in multiset(ss[..p]) {
      var q :| 0 <= q < p && ss[..p][q] == x;
      assert ss[q] == x;
    } else {
      assert x in multiset(ss[p + 1..]);
      var q :| 0 <= q < |ss[p + 1..]| && ss[p + 1..][q] == x;
      assert ss[p + 1 + q] == x;
    }
  }

  /** Rearranging a sequence with distinct versions keeps them distinct. */
  lemma PermutationKeepsDistinct(a: seq<Script>, b: seq<Script>)
    requires DistinctVersions(a) && multiset(a) == multiset(b)
    ensures DistinctVersions(b)
  {
    forall i, j | 0 <= i < j < |b| ensures b[i].version != b[j].version {
      if b[i] == b[j] {
        assert b == b[..j] + b[j..];
        assert b[i] in multiset(b[..j]) by { assert b[..j][i] == b[i]; }
        assert b[j] in multiset(b[j..]) by { assert b[j..][0] == b[j]; }
        assert multiset(b)[b[i]] == multiset(b[..j])[b[i]] + multiset(b[j..])[b[i]];
        TwiceMeansTwoIndices(a, b[i]);
        assert false;
      } else {
        assert b[i] in multiset(a) && b[j] in multiset(a);
        var p :| 0 <= p < |a| && a[p] == b[i];
        var q :| 0 <= q < |a| && a[q] == b[j];
        if p < q {
          assert a[p].version != a[q].version;
        } else {
          assert a[q].version != a[p].version;
        }
      }
    }
  }

  /** Keys are unique, so the versions `getMigrations` returns strictly increase. */
  lemma MigrationsStrictlyIncrease(reg: Entries<int, Script>)
    requires WellKeyed(reg)
    ensures StrictlyAscending(GetMigrations(reg))
  {
    var vs := Values(reg);
    assert DistinctVersions(vs) by {
      forall i, j | 0 <= i < j < |vs| ensures vs[i].version != vs[j].version {
        assert reg[i].0 != reg[j].0;
      }
    }
    PermutationKeepsDistinct(vs, GetMigrations(reg));
  }

  /** After registering, the script of each version is the last one
      registered with it, and `getMigrations` lists it. */
  lemma RegisteredScriptIsListed(reg: Entries<int, Script>, s: Script)
    requires WellKeyed(reg)
    ensures s in GetMigrations(RegisterMigration(reg, s))
  {
    var r := RegisterMigration(reg, s);
    var i :| 0 <= i < |r| && r[i] == (s.version, s);
    assert Values(r)[i] == s;
    assert s in multiset(Values(r));
  }

  /** The script a version maps to is one `getMigrations` lists. */
  lemma LookedUpIsListed(reg: Entries<int, Script>, version: int, s: Script)
    requires Lookup(reg, version) == Some(s)
    ensures s in GetMigrations(reg)
  {
    var i :| 0 <= i < |reg| && reg[i].0 == version && reg[i].1 == s;
    assert Values(reg)[i] == s;
    assert s in multiset(Values(reg));
  }

  // --- the class and instance registries, keyed by class name ---

  /** `registerClass`: the last class registered under a name wins. */
  function RegisterClass<C(==)>(reg: Entries<string, C>, name: string, cls: C): (r: Entries<string, C>)
    ensures GetModelClass(r, name) == Some(cls)
    ensures forall other :: other != name ==> GetModelClass(r, other) == GetModelClass(reg, other)
    ensures UniqueKeys(reg) ==> UniqueKeys(r)
  {
    forall other | other != name ensures Lookup(Put(reg, name, cls), other) == Lookup(reg, other) {
      LookupAfterPut(reg, name, cls, other);
    }
    PutKeepsKeysUnique(reg, name, cls);
    Put(reg, name, cls)
  }

  /** `getModelClass`: `undefined` (`None`) for a name never registered. */
  function GetModelClass<C(==)>(reg: Entries<string, C>, name: string): (r: Option<C>)
    ensures r.None? <==> !HasKey(reg, name)
  {
    Lookup(reg, name)
  }

  /** `getModelClasses`: the classes in first-registration order of their names. */
  function GetModelClasses<C(==)>(reg: Entries<string, C>): (r: seq<C>)
    ensures |r| == |reg|
    ensures forall i :: 0 <= i < |reg| ==> r[i] == reg[i].1
  {
    Values(reg)
  }

  /** `getAllInstances`: `[]` for a name never registered. */
  function GetAllInstances<I(==)>(reg: Entries<string, seq<I>>, name: string): (r: seq<I>)
    ensures !HasKey(reg, name) ==> r == []
    ensures HasKey(reg, name) ==> Some(r) == Lookup(reg, name)
  {
    Lookup(reg, name).GetOr([])
  }

  /** `register`: appends the instance to its class name's list, creating the list first. */
  function Register<I(==)>(reg: Entries<string, seq<I>>, name: string, instance: I): (r: Entries<string, seq<I>>)
    ensures GetAllInstances(r, name) == GetAllInstances(reg, name) + [instance]
    ensures forall other :: other != name ==> GetAllInstances(r, other) == GetAllInstances(reg, other)
    ensures UniqueKeys(reg) ==> UniqueKeys(r)
  {
    var list := GetAllInstances(reg, name);
    forall other | other != name ensures Lookup(Put(reg, name, list + [instance]), other) == Lookup(reg, other) {
      LookupAfterPut(reg, name, list + [instance], other);
    }
    PutKeepsKeysUnique(reg, name, list + [instance]);
    Put(reg, name, list + [instance])
  }
}

=== FILE: database.dfy ===
/** `Database` (src/database/Database.ts): delegates to its adapter, rewraps
    adapter errors with the operation and table as context, and runs
    callbacks in a transaction. A database is identified with its adapter;
    the logger is not modelled. */
module Database {
  import opened Basics
  import opened Values
  import opened ErrorUtils
  import opened Outcomes
  import opened Storage
  import opened Adapters

  function HasTable(db: Adapter, table: string): (b: bool)
    ensures b <==> table in db.TableSource()
  {
    Adapters.HasTable(db, table)
  }

  /** Creates the table only when the adapter reports it missing. */
  function CreateTable(db: Adapter, table: string): (r: Run<Adapter, ()>)
    ensures r.result.Ok?
    ensures table in r.state.TableSource()
    ensures HasTable(db, table) ==> r.state == db
    ensures !HasTable(db, table) ==> r.state == Adapters.CreateTable(db, table)
  {
    var created := if !Adapters.HasTable(db, table) then Adapters.CreateTable(db, table) else db;
    Run(created, Wrap("Failed to create table " + table, Ok(())))
  }

  /** `ensureTable` is `createTable`. */
  function EnsureTable(db: Adapter, table: string): (r: Run<Adapter, ()>)
    ensures r == CreateTable(db, table)
    ensures table in r.state.TableSource()
    ensures Extends(db.TableSource(), r.state.TableSource())
    ensures Extends(db.View(), r.state.View()) && Extends(db.Committed(), r.state.Committed())
    ensures r.state.InTransaction() == db.InTransaction() && r.state.ddlLog == db.ddlLog
    ensures forall x :: Rows(r.state.View(), x) == Rows(db.View(), x)
                        && Rows(r.state.Committed(), x) == Rows(db.Committed(), x)
  {
    CreateTable(db, table)
  }

  function Find(db: Adapter, table: string, id: Value): (r: Result<Option<Record>>)
    ensures r.Ok? <==> table in db.TableSource()
    ensures r.Ok? ==> r.value == FindById(db.TableSource()[table], id)
    ensures r.Err? ==>
              r.error == CreateError("Failed to find record in table " + table, ErrorInstance("Table " + table + " does not exist"))
  {
    Wrap("Failed to find record in table " + table, Adapters.Find(db, table, id))
  }

  function Create(db: Adapter, table: string, data: Record): (r: Run<Adapter, Record>)
    ensures r.result.Ok? && r == Adapters.Create(db, table, data)
  {
    var c := Adapters.Create(db, table, data);
    Run(c.state, Wrap("Failed to create record in table " + table, c.result))
  }

  function Update(db: Adapter, table: string, id: Value, data: Record): (r: Run<Adapter, Record>)
    ensures r.state == Adapters.Update(db, table, id, data).state
    ensures r.result.Ok? <==> Adapters.Update(db, table, id, data).result.Ok?
    ensures r.result.Ok? ==> r.result.value == Adapters.Update(db, table, id, data).result.value
    ensures r.result.Err? ==>
              r.result.error == CreateError("Failed to update record in table " + table, Adapters.Update(db, table, id, data).result.error)
  {
    var u := Adapters.Update(db, table, id, data);
    Run(u.state, Wrap("Failed to update record in table " + table, u.result))
  }

  function All(db: Adapter, table: string): (r: Result<seq<Record>>)
    ensures r == Ok(Rows(db.View(), table))
  {
    Wrap("Failed to fetch all records from table " + table, Ok(Adapters.All(db, table)))
  }

  function Where(db: Adapter, table: string, conds: Record): (r: Result<seq<Record>>)
    ensures r.Ok?
    ensures forall x :: x in r.value <==> x in Rows(db.View(), table) && Matches(x, conds)
    ensures r.value == Storage.Where(Rows(db.View(), table), conds)
  {
    Wrap("Failed to fetch records from table " + table + " with conditions", Ok(Adapters.Where(db, table, conds)))
  }

  function Query(db: Adapter, table: string, keep: Record -> bool): (r: Result<seq<Record>>)
    ensures r.Ok?
    ensures forall x :: x in r.value <==> x in Rows(db.View(), table) && keep(x)
  {
    Wrap("Failed to query records from table " + table, Ok(Adapters.Query(db, table, keep)))
  }

  function Delete(db: Adapter, table: string, id: Value): (r: Run<Adapter, bool>)
    ensures r.state == Adapters.Delete(db, table, id).state
    ensures r.result.Ok? <==> Adapters.Delete(db, table, id).result.Ok?
    ensures r.result.Ok? ==> r.result.value == Adapters.Delete(db, table, id).result.value
    ensures r.result.Err? ==>
              r.result.error == CreateError("Failed to delete record in table " + table, Adapters.Delete(db, table, id).result.error)
  {
    var d := Adapters.Delete(db, table, id);
    Run(d.state, Wrap("Failed to delete record in table " + table, d.result))
  }

  /** The `catch` of `transaction`: roll back, then rethrow as "Transaction
      failed: …"; an error of the rollback itself escapes unwrapped. */
  function Abort<T>(db: Adapter, e: Thrown): Run<Adapter, T> {
    var rb := Rollback(db);
    if rb.result.Err? then Run(rb.state, Err(rb.result.error))
    else Run(rb.state, Err(CreateError("Transaction failed", e)))
  }

  /** `transaction(callback)`: refuses to nest; otherwise begins, runs the
      callback, commits and returns the callback's result, and on any error
      rolls back. The callback is a state transition of the adapter. */
  function Transaction<T>(db: Adapter, body: Adapter -> Run<Adapter, T>): (r: Run<Adapter, T>)
    ensures db.InTransaction() ==> r == Run(db, Fail("Transaction already in progress"))
    ensures !db.InTransaction() ==>
              var inside := body(BeginTransaction(db).state);
              !r.state.InTransaction() && r.state.ddlLog == inside.state.ddlLog
              && (inside.result.Ok? && inside.state.InTransaction() ==>
                    r.result == Ok(inside.result.value) && r.state.Committed() == inside.state.View())
              && (inside.result.Err? && inside.state.InTransaction() ==>
                    r.result == Err(CreateError("Transaction failed", inside.result.error))
                    && r.state.Committed() == inside.state.Committed())
              && (!inside.state.InTransaction() ==> r == Run(inside.state, Fail("No active transaction")))
  {
    if db.InTransaction() then Run(db, Fail("Transaction already in progress"))
    else
      var begun := BeginTransaction(db);
      match begun.result
      case Err(e) => Abort(begun.state, e)
      case Ok(_) =>
        var inside := body(begun.state);
        match inside.result
        case Err(e) => Abort(inside.state, e)
        case Ok(value) =>
          var committed := Commit(inside.state);
          match committed.result
          case Err(e) => Abort(committed.state, e)
          case Ok(_) => Run(committed.state, Ok(value))
  }
}

=== FILE: ddl.dfy ===
/** The column and index descriptions of src/migrations/Schema.ts and the
    schema-changing half of the `Adapter` interface
    (src/database/adapters/Adapter.ts). A call is kept as a value; what the
    two concrete adapters do with one is in the `Adapters` module. */
module Ddl {
  import opened Basics
  import opened Values

  /** `ColumnType`. */
  datatype ColumnType = Increments | StringType | TextType | IntegerType | FloatType | BooleanType | DateType | JsonType

  /** `ColumnDefinition`; an absent optional property is `None`. */
  datatype ColumnDef = ColumnDef(
    name: string,
    ctype: ColumnType,
    nullable: Option<bool>,
    primary: Option<bool>,
    defaultValue: Option<Value>,
    length: Option<int>)

  /** `IndexDefinition`; `locale` may be absent, `null` (`Some(None)`) or a string. */
  datatype IndexDef = IndexDef(
    name: string,
    columns: seq<string>,
    unique: Option<bool>,
    multiEntry: Option<bool>,
    locale: Option<Option<string>>)

  /** An element of `Blueprint.dropIndices`. */
  datatype DropIndexDef = DropIndexDef(table: string, name: string)

  /** One call of a schema-changing adapter method. */
  datatype DdlCall =
    | CreateTable(table: string, columns: seq<ColumnDef>)
    | DropTable(table: string)
    | AddColumn(table: string, column: ColumnDef)
    | DropColumn(table: string, columnName: string)
    | AddIndex(table: string, index: IndexDef)
    | DropIndex(table: string, indexName: string)
}

=== FILE: error_utils.dfy ===
/** What can be thrown, and how `getErrorMessage` / `createError` turn it into
    message text (src/utils/errorUtils.ts). */
module ErrorUtils {
  import opened Basics
  import opened Values

  /** A thrown value, split the way `getErrorMessage` inspects it. */
  datatype Thrown =
      /** `error instanceof Error` */
    | ErrorInstance(message: string)
      /** a non-null object, not an Error, with a `message` property */
    | MessageObject(messageValue: Value)
      /** any other value; `JSON.stringify` succeeds on it */
    | Plain(value: Value)
      /** a value on which `JSON.stringify` throws (a BigInt, a cyclic object);
          `text` is what `String` gives for it */
    | Unserializable(text: string)

  function HexDigit(d: nat): char
    requires d < 16
  {
    "0123456789abcdef"[d]
  }

  /** How `JSON.stringify` writes one character inside a string literal. */
  function EscapeChar(c: char): string {
    if c == '"' then "\\\""
    else if c == '\\' then "\\\\"
    else if c == '\U{8}' then "\\b"
    else if c == '\U{C}' then "\\f"
    else if c == '\n' then "\\n"
    else if c == '\r' then "\\r"
    else if c == '\t' then "\\t"
    else if (c as int) < 0x20 then "\\u00" + [HexDigit(c as int / 16), HexDigit(c as int % 16)]
    else [c]
  }

  function Escape(s: string): string {
    if |s| == 0 then "" else EscapeChar(s[0]) + Escape(s[1..])
  }

  /** `JSON.stringify(s)` for a string. */
  function Quote(s: string): string {
    "\"" + Escape(s) + "\""
  }

  /** `JSON.stringify(v)`; `None` is the `undefined` it returns for `undefined`.
      An object is taken to have no enumerable properties. */
  function Json(v: Value): Option<string> {
    match v
    case Undefined => None
    case Null => Some("null")
    case Bool(b) => Some(if b then "true" else "false")
    case Num(n) => Some(IntToString(n))
    case Str(s) => Some(Quote(s))
    case Obj(_) => Some("{}")
  }

  /** `getErrorMessage(error)`; `None` stands for the `undefined` that
      `JSON.stringify(undefined)` yields. */
  function GetErrorMessage(e: Thrown): (m: Option<string>)
    ensures e.ErrorInstance? ==> m == Some(e.message)
    ensures e.MessageObject? ==> m == Some(Text(e.messageValue))
    ensures e.Unserializable? ==> m == Some(e.text)
    ensures m.None? <==> e == Plain(Undefined)
  {
    match e
    case ErrorInstance(message) => Some(message)
    case MessageObject(message) => Some(Text(message))
    case Plain(value) => Json(value)
    case Unserializable(text) => Some(text)
  }

  /** A template literal `${m}` of the message. */
  function Render(m: Option<string>): string {
    match m
    case Some(s) => s
    case None => "undefined"
  }

  /** `createError(context, error)`: a new Error whose message is the context,
      a colon and a space, then the message of `error`. */
  function CreateError(context: string, e: Thrown): (r: Thrown)
    ensures r.ErrorInstance?
    ensures |r.message| >= |context| + 2
    ensures r.message[..|context| + 2] == context + ": "
    ensures r.message[|context| + 2..] == Render(GetErrorMessage(e))
  {
    var rendered := context + ": " + Render(GetErrorMessage(e));
    assert rendered[..|context| + 2] == context + ": ";
    assert rendered[|context| + 2..] == Render(GetErrorMessage(e));
    ErrorInstance(rendered)
  }

  /** The message text of any thrown value, as `createError` would quote it. */
  function MessageText(e: Thrown): string {
    Render(GetErrorMessage(e))
  }

  // --- reading a JSON string body back, the partner of `Escape` ---

  function HexValue(c: char): Option<nat> {
    if '0' <= c <= '9' then Some(c as int - '0' as int)
    else if 'a' <= c <= 'f' then Some(c as int - 'a' as int + 10)
    else if 'A' <= c <= 'F' then Some(c as int - 'A' as int + 10)
    else None
  }

  /** The character a `\uXXXX` escape denotes, if it is a scalar value. */
  function HexChar(h: string): Option<char>
    requires |h| == 4
  {
    match (HexValue(h[0]), HexValue(h[1]), HexValue(h[2]), HexValue(h[3]))
    case (Some(a), Some(b), Some(c), Some(d)) =>
      var n := ((a * 16 + b) * 16 + c) * 16 + d;
      if n < 0xD800 || (0xDFFF < n && n < 0x11_0000) then Some(n as char) else None
    case _ => None
  }

  function Prepend(c: char, rest: Option<string>): Option<string> {
    match rest
    case Some(s) => Some([c] + s)
    case None => None
  }

  /** Decodes the body of a JSON string literal. */
  function Unescape(s: string): Option<string>
    decreases |s|
  {
    if |s| == 0 then Some("")
    else if s[0] != '\\' then Prepend(s[0], Unescape(s[1..]))
    else if |s| < 2 then None
    else if s[1] == '"' then Prepend('"', Unescape(s[2..]))
    else if s[1] == '\\' then Prepend('\\', Unescape(s[2..]))
    else if s[1] == '/' then Prepend('/', Unescape(s[2..]))
    else if s[1] == 'b' then Prepend('\U{8}', Unescape(s[2..]))
    else if s[1] == 'f' then Prepend('\U{C}', Unescape(s[2..]))
    else if s[1] == 'n' then Prepend('\n', Unescape(s[2..]))
    else if s[1] == 'r' then Prepend('\r', Unescape(s[2..]))
    else if s[1] == 't' then Prepend('\t', Unescape(s[2..]))
    else if s[1] == 'u' && |s| >= 6 then
      match HexChar(s[2..6])
      case Some(c) => Prepend(c, Unescape(s[6..]))
      case None => None
    else None
  }

  /** A control character written as `\u00XX` reads back as itself. */
  lemma UnescapeControlChar(c: char, t: string)
    requires (c as int) < 0x20
    ensures Unescape("\\u00" + [HexDigit(c as int / 16), HexDigit(c as int % 16)] + t) == Prepend(c, Unescape(t))
  {
    var hi, lo := c as int / 16, c as int % 16;
    var s := "\\u00" + [HexDigit(hi), HexDigit(lo)] + t;
    assert s[0] == '\\' && s[1] == 'u' && |s| >= 6;
    assert s[2..6] == ['0', '0', HexDigit(hi), HexDigit(lo)];
    assert HexValue(HexDigit(hi)) == Some(hi);
    assert HexValue(HexDigit(lo)) == Some(lo);
    assert HexChar(s[2..6]) == Some(c);
    assert s[6..] == t;
  }

  /** A two-character escape reads back as the character it stands for. */
  lemma UnescapeShortEscape(c: char, t: string)
    requires c == '"' || c == '\\' || c == '\U{8}' || c == '\U{C}' || c == '\n' || c == '\r' || c == '\t'
    ensures Unescape(EscapeChar(c) + t) == Prepend(c, Unescape(t))
  {
    var s := EscapeChar(c) + t;
    assert |EscapeChar(c)| == 2 && EscapeChar(c)[0] == '\\';
    assert s[2..] == t;
  }

  lemma UnescapeOneChar(c: char, t: string)
    ensures Unescape(EscapeChar(c) + t) == Prepend(c, Unescape(t))
  {
    if c == '"' || c == '\\' || c == '\U{8}' || c == '\U{C}' || c == '\n' || c == '\r' || c == '\t' {
      UnescapeShortEscape(c, t);
    } else if (c as int) < 0x20 {
      UnescapeControlChar(c, t);
    } else {
      var s := EscapeChar(c) + t;
      assert s[1..] == t;
    }
  }

  /** Decoding what `JSON.stringify` wrote inside the quotes gives the string back. */
  lemma {:induction false} EscapeRoundTrip(s: string)
    ensures Unescape(Escape(s)) == Some(s)
    decreases |s|
  {
    if |s| > 0 {
      UnescapeOneChar(s[0], Escape(s[1..]));
      EscapeRoundTrip(s[1..]);
      assert [s[0]] + s[1..] == s;
    }
  }

  /** Messages of `createError` nest: wrapping an Error wraps its message text. */
  lemma CreateErrorOfError(context: string, message: string)
    ensures CreateError(context, ErrorInstance(message)) == ErrorInstance(context + ": " + message)
  {
  }
}

=== FILE: events.dfy ===
/** `EventEmitter` (src/events/EventEmitter.ts): a list of listeners per
    event name. A listener is a function object, identified by its address;
    `!==` on listeners compares addresses. What a listener does when called
    is not modelled: `emit` yields the calls it makes, in order. */
module Events {

  /** A listener function, by identity. */
  type Listener = nat

  /** The emitter's `events` object: event name to listener list. */
  type Emitter = map<string, seq<Listener>>

  /** One listener invocation `listener(payload)`. */
  datatype Call<P> = Call(listener: Listener, payload: P)

  const NoListeners: Emitter := map[]

  /** The listeners of `event`; an event never subscribed has none. */
  function ListenersOf(e: Emitter, event: string): seq<Listener> {
    if event in e then e[event] else []
  }

  /** `on(event, listener)`: creates the list when missing, then appends. */
  function On(e: Emitter, event: string, listener: Listener): (r: Emitter)
    ensures event in r
    ensures ListenersOf(r, event) == ListenersOf(e, event) + [listener]
    ensures forall other :: other != event ==> (other in r <==> other in e) && ListenersOf(r, other) == ListenersOf(e, other)
  {
    var list := if event !in e then [] else e[event];
    e[event := list + [listener]]
  }

  /** `list.filter(l => l !== listener)`. */
  function Without(list: seq<Listener>, listener: Listener): (r: seq<Listener>)
    ensures |r| <= |list|
    ensures forall l :: l in r <==> l in list && l != listener
  {
    if |list| == 0 then []
    else if list[0] != listener then [list[0]] + Without(list[1..], listener)
    else Without(list[1..], listener)
  }

  /** Removing keeps the remaining listeners in their order: it distributes
      over concatenation. */
  lemma {:induction false} WithoutConcat(a: seq<Listener>, b: seq<Listener>, listener: Listener)
    ensures Without(a + b, listener) == Without(a, listener) + Without(b, listener)
    decreases |a|
  {
    if |a| > 0 {
      assert (a + b)[1..] == a[1..] + b;
      WithoutConcat(a[1..], b, listener);
    } else {
      assert a + b == b;
    }
  }

  /** Removing a listener that is not in the list changes nothing. */
  lemma {:induction false} WithoutAbsent(list: seq<Listener>, listener: Listener)
    requires listener !in list
    ensures Without(list, listener) == list
    decreases |list|
  {
    if |list| > 0 {
      assert list[1..] + [] == list[1..];
      assert listener !in list[1..];
      WithoutAbsent(list[1..], listener);
    }
  }

  /** `off(event, listener)`: when the event has a list, drops every
      occurrence of the listener from it; otherwise does nothing. */
  function Off(e: Emitter, event: string, listener: Listener): (r: Emitter)
    ensures event !in e ==> r == e
    ensures event in e ==> event in r
    ensures listener !in ListenersOf(r, event)
    ensures forall l :: l != listener ==> (l in ListenersOf(r, event) <==> l in ListenersOf(e, event))
    ensures forall other :: other != event ==> (other in r <==> other in e) && ListenersOf(r, other) == ListenersOf(e, other)
  {
    if event in e then e[event := Without(e[event], listener)] else e
  }

  /** `emit(event, payload)`: each listener of the event, in registration
      order, called once with the same payload; no list means no calls. */
  function Emit<P>(e: Emitter, event: string, payload: P): (calls: seq<Call<P>>)
    ensures |calls| == |ListenersOf(e, event)|
    ensures forall i :: 0 <= i < |calls| ==> calls[i] == Call(ListenersOf(e, event)[i], payload)
  {
    EmitEach(ListenersOf(e, event), payload)
  }

  /** `list.forEach(listener => listener(payload))`. */
  function EmitEach<P>(list: seq<Listener>, payload: P): (calls: seq<Call<P>>)
    ensures |calls| == |list|
    ensures forall i :: 0 <= i < |list| ==> calls[i] == Call(list[i], payload)
  {
    if |list| == 0 then [] else [Call(list[0], payload)] + EmitEach(list[1..], payload)
  }

  /** Subscribing then unsubscribing a listener leaves the event's list as
      unsubscribing alone would: every earlier occurrence goes too. */
  lemma OnThenOff(e: Emitter, event: string, listener: Listener)
    ensures ListenersOf(Off(On(e, event, listener), event, listener), event)
            == Without(ListenersOf(e, event), listener)
  {
    var list := ListenersOf(e, event);
    WithoutConcat(list, [listener], listener);
    assert Without([listener], listener) == [];
  }

  /** Unsubscribing a different listener commutes with subscribing. */
  lemma OffOtherAfterOn(e: Emitter, event: string, listener: Listener, other: Listener)
    requires other != listener
    ensures ListenersOf(Off(On(e, event, listener), event, other), event)
            == Without(ListenersOf(e, event), other) + [listener]
  {
    var list := ListenersOf(e, event);
    WithoutConcat(list, [listener], other);
    assert [listener][1..] == [];
  }

  /** A listener subscribed last is called last, after all earlier ones. */
  lemma EmitAfterOn<P>(e: Emitter, event: string, listener: Listener, payload: P)
    ensures Emit(On(e, event, listener), event, payload) == Emit(e, event, payload) + [Call(listener, payload)]
  {
  }

  /** Unsubscribing a listener never subscribed to the event leaves the
      listeners that `emit` calls as they were. */
  lemma OffAbsentKeepsCalls<P>(e: Emitter, event: string, listener: Listener, payload: P)
    requires listener !in ListenersOf(e, event)
    ensures Emit(Off(e, event, listener), event, payload) == Emit(e, event, payload)
  {
    if event in e {
      WithoutAbsent(e[event], listener);
    }
  }
}

=== FILE: hug_orm.dfy ===
/** `HugOrm` (src/HugOrm.ts): the setup state machine — database, then
    migration manager, then bootstrap — and the table sync for registered
    model classes. The database, the migration manager and the manager's
    tracking state are the fields `db` and `mgr`. */
module Orm {
  import opened Basics
  import opened Values
  import opened ErrorUtils
  import opened Outcomes
  import opened Storage
  import opened Adapters
  import Database
  import opened Scripts
  import opened Container
  import opened Migrations
  import opened Models
  import opened OrmConfig

  datatype HugOrm = HugOrm(config: Config, db: Option<Adapter>, mgr: Option<Manager>)

  /** `new HugOrm(config)`: neither database nor manager yet. */
  function NewOrm(config: Config): (o: HugOrm)
    ensures o.db.None? && o.mgr.None? && o.config == config
  {
    HugOrm(config, None, None)
  }

  /** The current contents of the one adapter object the configuration,
      the database and the migration manager share: what the database holds
      once there is one, the configured adapter before that. */
  function LiveAdapter(o: HugOrm): Adapter {
    if o.db.Some? then o.db.value else o.config.adapter
  }

  /** `setupDatabase()`: wraps the shared adapter in a new database, then
      probes the tracking table with `all`; a failing probe is rethrown as
      "Database adapter check failed: …". The database stays set either way,
      and setting it up again keeps everything written so far. */
  function SetupDatabase(o: HugOrm): (r: Run<HugOrm, ()>)
    ensures o.db.None? ==> r.state == o.(db := Some(o.config.adapter))
    ensures o.db.Some? ==> r.state == o
    ensures r.result.Ok?
  {
    var live := LiveAdapter(o);
    var probe := Database.All(live, ResolveMigrationTableName(o.config));
    var checked := Wrap("Database adapter check failed", probe);
    var outcome: Result<()> := match checked case Ok(_) => Ok(()) case Err(e) => Err(e);
    Run(o.(db := Some(live)), outcome)
  }

  /** `setupMigrationManager()`: needs the database; the manager tracks the
      resolved migration table and starts at version 0. */
  function SetupMigrationManager(o: HugOrm): (r: Run<HugOrm, ()>)
    ensures o.db.None? ==> r == Run(o, Fail("Database not initialized"))
    ensures o.db.Some? ==>
              r.result.Ok? && r.state == o.(mgr := Some(NewManager(ResolveMigrationTableName(o.config))))
  {
    if o.db.None? then Run(o, Fail("Database not initialized"))
    else Run(o.(mgr := Some(NewManager(ResolveMigrationTableName(o.config)))), Ok(()))
  }

  /** `getDatabase()`. */
  function GetDatabase(o: HugOrm): (r: Result<Adapter>)
    ensures o.db.None? <==> r == Fail("Database not initialized")
    ensures o.db.Some? ==> r == Ok(o.db.value)
  {
    if o.db.None? then Fail("Database not initialized") else Ok(o.db.value)
  }

  /** Whether `syncModels` handles a class: its table name is non-empty. */
  predicate Synced(cls: ModelClass) {
    Table(cls) != ""
  }

  /** `syncModels()`: for every registered class, in registry order, with a
      non-empty table name, creates the table when `hasTable` reports it
      missing. Existing rows are never touched. */
  function SyncModels(db: Adapter, classes: seq<ModelClass>): (r: Adapter)
    ensures forall i :: 0 <= i < |classes| && Synced(classes[i]) ==> Table(classes[i]) in r.TableSource()
    ensures Extends(db.TableSource(), r.TableSource())
    ensures forall x :: x in r.TableSource() ==> x in db.TableSource() || exists i :: 0 <= i < |classes| && Synced(classes[i]) && Table(classes[i]) == x
    ensures forall x :: Rows(r.View(), x) == Rows(db.View(), x) && Rows(r.Committed(), x) == Rows(db.Committed(), x)
    ensures r.InTransaction() == db.InTransaction() && r.ddlLog == db.ddlLog
    decreases |classes|
  {
    if |classes| == 0 then db
    else
      var cls := classes[0];
      var next := if Synced(cls) then Database.CreateTable(db, Table(cls)).state else db;
      var r := SyncModels(next, classes[1..]);
      assert forall i :: 1 <= i < |classes| ==> classes[i] == classes[1..][i - 1];
      r
  }

  /** When every synced table already exists, syncing changes nothing. */
  lemma {:induction false} SyncModelsNoop(db: Adapter, classes: seq<ModelClass>)
    requires forall i :: 0 <= i < |classes| && Synced(classes[i]) ==> Table(classes[i]) in db.TableSource()
    ensures SyncModels(db, classes) == db
    decreases |classes|
  {
    if |classes| > 0 {
      assert forall i :: 0 <= i < |classes[1..]| ==> classes[1..][i] == classes[i + 1];
      SyncModelsNoop(db, classes[1..]);
    }
  }

  /** Syncing twice is syncing once. */
  lemma SyncModelsIdempotent(db: Adapter, classes: seq<ModelClass>)
    ensures SyncModels(SyncModels(db, classes), classes) == SyncModels(db, classes)
  {
    SyncModelsNoop(SyncModels(db, classes), classes);
  }

  /** `bootstrap()`: needs both the database and the manager; syncs the
      tables of the registered classes, then migrates when `autoMigrate` is
      set. `appliedAt` is the migration run's date. */
  function Bootstrap(o: HugOrm, classes: Entries<string, ModelClass>, reg: Entries<int, Script>, appliedAt: Value): (r: Run<HugOrm, ()>)
    ensures o.db.None? || o.mgr.None? ==> r == Run(o, Fail("Initialize database and migration manager first"))
    ensures o.db.Some? && o.mgr.Some? && !o.config.autoMigrate ==>
              r == Run(o.(db := Some(SyncModels(o.db.value, GetModelClasses(classes)))), Ok(()))
    ensures o.db.Some? && o.mgr.Some? && o.config.autoMigrate ==>
              var m := Migrations.Migrate(State(SyncModels(o.db.value, GetModelClasses(classes)), o.mgr.value), reg, appliedAt);
              r == Run(o.(db := Some(m.state.db), mgr := Some(m.state.mgr)), m.result)
  {
    if o.db.None? || o.mgr.None? then Run(o, Fail("Initialize database and migration manager first"))
    else
      var synced := SyncModels(o.db.value, GetModelClasses(classes));
      if !o.config.autoMigrate then Run(o.(db := Some(synced)), Ok(()))
      else
        var m := Migrations.Migrate(State(synced, o.mgr.value), reg, appliedAt);
        Run(o.(db := Some(m.state.db), mgr := Some(m.state.mgr)), m.result)
  }

  /** The setup order is enforced: before `setupDatabase` nothing else
      works; after it the manager can be set up; after both, `bootstrap`
      gets past its guard and, without auto-migration, succeeds having
      created every registered class's table. */
  lemma SetupOrder(config: Config, classes: Entries<string, ModelClass>, reg: Entries<int, Script>, appliedAt: Value)
    ensures var o0 := NewOrm(config);
            && GetDatabase(o0).Err?
            && SetupMigrationManager(o0).result == Fail("Database not initialized")
            && Bootstrap(o0, classes, reg, appliedAt).result == Fail("Initialize database and migration manager first")
    ensures var o1 := SetupDatabase(NewOrm(config)).state;
            && GetDatabase(o1) == Ok(config.adapter)
            && Bootstrap(o1, classes, reg, appliedAt).result.Err?
    ensures var o2 := SetupMigrationManager(SetupDatabase(NewOrm(config)).state).state;
            var b := Bootstrap(o2, classes, reg, appliedAt);
            && o2.mgr == Some(Manager(ResolveMigrationTableName(config), 0))
            && (!config.autoMigrate ==>
                  b.result.Ok?
                  && forall i :: 0 <= i < |classes| && Synced(classes[i].1) ==> Table(classes[i].1) in b.state.db.value.TableSource())
  {
  }

  /** Setting up the database again after a bootstrap keeps the tables and
      rows the bootstrap wrote. */
  lemma SetupAgainKeepsData(config: Config, classes: Entries<string, ModelClass>, reg: Entries<int, Script>, appliedAt: Value)
    ensures var o := SetupMigrationManager(SetupDatabase(NewOrm(config)).state).state;
            var b := Bootstrap(o, classes, reg, appliedAt).state;
            SetupDatabase(b).state.db == b.db && b.db.Some?
  {
  }
}

=== FILE: in_memory.dfy ===
/** `InMemoryAdapter` (src/database/adapters/InMemoryAdapter.ts): tables held in
    memory, with a transaction snapshot that the write and read methods
    redirect to while a transaction is open. `hasTable`, `createTable` and
    `find` always use the committed data. */
module InMemory {
  import opened Basics
  import opened Values
  import opened ErrorUtils
  import opened Outcomes
  import opened Storage

  /** `data` is the committed store; `snapshot` is `transactionSnapshot`, present
      exactly while `inTransaction` is set. */
  datatype MemAdapter = MemAdapter(data: Tables, snapshot: Option<Tables>) {
    predicate InTransaction() {
      snapshot.Some?
    }

    /** `this.inTransaction ? this.transactionSnapshot! : this.data`. */
    function Target(): Tables {
      if snapshot.Some? then snapshot.value else data
    }

    /** Replaces whichever store `Target` designates. */
    function WithTarget(t: Tables): (r: MemAdapter)
      ensures r.Target() == t
      ensures r.InTransaction() == InTransaction()
      ensures InTransaction() ==> r.data == data
    {
      if snapshot.Some? then this.(snapshot := Some(t)) else this.(data := t)
    }
  }

  /** A new adapter: no tables, no transaction. */
  const Fresh := MemAdapter(map[], None)

  function BeginTransaction(a: MemAdapter): (r: Run<MemAdapter, ()>)
    ensures a.InTransaction() ==> r == Run(a, Fail("Transaction already started"))
    ensures !a.InTransaction() ==> r.result.Ok? && r.state.InTransaction()
    ensures !a.InTransaction() ==> r.state.data == a.data && r.state.Target() == a.data
  {
    if a.InTransaction() then Run(a, Fail("Transaction already started"))
    else Run(MemAdapter(a.data, Some(a.data)), Ok(()))
  }

  function Commit(a: MemAdapter): (r: Run<MemAdapter, ()>)
    ensures !a.InTransaction() ==> r == Run(a, Fail("No active transaction"))
    ensures a.InTransaction() ==> r.result.Ok? && !r.state.InTransaction() && r.state.data == a.Target()
  {
    if !a.InTransaction() then Run(a, Fail("No active transaction"))
    else Run(MemAdapter(a.snapshot.value, None), Ok(()))
  }

  function Rollback(a: MemAdapter): (r: Run<MemAdapter, ()>)
    ensures !a.InTransaction() ==> r == Run(a, Fail("No active transaction"))
    ensures a.InTransaction() ==> r.result.Ok? && !r.state.InTransaction() && r.state.data == a.data
  {
    if !a.InTransaction() then Run(a, Fail("No active transaction"))
    else Run(MemAdapter(a.data, None), Ok(()))
  }

  /** Reads the committed data even inside a transaction. */
  predicate HasTable(a: MemAdapter, table: string) {
    table in a.data
  }

  /** Adds the table to the committed data, bypassing any open snapshot. */
  function CreateTable(a: MemAdapter, table: string): (r: MemAdapter)
    ensures HasTable(r, table)
    ensures r.snapshot == a.snapshot
    ensures forall x :: x in a.data ==> x in r.data && r.data[x] == a.data[x]
  {
    a.(data := EnsureTable(a.data, table))
  }

  /** Looks the id up in the committed data; a missing table is an error. */
  function Find(a: MemAdapter, table: string, id: Value): (r: Result<Option<Record>>)
    ensures table !in a.data ==> r == Fail("Table " + table + " does not exist")
    ensures table in a.data ==> r == Ok(FindById(a.data[table], id))
  {
    if table !in a.data then Fail("Table " + table + " does not exist")
    else Ok(FindById(a.data[table], id))
  }

  /** Appends `{...data, id: count + 1}` to the target, creating the table if needed. */
  function Create(a: MemAdapter, table: string, data: Record): (r: Run<MemAdapter, Record>)
    ensures r.result.Ok?
    ensures r.result.value == WithId(data, |Rows(a.Target(), table)| + 1)
    ensures Rows(r.state.Target(), table) == Rows(a.Target(), table) + [r.result.value]
    ensures forall x :: x != table ==>
              (x in r.state.Target() <==> x in a.Target()) && Rows(r.state.Target(), x) == Rows(a.Target(), x)
    ensures r.state.InTransaction() == a.InTransaction()
    ensures a.InTransaction() ==> r.state.data == a.data
  {
    var (t, record) := Insert(a.Target(), table, data);
    Run(a.WithTarget(t), Ok(record))
  }

  /** Merges `data` over the first target row with the id. */
  function Update(a: MemAdapter, table: string, id: Value, data: Record): (r: Run<MemAdapter, Record>)
    ensures UpdateFirst(Rows(a.Target(), table), id, data).None? ==> r == Run(a, Fail("Record not found"))
    ensures UpdateFirst(Rows(a.Target(), table), id, data).Some? ==>
              var (rows, updated) := UpdateFirst(Rows(a.Target(), table), id, data).value;
              r.result == Ok(updated) && r.state == a.WithTarget(a.Target()[table := rows])
  {
    match UpdateFirst(Rows(a.Target(), table), id, data)
    case None => Run(a, Fail("Record not found"))
    case Some((rows, updated)) => Run(a.WithTarget(a.Target()[table := rows]), Ok(updated))
  }

  /** The target after `target[table] = records.filter(record => record.id !== id)`;
      a missing table becomes an empty one. */
  function DeleteState(a: MemAdapter, table: string, id: Value): (r: MemAdapter)
    ensures table in r.Target() && r.Target()[table] == WithoutId(Rows(a.Target(), table), id)
    ensures forall x :: x != table ==>
              (x in r.Target() <==> x in a.Target()) && Rows(r.Target(), x) == Rows(a.Target(), x)
    ensures r.InTransaction() == a.InTransaction()
    ensures a.InTransaction() ==> r.data == a.data
  {
    a.WithTarget(a.Target()[table := WithoutId(Rows(a.Target(), table), id)])
  }

  /** `delete` as written: it compares the length of the array it filtered
      from with that same array's length, so it reports `false` every time. */
  function Delete(a: MemAdapter, table: string, id: Value): Run<MemAdapter, bool> {
    var records := Rows(a.Target(), table);
    var initialLength := |records|;
    Run(DeleteState(a, table, id), Ok(|records| != initialLength))
  }

  /** `delete` as evidently intended: the same removal, reporting whether a row went. */
  function DeleteReportingRemoval(a: MemAdapter, table: string, id: Value): (r: Run<MemAdapter, bool>)
    ensures r.state == Delete(a, table, id).state
    ensures r.result == Ok(exists i :: 0 <= i < |Rows(a.Target(), table)| && HasId(Rows(a.Target(), table)[i], id))
  {
    var records := Rows(a.Target(), table);
    FilterShrinks(records, (r: Record) => !HasId(r, id));
    Run(DeleteState(a, table, id), Ok(|WithoutId(records, id)| != |records|))
  }

  /** The as-written `delete` removes a stored row yet reports `false`. */
  lemma DeleteReportsFalseAfterRemoving()
    ensures var a := MemAdapter(map["users" := [map["id" := Num(1)]]], None);
            var r := Delete(a, "users", Num(1));
            r.result == Ok(false) && Rows(r.state.Target(), "users") == []
            && DeleteReportingRemoval(a, "users", Num(1)).result == Ok(true)
  {
    var row: Record := map["id" := Num(1)];
    assert HasId(row, Num(1));
    assert [row][1..] == [];
  }

  function All(a: MemAdapter, table: string): seq<Record> {
    Rows(a.Target(), table)
  }

  function Where(a: MemAdapter, table: string, conds: Record): seq<Record> {
    Storage.Where(Rows(a.Target(), table), conds)
  }

  function Query(a: MemAdapter, table: string, keep: Record -> bool): seq<Record> {
    Filter(Rows(a.Target(), table), keep)
  }

  // --- transactions as a whole ---

  /** The state after one write; a failing update leaves the state as it was. */
  function ApplyWrite(a: MemAdapter, w: Write): MemAdapter {
    match w
    case CreateOp(table, data) => Create(a, table, data).state
    case UpdateOp(table, id, data) => Update(a, table, id, data).state
    case DeleteOp(table, id) => DeleteState(a, table, id)
  }

  function ApplyWrites(a: MemAdapter, ws: seq<Write>): MemAdapter
    decreases |ws|
  {
    if |ws| == 0 then a else ApplyWrites(ApplyWrite(a, ws[0]), ws[1..])
  }

  /** The same write on two adapters with equal targets gives equal targets. */
  lemma WriteDependsOnTargetOnly(a: MemAdapter, b: MemAdapter, w: Write)
    requires a.Target() == b.Target()
    ensures ApplyWrite(a, w).Target() == ApplyWrite(b, w).Target()
    ensures ApplyWrite(a, w).InTransaction() == a.InTransaction()
    ensures a.InTransaction() ==> ApplyWrite(a, w).data == a.data
  {
  }

  lemma {:induction false} WritesDependOnTargetOnly(a: MemAdapter, b: MemAdapter, ws: seq<Write>)
    requires a.Target() == b.Target()
    ensures ApplyWrites(a, ws).Target() == ApplyWrites(b, ws).Target()
    ensures ApplyWrites(a, ws).InTransaction() == a.InTransaction()
    ensures a.InTransaction() ==> ApplyWrites(a, ws).data == a.data
    decreases |ws|
  {
    if |ws| > 0 {
      WriteDependsOnTargetOnly(a, b, ws[0]);
      WritesDependOnTargetOnly(ApplyWrite(a, ws[0]), ApplyWrite(b, ws[0]), ws[1..]);
    }
  }

  /** Writes made inside a transaction and committed leave the adapter
      exactly as the same writes made without a transaction. */
  lemma CommitPublishesWrites(a: MemAdapter, ws: seq<Write>)
    requires !a.InTransaction()
    ensures var inside := ApplyWrites(BeginTransaction(a).state, ws);
            Commit(inside).result.Ok? && Commit(inside).state == ApplyWrites(a, ws)
  {
    var begun := BeginTransaction(a).state;
    WritesDependOnTargetOnly(begun, a, ws);
    WritesDependOnTargetOnly(a, a, ws);
    var outside := ApplyWrites(a, ws);
    assert !outside.InTransaction();
    assert outside == MemAdapter(outside.Target(), None);
  }

  /** Writes made inside a transaction and rolled back leave no trace. */
  lemma RollbackDiscardsWrites(a: MemAdapter, ws: seq<Write>)
    requires !a.InTransaction()
    ensures var inside := ApplyWrites(BeginTransaction(a).state, ws);
            Rollback(inside).result.Ok? && Rollback(inside).state == a
  {
    var begun := BeginTransaction(a).state;
    WritesDependOnTargetOnly(begun, a, ws);
  }

  /** `createTable` inside a transaction writes the committed data, so the
      commit (which replaces the data by the snapshot) loses the table and a
      rollback keeps it. */
  lemma CreateTableInsideTransaction(a: MemAdapter, table: string)
    requires !a.InTransaction() && table !in a.data
    ensures var inside := CreateTable(BeginTransaction(a).state, table);
            !HasTable(Commit(inside).state, table) && HasTable(Rollback(inside).state, table)
  {
  }
}

=== FILE: local_storage.dfy ===
/** `LocalStorageAdapter` (src/database/adapters/LocalStorageAdapter.ts). The
    browser's `localStorage` entry under the adapter's database name is one
    abstract store of tables; every method reads it through `getData` and
    writes it through `setData`, which use the transaction copy instead while a
    transaction is open. JSON copies are identities on records here. */
module LocalStore {
  import opened Basics
  import opened Values
  import opened ErrorUtils
  import opened Outcomes
  import opened Storage

  /** `stored` is what `localStorage.getItem(dbName)` holds (an absent item
      reads as no tables); `txData` is `transactionData`, present exactly while
      `inTransaction` is set. */
  datatype LocalAdapter = LocalAdapter(stored: Tables, txData: Option<Tables>) {
    predicate InTransaction() {
      txData.Some?
    }

    /** `getData()`. */
    function GetData(): Tables {
      if txData.Some? then txData.value else stored
    }

    /** `setData(data)`. */
    function SetData(d: Tables): (r: LocalAdapter)
      ensures r.GetData() == d
      ensures r.InTransaction() == InTransaction()
      ensures InTransaction() ==> r.stored == stored
    {
      if txData.Some? then this.(txData := Some(d)) else this.(stored := d)
    }
  }

  /** An adapter over whatever the browser store holds, with no transaction. */
  function Open(stored: Tables): LocalAdapter {
    LocalAdapter(stored, None)
  }

  function BeginTransaction(a: LocalAdapter): (r: Run<LocalAdapter, ()>)
    ensures a.InTransaction() ==> r == Run(a, Fail("Transaction already started"))
    ensures !a.InTransaction() ==> r.result.Ok? && r.state.InTransaction()
    ensures !a.InTransaction() ==> r.state.stored == a.stored && r.state.GetData() == a.stored
  {
    if a.InTransaction() then Run(a, Fail("Transaction already started"))
    else Run(LocalAdapter(a.stored, Some(a.GetData())), Ok(()))
  }

  /** `commit` as written: `setData` runs while `inTransaction` is still set, so
      it only rewrites the transaction copy, which is then dropped. */
  function CommitAsWritten(a: LocalAdapter): Run<LocalAdapter, ()> {
    if !a.InTransaction() then Run(a, Fail("No active transaction"))
    else
      var written := a.SetData(a.txData.value);
      Run(LocalAdapter(written.stored, None), Ok(()))
  }

  /** The as-written commit leaves the browser store as it was before the
      transaction: a record created inside it is gone afterwards. */
  lemma CommitAsWrittenLosesWrites(table: string, data: Record)
    ensures var begun := BeginTransaction(Open(map[])).state;
            var created := Create(begun, table, data).state;
            var done := CommitAsWritten(created);
            done.result.Ok? && done.state.stored == map[] && Rows(Commit(created).state.stored, table) != []
  {
  }

  /** `commit` as evidently intended: the transaction copy becomes the store. */
  function Commit(a: LocalAdapter): (r: Run<LocalAdapter, ()>)
    ensures !a.InTransaction() ==> r == Run(a, Fail("No active transaction"))
    ensures a.InTransaction() ==> r.result.Ok? && !r.state.InTransaction() && r.state.stored == a.GetData()
    ensures r.state.InTransaction() == CommitAsWritten(a).state.InTransaction()
  {
    if !a.InTransaction() then Run(a, Fail("No active transaction"))
    else Run(LocalAdapter(a.txData.value, None), Ok(()))
  }

  function Rollback(a: LocalAdapter): (r: Run<LocalAdapter, ()>)
    ensures !a.InTransaction() ==> r == Run(a, Fail("No active transaction"))
    ensures a.InTransaction() ==> r.result.Ok? && !r.state.InTransaction() && r.state.stored == a.stored
  {
    if !a.InTransaction() then Run(a, Fail("No active transaction"))
    else Run(LocalAdapter(a.stored, None), Ok(()))
  }

  predicate HasTable(a: LocalAdapter, table: string) {
    table in a.GetData()
  }

  /** Adds an empty table when the key is absent; otherwise nothing is written. */
  function CreateTable(a: LocalAdapter, table: string): (r: LocalAdapter)
    ensures HasTable(r, table)
    ensures HasTable(a, table) ==> r == a
    ensures r.InTransaction() == a.InTransaction()
    ensures a.InTransaction() ==> r.stored == a.stored
    ensures forall x :: x in a.GetData() ==> x in r.GetData() && r.GetData()[x] == a.GetData()[x]
    ensures forall x :: x in r.GetData() ==> x in a.GetData() || x == table
  {
    var data := a.GetData();
    if table !in data then a.SetData(data[table := []]) else a
  }

  function MissingTable(table: string): string {
    "Table " + table + " does not exist"
  }

  function Find(a: LocalAdapter, table: string, id: Value): (r: Result<Option<Record>>)
    ensures !HasTable(a, table) ==> r == Fail(MissingTable(table))
    ensures HasTable(a, table) ==> r == Ok(FindById(a.GetData()[table], id))
  {
    var data := a.GetData();
    if table !in data then Fail(MissingTable(table)) else Ok(FindById(data[table], id))
  }

  /** Appends `{...data, id: count + 1}`, creating the table if needed. */
  function Create(a: LocalAdapter, table: string, data: Record): (r: Run<LocalAdapter, Record>)
    ensures r.result.Ok?
    ensures r.result.value == WithId(data, |Rows(a.GetData(), table)| + 1)
    ensures Rows(r.state.GetData(), table) == Rows(a.GetData(), table) + [r.result.value]
    ensures table in r.state.GetData()
    ensures forall x :: x != table ==>
              (x in r.state.GetData() <==> x in a.GetData()) && Rows(r.state.GetData(), x) == Rows(a.GetData(), x)
    ensures r.state.InTransaction() == a.InTransaction()
    ensures a.InTransaction() ==> r.state.stored == a.stored
  {
    var (t, record) := Insert(a.GetData(), table, data);
    Run(a.SetData(t), Ok(record))
  }

  function Update(a: LocalAdapter, table: string, id: Value, data: Record): (r: Run<LocalAdapter, Record>)
    ensures !HasTable(a, table) ==> r == Run(a, Fail(MissingTable(table)))
    ensures HasTable(a, table) && UpdateFirst(a.GetData()[table], id, data).None? ==>
              r == Run(a, Fail("Record with id " + Text(id) + " not found in table " + table))
    ensures HasTable(a, table) && UpdateFirst(a.GetData()[table], id, data).Some? ==>
              var (rows, updated) := UpdateFirst(a.GetData()[table], id, data).value;
              r.result == Ok(updated) && r.state == a.SetData(a.GetData()[table := rows])
  {
    var stored := a.GetData();
    if table !in stored then Run(a, Fail(MissingTable(table)))
    else match UpdateFirst(stored[table], id, data)
      case None => Run(a, Fail("Record with id " + Text(id) + " not found in table " + table))
      case Some((rows, updated)) => Run(a.SetData(stored[table := rows]), Ok(updated))
  }

  /** Filters out every row with the id and reports `true`. */
  function Delete(a: LocalAdapter, table: string, id: Value): (r: Run<LocalAdapter, bool>)
    ensures !HasTable(a, table) ==> r == Run(a, Fail(MissingTable(table)))
    ensures HasTable(a, table) ==> r.result == Ok(true)
    ensures HasTable(a, table) ==> r.state == a.SetData(a.GetData()[table := WithoutId(a.GetData()[table], id)])
  {
    var stored := a.GetData();
    if table !in stored then Run(a, Fail(MissingTable(table)))
    else Run(a.SetData(stored[table := WithoutId(stored[table], id)]), Ok(true))
  }

  function All(a: LocalAdapter, table: string): seq<Record> {
    Rows(a.GetData(), table)
  }

  function Where(a: LocalAdapter, table: string, conds: Record): seq<Record> {
    Storage.Where(Rows(a.GetData(), table), conds)
  }

  function Query(a: LocalAdapter, table: string, keep: Record -> bool): seq<Record> {
    Filter(Rows(a.GetData(), table), keep)
  }

  // --- transactions as a whole ---

  /** The state after one write; a failing write leaves the state as it was. */
  function ApplyWrite(a: LocalAdapter, w: Write): LocalAdapter {
    match w
    case CreateOp(table, data) => Create(a, table, data).state
    case UpdateOp(table, id, data) => Update(a, table, id, data).state
    case DeleteOp(table, id) => Delete(a, table, id).state
  }

  function ApplyWrites(a: LocalAdapter, ws: seq<Write>): LocalAdapter
    decreases |ws|
  {
    if |ws| == 0 then a else ApplyWrites(ApplyWrite(a, ws[0]), ws[1..])
  }

  lemma WriteDependsOnDataOnly(a: LocalAdapter, b: LocalAdapter, w: Write)
    requires a.GetData() == b.GetData()
    ensures ApplyWrite(a, w).GetData() == ApplyWrite(b, w).GetData()
    ensures ApplyWrite(a, w).InTransaction() == a.InTransaction()
    ensures a.InTransaction() ==> ApplyWrite(a, w).stored == a.stored
  {
  }

  lemma {:induction false} WritesDependOnDataOnly(a: LocalAdapter, b: LocalAdapter, ws: seq<Write>)
    requires a.GetData() == b.GetData()
    ensures ApplyWrites(a, ws).GetData() == ApplyWrites(b, ws).GetData()
    ensures ApplyWrites(a, ws).InTransaction() == a.InTransaction()
    ensures a.InTransaction() ==> ApplyWrites(a, ws).stored == a.stored
    decreases |ws|
  {
    if |ws| > 0 {
      WriteDependsOnDataOnly(a, b, ws[0]);
      WritesDependOnDataOnly(ApplyWrite(a, ws[0]), ApplyWrite(b, ws[0]), ws[1..]);
    }
  }

  /** With the intended commit, writes made inside a transaction leave the
      adapter exactly as the same writes made directly on the store. */
  lemma CommitPublishesWrites(a: LocalAdapter, ws: seq<Write>)
    requires !a.InTransaction()
    ensures var inside := ApplyWrites(BeginTransaction(a).state, ws);
            Commit(inside).result.Ok? && Commit(inside).state == ApplyWrites(a, ws)
  {
    var begun := BeginTransaction(a).state;
    WritesDependOnDataOnly(begun, a, ws);
    WritesDependOnDataOnly(a, a, ws);
    var outside := ApplyWrites(a, ws);
    assert outside == LocalAdapter(outside.GetData(), None);
  }

  /** Writes made inside a transaction and rolled back leave no trace. */
  lemma RollbackDiscardsWrites(a: LocalAdapter, ws: seq<Write>)
    requires !a.InTransaction()
    ensures var inside := ApplyWrites(BeginTransaction(a).state, ws);
            Rollback(inside).result.Ok? && Rollback(inside).state == a
  {
    var begun := BeginTransaction(a).state;
    WritesDependOnDataOnly(begun, a, ws);
  }

  /** `createTable` inside a transaction goes to the transaction copy: a
      rollback forgets the table, a commit keeps it. */
  lemma CreateTableInsideTransaction(a: LocalAdapter, table: string)
    requires !a.InTransaction() && table !in a.stored
    ensures var inside := CreateTable(BeginTransaction(a).state, table);
            HasTable(Commit(inside).state, table) && !HasTable(Rollback(inside).state, table)
  {
  }
}

=== FILE: migration_manager.dfy ===
/** `MigrationManager` (src/services/MigrationManager.ts): keeps a tracking
    table of applied scripts, applies pending scripts one transaction each,
    reverts them newest first, and compares stored checksums with the
    registered scripts. The registry is `ModelContainer`'s migration map. */
module Migrations {
  import opened Basics
  import opened Values
  import opened ErrorUtils
  import opened Outcomes
  import opened Storage
  import opened Adapters
  import opened Scripts
  import opened Hashing
  import opened Container
  import Database

  /** The manager's own fields: the tracking table's name and `currentVersion`. */
  datatype Manager = Manager(table: string, currentVersion: int)

  /** A manager and the database it works on. */
  datatype State = State(db: Adapter, mgr: Manager)

  /** A manager as constructed: version 0. */
  function NewManager(table: string): (m: Manager)
    ensures m.currentVersion == 0 && m.table == table
  {
    Manager(table, 0)
  }

  /** The row `recordMigration` writes for a script; `appliedAt` is the
      `new Date()` of the call. */
  function TrackingRow(s: Script, appliedAt: Value): Record {
    map["version" := Num(s.version), "name" := Str(s.ctorName), "appliedAt" := appliedAt,
        "checksum" := Str(Checksum(s.text)), "script" := Str(s.text)]
  }

  /** The tracking row as stored, with the id the adapter gives it. */
  function StoredRow(s: Script, appliedAt: Value, id: int): Record {
    WithId(TrackingRow(s, appliedAt), id)
  }

  /** The stored row, with its id, holds the script's version, constructor
      name, checksum and text. */
  lemma StoredRowFields(s: Script, appliedAt: Value, id: int)
    ensures var row := StoredRow(s, appliedAt, id);
            && Get(row, "id") == Num(id)
            && Get(row, "version") == Num(s.version)
            && Get(row, "name") == Str(s.ctorName)
            && Get(row, "appliedAt") == appliedAt
            && Get(row, "checksum") == Str(Checksum(s.text))
            && Get(row, "script") == Str(s.text)
  {
  }

  /** A tracking row's version; rows are only ever written with a number. */
  function VersionOf(row: Record): int {
    match Get(row, "version")
    case Num(n) => n
    case _ => 0
  }

  /** `results.length > 0 ? Math.max(...results.map(m => m.version)) : 0`. */
  function MaxVersion(rows: seq<Record>): (m: int)
    ensures |rows| == 0 ==> m == 0
    ensures forall i :: 0 <= i < |rows| ==> VersionOf(rows[i]) <= m
    ensures |rows| > 0 ==> exists i :: 0 <= i < |rows| && VersionOf(rows[i]) == m
  {
    if |rows| == 0 then 0
    else if |rows| == 1 then VersionOf(rows[0])
    else
      var rest := MaxVersion(rows[1..]);
      assert forall i :: 1 <= i < |rows| ==> rows[i] == rows[1..][i - 1];
      if VersionOf(rows[0]) >= rest then VersionOf(rows[0]) else rest
  }

  /** `bootstrap`: ensure the tracking table, then set `currentVersion` to the
      highest version among its rows. */
  function Bootstrap(st: State): (r: Run<State, ()>)
    ensures r.result.Ok?
    ensures r.state.mgr.table == st.mgr.table
    ensures r.state.db == Database.EnsureTable(st.db, st.mgr.table).state
    ensures st.mgr.table in r.state.db.TableSource()
    ensures r.state.mgr.currentVersion == MaxVersion(Rows(r.state.db.View(), st.mgr.table))
  {
    var ensured := Database.EnsureTable(st.db, st.mgr.table);
    match ensured.result
    case Err(e) => Run(State(ensured.state, st.mgr), Err(e))
    case Ok(_) =>
      match Database.All(ensured.state, st.mgr.table)
      case Err(e) => Run(State(ensured.state, st.mgr), Err(e))
      case Ok(results) => Run(State(ensured.state, st.mgr.(currentVersion := MaxVersion(results))), Ok(()))
  }

  /** The scripts with `keep` true, in order. */
  function FilterScripts(ss: seq<Script>, keep: Script -> bool): (r: seq<Script>)
    ensures forall x :: x in r <==> x in ss && keep(x)
    ensures |r| <= |ss|
    ensures Ascending(ss) ==> Ascending(r)
  {
    if |ss| == 0 then []
    else
      var rest := FilterScripts(ss[1..], keep);
      assert Ascending(ss) ==> forall j :: 0 <= j < |rest| ==> ss[0].version <= rest[j].version by {
        if Ascending(ss) {
          forall j | 0 <= j < |rest| ensures ss[0].version <= rest[j].version {
            assert rest[j] in ss[1..];
            var k :| 0 <= k < |ss[1..]| && ss[1..][k] == rest[j];
            assert ss[k + 1] == rest[j];
          }
        }
      }
      if keep(ss[0]) then [ss[0]] + rest else rest
  }

  /** `this.migrations.filter(m => m.version > this.currentVersion)`. */
  function Pending(reg: Entries<int, Script>, current: int): (r: seq<Script>)
    ensures forall x :: x in r <==> x in GetMigrations(reg) && x.version > current
    ensures Ascending(r)
  {
    FilterScripts(GetMigrations(reg), (m: Script) => m.version > current)
  }

  // --- the loop `migrate` and `rollback` share ---

  /** Which half of a script a loop runs. */
  datatype Direction = Up | Down

  function Body(s: Script, d: Direction): seq<Step> {
    match d
    case Up => s.up
    case Down => s.down
  }

  /** What each loop throws when a script's transaction fails. */
  function FailureMessage(s: Script, d: Direction): string {
    match d
    case Up => "Migration failed at version " + IntToString(s.version)
    case Down => "Rollback failed at version " + IntToString(s.version)
  }

  /** What one iteration of a loop promises when it starts outside a
      transaction: it ends outside one, has issued the schema calls of the
      script's body up to its first throw, keeps the tracking table, and
      fails exactly when the body throws, with the loop's message. */
  predicate IterationOutcome(a: Adapter, s: Script, d: Direction, table: string, r: Run<Adapter, ()>) {
    && !r.state.InTransaction()
    && r.state.ddlLog == a.ddlLog + Trace(Body(s, d))
    && table in r.state.Committed()
    && (r.result.Ok? <==> !Raises(Body(s, d)))
    && (r.result.Err? ==> r.result.error == ErrorInstance(FailureMessage(s, d)))
  }

  /** `for (const migration of list) { try { await transaction(…) } catch { throw … } }`:
      one iteration per script, stopping at the first that fails. */
  function EachScript(db: Adapter, ss: seq<Script>, one: (Adapter, Script) -> Run<Adapter, ()>): Run<Adapter, ()>
    decreases |ss|
  {
    if |ss| == 0 then Run(db, Ok(()))
    else
      var first := one(db, ss[0]);
      match first.result
      case Err(_) => first
      case Ok(_) => EachScript(first.state, ss[1..], one)
  }

  /** The scripts completed before the first whose body throws. */
  function Completed(ss: seq<Script>, d: Direction): (r: seq<Script>)
    ensures |r| <= |ss| && r == ss[..|r|]
    ensures forall i :: 0 <= i < |r| ==> !Raises(Body(ss[i], d))
    ensures |r| < |ss| ==> Raises(Body(ss[|r|], d))
  {
    if |ss| == 0 || Raises(Body(ss[0], d)) then [] else [ss[0]] + Completed(ss[1..], d)
  }

  /** The scripts whose body runs: the completed ones and the one that throws. */
  function Attempted(ss: seq<Script>, d: Direction): (r: seq<Script>)
    ensures |r| <= |ss| && r == ss[..|r|]
    ensures |r| == if |Completed(ss, d)| < |ss| then |Completed(ss, d)| + 1 else |ss|
  {
    if |ss| == 0 then []
    else if Raises(Body(ss[0], d)) then [ss[0]]
    else
      var rest := Attempted(ss[1..], d);
      assert Completed(ss, d) == [ss[0]] + Completed(ss[1..], d);
      assert ss[..|rest| + 1] == [ss[0]] + ss[1..][..|rest|];
      [ss[0]] + rest
  }

  /** The schema calls of the scripts' bodies, one script after another. */
  function Traces(ss: seq<Script>, d: Direction): seq<Ddl.DdlCall> {
    if |ss| == 0 then [] else Trace(Body(ss[0], d)) + Traces(ss[1..], d)
  }

  lemma AppendAssociates<T>(a: seq<T>, b: seq<T>, c: seq<T>)
    ensures (a + b) + c == a + (b + c)
  {
  }

  /** Whatever the iteration does, if each iteration keeps its promise then
      the loop issues the schema calls of every script it attempts, ends
      outside a transaction, succeeds exactly when no body throws, and
      otherwise reports the first script whose body throws. */
  lemma {:induction false} EachScriptOutcome(db: Adapter, table: string, ss: seq<Script>, d: Direction,
                                             one: (Adapter, Script) -> Run<Adapter, ()>)
    requires !db.InTransaction() && table in db.Committed()
    requires forall a: Adapter, s: Script :: !a.InTransaction() && table in a.Committed() ==>
                IterationOutcome(a, s, d, table, one(a, s))
    ensures var r := EachScript(db, ss, one);
            && !r.state.InTransaction()
            && r.state.ddlLog == db.ddlLog + Traces(Attempted(ss, d), d)
            && table in r.state.Committed()
            && (r.result.Ok? <==> |Completed(ss, d)| == |ss|)
            && (r.result.Err? ==>
                  |Completed(ss, d)| < |ss|
                  && r.result.error == ErrorInstance(FailureMessage(ss[|Completed(ss, d)|], d)))
    decreases |ss|
  {
    if |ss| > 0 {
      var first := one(db, ss[0]);
      assert IterationOutcome(db, ss[0], d, table, first);
      if Raises(Body(ss[0], d)) {
        assert Attempted(ss, d) == [ss[0]];
        assert Traces([ss[0]], d) == Trace(Body(ss[0], d)) + [];
      } else {
        var rest := ss[1..];
        EachScriptOutcome(first.state, table, rest, d, one);
        assert Attempted(ss, d)[1..] == Attempted(rest, d);
        assert Traces(Attempted(ss, d), d) == Trace(Body(ss[0], d)) + Traces(Attempted(rest, d), d);
        AppendAssociates(db.ddlLog, Trace(Body(ss[0], d)), Traces(Attempted(rest, d), d));
        assert Completed(ss, d)[1..] == Completed(rest, d);
      }
    } else {
      assert db.ddlLog + [] == db.ddlLog;
    }
  }

  // --- `migrate` ---

  /** The callback `migrate` hands to `transaction`: run `up`, then record
      the script. */
  function UpAndRecord(a: Adapter, table: string, s: Script, appliedAt: Value): (r: Run<Adapter, ()>)
    ensures r.result.Ok? <==> !Raises(s.up)
    ensures r.result.Err? ==> r.result.error == FirstError(s.up)
  {
    var up := RunSteps(a, s.up);
    match up.result
    case Err(e) => Run(up.state, Err(e))
    case Ok(_) =>
      var recorded := Database.Create(up.state, table, TrackingRow(s, appliedAt));
      match recorded.result
      case Err(e) => Run(recorded.state, Err(e))
      case Ok(_) => Run(recorded.state, Ok(()))
  }

  /** One iteration of `migrate`'s loop. */
  function ApplyOne(db: Adapter, table: string, s: Script, appliedAt: Value): Run<Adapter, ()> {
    var t := Database.Transaction(db, (a: Adapter) => UpAndRecord(a, table, s, appliedAt));
    match t.result
    case Err(_) => Run(t.state, Fail(FailureMessage(s, Up)))
    case Ok(_) => Run(t.state, Ok(()))
  }

  /** One iteration of `migrate` issues the schema calls of `up` before any
      throw, ends outside a transaction, and fails exactly when `up` throws,
      with "Migration failed at version V". */
  lemma ApplyOneOutcome(db: Adapter, table: string, s: Script, appliedAt: Value)
    requires !db.InTransaction() && table in db.Committed()
    ensures IterationOutcome(db, s, Up, table, ApplyOne(db, table, s, appliedAt))
  {
    var begun := BeginTransaction(db).state;
    var up := RunSteps(begun, s.up);
    assert table in up.state.Committed();
  }

  /** The tracking rows after an iteration of `migrate`: the script's row is
      committed with it, or nothing is. */
  predicate RecordsRow(a: Adapter, s: Script, table: string, make: (Script, int) -> Record, r: Run<Adapter, ()>) {
    var before := Rows(a.Committed(), table);
    && table in r.state.Committed()
    && (!Raises(s.up) ==> r.state.Committed()[table] == before + [make(s, |before| + 1)])
    && (Raises(s.up) ==> r.state.Committed()[table] == before)
  }

  /** A script's tracking row is committed with it, or not at all. */
  lemma ApplyOneRows(db: Adapter, table: string, s: Script, appliedAt: Value)
    requires !db.InTransaction() && table in db.Committed()
    ensures RecordsRow(db, s, table, Recorder(appliedAt), ApplyOne(db, table, s, appliedAt))
  {
    var begun := BeginTransaction(db).state;
    var up := RunSteps(begun, s.up);
    assert table in up.state.View() && up.state.View()[table] == db.Committed()[table];
    assert table in up.state.Committed() && up.state.Committed()[table] == db.Committed()[table];
  }

  /** `migrate`'s iteration as a value the loop can call. */
  function Applier(table: string, appliedAt: Value): (Adapter, Script) -> Run<Adapter, ()> {
    (a: Adapter, s: Script) => ApplyOne(a, table, s, appliedAt)
  }

  /** `migrate`'s loop. */
  function ApplyEach(db: Adapter, table: string, ss: seq<Script>, appliedAt: Value): Run<Adapter, ()> {
    EachScript(db, ss, Applier(table, appliedAt))
  }

  /** One row per script made by `make`, with ids numbered on from `n`. */
  function Numbered(ss: seq<Script>, n: nat, make: (Script, int) -> Record): (rows: seq<Record>)
    ensures |rows| == |ss|
  {
    if |ss| == 0 then [] else [make(ss[0], n + 1)] + Numbered(ss[1..], n + 1, make)
  }

  lemma {:induction false} NumberedAt(ss: seq<Script>, n: nat, make: (Script, int) -> Record, i: nat)
    requires i < |ss|
    ensures Numbered(ss, n, make)[i] == make(ss[i], n + i + 1)
    decreases i
  {
    if i > 0 {
      NumberedAt(ss[1..], n + 1, make, i - 1);
      assert ss[1..][i - 1] == ss[i];
    }
  }

  /** `recordMigration` for a script and an id, at the run's date. */
  function Recorder(appliedAt: Value): (Script, int) -> Record {
    (s: Script, id: int) => StoredRow(s, appliedAt, id)
  }

  /** Tracking rows for the scripts, numbered on from `n` existing rows. */
  function RowsFor(ss: seq<Script>, n: nat, appliedAt: Value): (rows: seq<Record>)
    ensures |rows| == |ss|
  {
    Numbered(ss, n, Recorder(appliedAt))
  }

  /** The i-th new row records the i-th script under id `n + i + 1`. */
  lemma RowsForAt(ss: seq<Script>, n: nat, appliedAt: Value, i: nat)
    requires i < |ss|
    ensures RowsFor(ss, n, appliedAt)[i] == StoredRow(ss[i], appliedAt, n + i + 1)
  {
    NumberedAt(ss, n, Recorder(appliedAt), i);
    assert Recorder(appliedAt)(ss[i], n + i + 1) == StoredRow(ss[i], appliedAt, n + i + 1);
  }

  /** If each iteration commits its script's row exactly when it succeeds,
      the loop leaves one row per completed script, numbered on from the
      rows already there. */
  lemma {:induction false} EachScriptRows(db: Adapter, table: string, ss: seq<Script>,
                                          make: (Script, int) -> Record,
                                          one: (Adapter, Script) -> Run<Adapter, ()>)
    requires !db.InTransaction() && table in db.Committed()
    requires forall a: Adapter, s: Script :: !a.InTransaction() && table in a.Committed() ==>
                IterationOutcome(a, s, Up, table, one(a, s)) && RecordsRow(a, s, table, make, one(a, s))
    ensures var r := EachScript(db, ss, one);
            var before := db.Committed()[table];
            table in r.state.Committed() && r.state.Committed()[table] == before + Numbered(Completed(ss, Up), |before|, make)
    decreases |ss|
  {
    var before := db.Committed()[table];
    if |ss| > 0 {
      var first := one(db, ss[0]);
      assert IterationOutcome(db, ss[0], Up, table, first) && RecordsRow(db, ss[0], table, make, first);
      if Raises(ss[0].up) {
        assert before + [] == before;
      } else {
        EachScriptRows(first.state, table, ss[1..], make, one);
        NumberedCompleted(ss, |before|, make);
        AppendAssociates(before, [make(ss[0], |before| + 1)],
                         Numbered(Completed(ss[1..], Up), |before| + 1, make));
      }
    } else {
      assert before + [] == before;
    }
  }

  /** A completed first script contributes the first new row. */
  lemma NumberedCompleted(ss: seq<Script>, n: nat, make: (Script, int) -> Record)
    requires |ss| > 0 && !Raises(ss[0].up)
    ensures Numbered(Completed(ss, Up), n, make)
            == [make(ss[0], n + 1)] + Numbered(Completed(ss[1..], Up), n + 1, make)
  {
    assert Completed(ss, Up) == [ss[0]] + Completed(ss[1..], Up);
    assert Completed(ss, Up)[1..] == Completed(ss[1..], Up);
  }

  /** `migrate`'s iteration keeps the promises the loop lemmas ask for. */
  lemma ApplierIterates(table: string, appliedAt: Value)
    ensures forall a: Adapter, s: Script :: !a.InTransaction() && table in a.Committed() ==>
              IterationOutcome(a, s, Up, table, Applier(table, appliedAt)(a, s))
              && RecordsRow(a, s, table, Recorder(appliedAt), Applier(table, appliedAt)(a, s))
  {
    forall a: Adapter, s: Script | !a.InTransaction() && table in a.Committed()
      ensures IterationOutcome(a, s, Up, table, Applier(table, appliedAt)(a, s))
              && RecordsRow(a, s, table, Recorder(appliedAt), Applier(table, appliedAt)(a, s))
    {
      ApplyOneOutcome(a, table, s, appliedAt);
      ApplyOneRows(a, table, s, appliedAt);
    }
  }

  /** `migrate(appliedAt)`: bootstrap, then apply the pending scripts. */
  function Migrate(st: State, reg: Entries<int, Script>, appliedAt: Value): Run<State, ()> {
    var booted := Bootstrap(st);
    match booted.result
    case Err(e) => Run(booted.state, Err(e))
    case Ok(_) =>
      var b := booted.state;
      var applied := ApplyEach(b.db, b.mgr.table, Pending(reg, b.mgr.currentVersion), appliedAt);
      Run(State(applied.state, b.mgr), applied.result)
  }

  /** `migrate` applies, in ascending version order, exactly the registered
      scripts above the highest recorded version, each with its tracking row,
      and stops at the first failure. It does not change `currentVersion`. */
  lemma MigrateAppliesPending(st: State, reg: Entries<int, Script>, appliedAt: Value)
    requires !st.db.InTransaction()
    ensures var b := Bootstrap(st).state;
            var pending := Pending(reg, b.mgr.currentVersion);
            var before := Rows(b.db.Committed(), st.mgr.table);
            var r := Migrate(st, reg, appliedAt);
            && b.mgr.currentVersion == MaxVersion(Rows(st.db.Committed(), st.mgr.table))
            && r.state.mgr == b.mgr
            && !r.state.db.InTransaction()
            && st.mgr.table in r.state.db.Committed()
            && before == Rows(st.db.Committed(), st.mgr.table)
            && r.state.db.ddlLog == st.db.ddlLog + Traces(Attempted(pending, Up), Up)
            && Rows(r.state.db.Committed(), st.mgr.table) == before + RowsFor(Completed(pending, Up), |before|, appliedAt)
            && (r.result.Ok? <==> |Completed(pending, Up)| == |pending|)
            && (r.result.Err? ==>
                  r.result.error == ErrorInstance(FailureMessage(pending[|Completed(pending, Up)|], Up)))
  {
    var b := Bootstrap(st).state;
    var pending := Pending(reg, b.mgr.currentVersion);
    ApplierIterates(b.mgr.table, appliedAt);
    EachScriptOutcome(b.db, b.mgr.table, pending, Up, Applier(b.mgr.table, appliedAt));
    EachScriptRows(b.db, b.mgr.table, pending, Recorder(appliedAt), Applier(b.mgr.table, appliedAt));
  }

  // --- `rollback` ---

  /** The `id` of each row, in order. */
  function IdsOf(rows: seq<Record>): (ids: seq<Value>)
    ensures |ids| == |rows|
    ensures forall i :: 0 <= i < |rows| ==> ids[i] == Get(rows[i], "id")
  {
    if |rows| == 0 then [] else [Get(rows[0], "id")] + IdsOf(rows[1..])
  }

  /** The rows left after deleting each id in turn: those whose id is none of them. */
  function WithoutIds(rows: seq<Record>, ids: seq<Value>): (r: seq<Record>)
    ensures forall x :: x in r <==> x in rows && Get(x, "id") !in ids
    decreases |ids|
  {
    if |ids| == 0 then rows
    else
      var first := WithoutId(rows, ids[0]);
      assert forall x :: x in first <==> x in rows && Get(x, "id") != ids[0];
      assert forall v :: v in ids <==> v == ids[0] || v in ids[1..];
      WithoutIds(first, ids[1..])
  }

  /** `Promise.all(migrations.map(m => db.delete(table, m.id!)))`: one delete
      per row, by its id. */
  function DeleteEach(a: Adapter, table: string, rows: seq<Record>): (r: Run<Adapter, ()>)
    ensures table in a.View() ==>
              r.result.Ok? && table in r.state.View()
              && r.state.View()[table] == WithoutIds(a.View()[table], IdsOf(rows))
    ensures r.state.InTransaction() == a.InTransaction() && r.state.ddlLog == a.ddlLog
    ensures a.InTransaction() ==> r.state.Committed() == a.Committed()
    decreases |rows|
  {
    if |rows| == 0 then Run(a, Ok(()))
    else
      var d := Database.Delete(a, table, Get(rows[0], "id"));
      match d.result
      case Err(e) => Run(d.state, Err(e))
      case Ok(_) =>
        assert IdsOf(rows) == [Get(rows[0], "id")] + IdsOf(rows[1..]);
        DeleteEach(d.state, table, rows[1..])
  }

  /** The tracking rows of a version: `where(table, { version })`. */
  function VersionRows(rows: seq<Record>, version: int): (r: seq<Record>)
    ensures forall x :: x in r <==> x in rows && Get(x, "version") == Num(version)
  {
    var conds := map["version" := Num(version)];
    WhereSpec(rows, conds);
    assert forall x :: Matches(x, conds) <==> Get(x, "version") == Num(version);
    Storage.Where(rows, conds)
  }

  /** `removeMigration`: find the script's tracking rows, then delete each by id. */
  function RemoveMigration(a: Adapter, table: string, s: Script): (r: Run<Adapter, ()>)
    ensures table in a.View() ==>
              var before := a.View()[table];
              r.result.Ok? && table in r.state.View()
              && r.state.View()[table] == WithoutIds(before, IdsOf(VersionRows(before, s.version)))
    ensures r.state.InTransaction() == a.InTransaction() && r.state.ddlLog == a.ddlLog
    ensures a.InTransaction() ==> r.state.Committed() == a.Committed()
  {
    match Database.Where(a, table, map["version" := Num(s.version)])
    case Err(e) => Run(a, Err(e))
    case Ok(found) => DeleteEach(a, table, found)
  }

  /** The callback `rollback` hands to `transaction`: run `down`, then remove
      the script's tracking rows. */
  function DownAndRemove(a: Adapter, table: string, s: Script): (r: Run<Adapter, ()>)
    ensures table in a.View() ==> (r.result.Ok? <==> !Raises(s.down))
    ensures r.result.Err? && Raises(s.down) ==> r.result.error == FirstError(s.down)
  {
    var down := RunSteps(a, s.down);
    match down.result
    case Err(e) => Run(down.state, Err(e))
    case Ok(_) => RemoveMigration(down.state, table, s)
  }

  /** One iteration of `rollback`'s loop. */
  function RevertOne(db: Adapter, table: string, s: Script): Run<Adapter, ()> {
    var t := Database.Transaction(db, (a: Adapter) => DownAndRemove(a, table, s));
    match t.result
    case Err(_) => Run(t.state, Fail(FailureMessage(s, Down)))
    case Ok(_) => Run(t.state, Ok(()))
  }

  /** One iteration of `rollback` issues the schema calls of `down` before
      any throw, ends outside a transaction, and fails exactly when `down`
      throws, with "Rollback failed at version V". */
  lemma RevertOneOutcome(db: Adapter, table: string, s: Script)
    requires !db.InTransaction() && table in db.Committed()
    ensures IterationOutcome(db, s, Down, table, RevertOne(db, table, s))
  {
    var begun := BeginTransaction(db).state;
    var down := RunSteps(begun, s.down);
    assert table in down.state.View() && table in down.state.Committed();
  }

  /** The tracking rows after an iteration of `rollback`: the rows sharing an
      id with a row of the script's version are gone if it succeeded, and
      nothing changed if it failed. */
  predicate RemovesRows(a: Adapter, s: Script, table: string, r: Run<Adapter, ()>) {
    var before := Rows(a.Committed(), table);
    && table in r.state.Committed()
    && (!Raises(s.down) ==> r.state.Committed()[table] == WithoutIds(before, IdsOf(VersionRows(before, s.version))))
    && (Raises(s.down) ==> r.state.Committed()[table] == before)
  }

  lemma RevertOneRows(db: Adapter, table: string, s: Script)
    requires !db.InTransaction() && table in db.Committed()
    ensures RemovesRows(db, s, table, RevertOne(db, table, s))
  {
    var begun := BeginTransaction(db).state;
    var down := RunSteps(begun, s.down);
    assert table in down.state.View() && down.state.View()[table] == db.Committed()[table];
    assert table in down.state.Committed() && down.state.Committed()[table] == db.Committed()[table];
  }

  /** `rollback`'s iteration as a value the loop can call. */
  function Reverter(table: string): (Adapter, Script) -> Run<Adapter, ()> {
    (a: Adapter, s: Script) => RevertOne(a, table, s)
  }

  /** `rollback`'s loop. */
  function RevertEach(db: Adapter, table: string, ss: seq<Script>): Run<Adapter, ()> {
    EachScript(db, ss, Reverter(table))
  }

  /** `rollback`'s iteration keeps the promises the loop lemmas ask for. */
  lemma ReverterIterates(table: string)
    ensures forall a: Adapter, s: Script :: !a.InTransaction() && table in a.Committed() ==>
              IterationOutcome(a, s, Down, table, Reverter(table)(a, s))
              && RemovesRows(a, s, table, Reverter(table)(a, s))
  {
    forall a: Adapter, s: Script | !a.InTransaction() && table in a.Committed()
      ensures IterationOutcome(a, s, Down, table, Reverter(table)(a, s))
              && RemovesRows(a, s, table, Reverter(table)(a, s))
    {
      RevertOneOutcome(a, table, s);
      RevertOneRows(a, table, s);
    }
  }

  /** No two different rows share an id. */
  ghost predicate IdsIdentify(rows: seq<Record>) {
    forall x, y :: x in rows && y in rows && Get(x, "id") == Get(y, "id") ==> x == y
  }

  /** When ids identify rows, removing a script's tracking rows by id removes
      exactly the rows of its version. */
  lemma RemoveVersionExactly(rows: seq<Record>, version: int)
    requires IdsIdentify(rows)
    ensures forall x :: x in WithoutIds(rows, IdsOf(VersionRows(rows, version))) <==>
              x in rows && Get(x, "version") != Num(version)
  {
    var found := VersionRows(rows, version);
    forall x | x in rows
      ensures Get(x, "id") in IdsOf(found) <==> Get(x, "version") == Num(version)
    {
      if Get(x, "id") in IdsOf(found) {
        var i :| 0 <= i < |found| && IdsOf(found)[i] == Get(x, "id");
        assert found[i] in rows;
      }
      if Get(x, "version") == Num(version) {
        var i :| 0 <= i < |found| && found[i] == x;
        assert IdsOf(found)[i] == Get(x, "id");
      }
    }
  }

  /** The versions of the scripts, in order. */
  function VersionsOf(ss: seq<Script>): (vs: seq<Value>)
    ensures |vs| == |ss|
    ensures forall i :: 0 <= i < |ss| ==> vs[i] == Num(ss[i].version)
  {
    if |ss| == 0 then [] else [Num(ss[0].version)] + VersionsOf(ss[1..])
  }

  /** If each iteration removes its script's rows exactly when it succeeds,
      and ids identify rows, the loop leaves exactly the rows whose version
      is not that of a completed script. */
  lemma {:induction false} EachScriptRemoves(db: Adapter, table: string, ss: seq<Script>,
                                             one: (Adapter, Script) -> Run<Adapter, ()>)
    requires !db.InTransaction() && table in db.Committed() && IdsIdentify(db.Committed()[table])
    requires forall a: Adapter, s: Script :: !a.InTransaction() && table in a.Committed() ==>
                IterationOutcome(a, s, Down, table, one(a, s)) && RemovesRows(a, s, table, one(a, s))
    ensures var r := EachScript(db, ss, one);
            var before := db.Committed()[table];
            && table in r.state.Committed()
            && forall x :: x in r.state.Committed()[table] <==>
                 x in before && Get(x, "version") !in VersionsOf(Completed(ss, Down))
    decreases |ss|
  {
    var before := db.Committed()[table];
    if |ss| > 0 {
      var first := one(db, ss[0]);
      assert IterationOutcome(db, ss[0], Down, table, first) && RemovesRows(db, ss[0], table, first);
      if !Raises(ss[0].down) {
        var rest := ss[1..];
        var mid := first.state.Committed()[table];
        RemoveVersionExactly(before, ss[0].version);
        assert forall x :: x in mid <==> x in before && Get(x, "version") != Num(ss[0].version);
        assert IdsIdentify(mid);
        EachScriptRemoves(first.state, table, rest, one);
        assert EachScript(first.state, rest, one) == EachScript(db, ss, one);
        assert Completed(ss, Down) == [ss[0]] + Completed(rest, Down);
        assert VersionsOf(Completed(ss, Down)) == [Num(ss[0].version)] + VersionsOf(Completed(rest, Down));
      }
    }
  }

  /** `version ?? Math.max(0, currentVersion - 1)`. */
  function Target(current: int, version: Option<int>): int {
    version.GetOr(if current - 1 > 0 then current - 1 else 0)
  }

  /** The scripts `rollback` reverts: the registered versions above the target
      and up to the current version, newest first. */
  function Rollbacks(reg: Entries<int, Script>, target: int, current: int): seq<Script> {
    Reverse(FilterScripts(GetMigrations(reg), (m: Script) => m.version > target && m.version <= current))
  }

  predicate Descending(ss: seq<Script>) {
    forall i, j :: 0 <= i < j < |ss| ==> ss[i].version >= ss[j].version
  }

  /** Reversing an ascending list gives a descending one. */
  lemma ReverseDescends(ss: seq<Script>)
    requires Ascending(ss)
    ensures Descending(Reverse(ss))
  {
    var r := Reverse(ss);
    forall i, j | 0 <= i < j < |r| ensures r[i].version >= r[j].version {
      assert r[i] == ss[|ss| - 1 - i] && r[j] == ss[|ss| - 1 - j];
    }
  }

  /** `rollback` reverts exactly the registered scripts in the range, newest first. */
  lemma RollbacksSpec(reg: Entries<int, Script>, target: int, current: int)
    ensures forall x :: x in Rollbacks(reg, target, current) <==>
              x in GetMigrations(reg) && target < x.version <= current
    ensures Descending(Rollbacks(reg, target, current))
  {
    var all := GetMigrations(reg);
    var kept := FilterScripts(all, (m: Script) => m.version > target && m.version <= current);
    assert forall x :: x in kept <==> x in all && target < x.version <= current;
    assert Ascending(kept);
    ReverseMembers(kept);
    ReverseDescends(kept);
  }

  /** With no version given, `rollback` reverts exactly the registered
      scripts of the current version, and none when it is below 1. */
  lemma DefaultRollbackRevertsCurrent(reg: Entries<int, Script>, current: int)
    ensures forall x :: x in Rollbacks(reg, Target(current, None), current) <==>
              x in GetMigrations(reg) && x.version == current && current >= 1
  {
    RollbacksSpec(reg, Target(current, None), current);
  }

  /** `rollback(version)`: bootstrap, then revert the scripts in the range. */
  function Rollback(st: State, reg: Entries<int, Script>, version: Option<int>): Run<State, ()> {
    var booted := Bootstrap(st);
    match booted.result
    case Err(e) => Run(booted.state, Err(e))
    case Ok(_) =>
      var b := booted.state;
      var current := b.mgr.currentVersion;
      var reverted := RevertEach(b.db, b.mgr.table, Rollbacks(reg, Target(current, version), current));
      Run(State(reverted.state, b.mgr), reverted.result)
  }

  /** `rollback` runs the `down` of each script in the range, newest first,
      stopping at the first that throws with "Rollback failed at version V";
      when ids identify the tracking rows, exactly the rows of the reverted
      versions are gone. It does not change `currentVersion`. */
  lemma RollbackRevertsRange(st: State, reg: Entries<int, Script>, version: Option<int>)
    requires !st.db.InTransaction()
    ensures var b := Bootstrap(st).state;
            var current := b.mgr.currentVersion;
            var list := Rollbacks(reg, Target(current, version), current);
            var before := Rows(b.db.Committed(), st.mgr.table);
            var r := Rollback(st, reg, version);
            && r.state.mgr == b.mgr
            && !r.state.db.InTransaction()
            && r.state.db.ddlLog == st.db.ddlLog + Traces(Attempted(list, Down), Down)
            && (r.result.Ok? <==> |Completed(list, Down)| == |list|)
            && (r.result.Err? ==>
                  r.result.error == ErrorInstance(FailureMessage(list[|Completed(list, Down)|], Down)))
            && (IdsIdentify(before) ==>
                  forall x :: x in Rows(r.state.db.Committed(), st.mgr.table) <==>
                    x in before && Get(x, "version") !in VersionsOf(Completed(list, Down)))
  {
    var b := Bootstrap(st).state;
    var current := b.mgr.currentVersion;
    var list := Rollbacks(reg, Target(current, version), current);
    ReverterIterates(b.mgr.table);
    EachScriptOutcome(b.db, b.mgr.table, list, Down, Reverter(b.mgr.table));
    if IdsIdentify(Rows(b.db.Committed(), st.mgr.table)) {
      EachScriptRemoves(b.db, b.mgr.table, list, Reverter(b.mgr.table));
    }
  }

  // --- `validate` and `status` ---

  /** `migrations.find(m => m.version === applied.version)`. */
  function FindScript(ss: seq<Script>, version: Value): (r: Option<Script>)
    ensures r.Some? ==> r.value in ss && Num(r.value.version) == version
    ensures r.None? <==> forall i :: 0 <= i < |ss| ==> Num(ss[i].version) != version
  {
    if |ss| == 0 then None
    else if Num(ss[0].version) == version then Some(ss[0])
    else FindScript(ss[1..], version)
  }

  /** `migration && generateChecksum(migration) === applied.checksum`, read as a truth value. */
  predicate RowValid(ss: seq<Script>, row: Record) {
    match FindScript(ss, Get(row, "version"))
    case None => false
    case Some(m) => Str(Checksum(m.text)) == Get(row, "checksum")
  }

  /** `validate`: every tracking row has a registered script of its version
      whose checksum is the stored one. It does not bootstrap. */
  function Validate(st: State, reg: Entries<int, Script>): Result<bool> {
    match Database.All(st.db, st.mgr.table)
    case Err(e) => Err(e)
    case Ok(applied) => Ok(forall i :: 0 <= i < |applied| ==> RowValid(GetMigrations(reg), applied[i]))
  }

  /** The registered script, if any, of the row's version has the stored checksum. */
  ghost predicate RowMatchesRegistry(reg: Entries<int, Script>, row: Record) {
    exists m :: m in GetMigrations(reg) && Num(m.version) == Get(row, "version")
                && Str(Checksum(m.text)) == Get(row, "checksum")
  }

  /** Versions are unique, so the script `find` returns is the only one of its version. */
  lemma FindScriptUnique(reg: Entries<int, Script>, m: Script)
    requires WellKeyed(reg) && m in GetMigrations(reg)
    ensures FindScript(GetMigrations(reg), Num(m.version)) == Some(m)
  {
    var ss := GetMigrations(reg);
    MigrationsStrictlyIncrease(reg);
    var found := FindScript(ss, Num(m.version));
    var i :| 0 <= i < |ss| && ss[i] == m;
    assert found.Some?;
    var j :| 0 <= j < |ss| && ss[j] == found.value;
  }

  /** `validate` holds exactly when every tracking row of the view matches a
      registered script of its version and checksum; an empty or missing
      table validates. */
  lemma ValidateSpec(st: State, reg: Entries<int, Script>)
    requires WellKeyed(reg)
    ensures var rows := Rows(st.db.View(), st.mgr.table);
            && Validate(st, reg).Ok?
            && (Validate(st, reg).value <==> forall i :: 0 <= i < |rows| ==> RowMatchesRegistry(reg, rows[i]))
            && (|rows| == 0 ==> Validate(st, reg).value)
  {
    var rows := Rows(st.db.View(), st.mgr.table);
    var ss := GetMigrations(reg);
    forall i | 0 <= i < |rows| ensures RowValid(ss, rows[i]) <==> RowMatchesRegistry(reg, rows[i]) {
      if RowMatchesRegistry(reg, rows[i]) {
        var m :| m in ss && Num(m.version) == Get(rows[i], "version")
                 && Str(Checksum(m.text)) == Get(rows[i], "checksum");
        FindScriptUnique(reg, m);
      }
    }
  }

  /** A stored checksum that differs from the registered script's makes
      `validate` false. */
  lemma ValidateDetectsDrift(st: State, reg: Entries<int, Script>, row: Record, m: Script)
    requires WellKeyed(reg) && Lookup(reg, m.version) == Some(m)
    requires row in Rows(st.db.View(), st.mgr.table)
    requires Get(row, "version") == Num(m.version) && Get(row, "checksum") != Str(Checksum(m.text))
    ensures Validate(st, reg) == Ok(false)
  {
    var rows := Rows(st.db.View(), st.mgr.table);
    var ss := GetMigrations(reg);
    var k :| 0 <= k < |rows| && rows[k] == row;
    LookedUpIsListed(reg, m.version, m);
    FindScriptUnique(reg, m);
    assert !RowValid(ss, rows[k]);
  }

  /** `status`'s result. */
  datatype Status = Status(currentVersion: int, pending: nat, history: seq<Record>)

  /** `status`: bootstrap, then report the version, the number of pending
      scripts and the tracking rows. */
  function GetStatus(st: State, reg: Entries<int, Script>): Run<State, Status> {
    var booted := Bootstrap(st);
    match booted.result
    case Err(e) => Run(booted.state, Err(e))
    case Ok(_) =>
      var b := booted.state;
      match Database.All(b.db, b.mgr.table)
      case Err(e) => Run(b, Err(e))
      case Ok(history) =>
        Run(b, Ok(Status(b.mgr.currentVersion, |Pending(reg, b.mgr.currentVersion)|, history)))
  }

  /** `status` reports the highest recorded version, the tracking rows, and
      a pending count that is zero exactly when no registered script is
      above that version. */
  lemma StatusReports(st: State, reg: Entries<int, Script>)
    requires !st.db.InTransaction()
    ensures var rows := Rows(st.db.Committed(), st.mgr.table);
            var r := GetStatus(st, reg);
            && r.result.Ok?
            && r.result.value.currentVersion == MaxVersion(rows)
            && r.result.value.history == rows
            && (r.result.value.pending == 0 <==> forall m :: m in GetMigrations(reg) ==> m.version <= MaxVersion(rows))
  {
    var rows := Rows(st.db.Committed(), st.mgr.table);
    var pending := Pending(reg, MaxVersion(rows));
    if |pending| > 0 {
      assert pending[0] in pending;
    }
  }

  // --- `migrate` twice, and `validate` after `migrate` ---

  /** The k-th recorded row carries the k-th script's version. */
  lemma RecordedVersion(ss: seq<Script>, n: nat, appliedAt: Value, k: nat)
    requires k < |ss|
    ensures VersionOf(RowsFor(ss, n, appliedAt)[k]) == ss[k].version
  {
    RowsForAt(ss, n, appliedAt, k);
    StoredRowFields(ss[k], appliedAt, n + k + 1);
  }

  /** Appending rows that carry the given scripts' versions keeps the old
      maximum and covers every one of those versions. */
  lemma MaxVersionOfAppended(before: seq<Record>, added: seq<Record>, ss: seq<Script>)
    requires |added| == |ss|
    requires forall k :: 0 <= k < |ss| ==> VersionOf(added[k]) == ss[k].version
    requires forall s :: s in ss ==> s.version > MaxVersion(before)
    ensures MaxVersion(before) <= MaxVersion(before + added)
    ensures forall s :: s in ss ==> s.version <= MaxVersion(before + added)
  {
    var rows := before + added;
    if |before| > 0 {
      var i :| 0 <= i < |before| && VersionOf(before[i]) == MaxVersion(before);
      assert rows[i] == before[i];
    } else if |ss| > 0 {
      assert rows[0] == added[0];
    } else {
      assert rows == [];
    }
    forall s | s in ss ensures s.version <= MaxVersion(rows) {
      var k :| 0 <= k < |ss| && ss[k] == s;
      assert rows[|before| + k] == added[k];
    }
  }

  /** Rows recorded for scripts above the highest version raise it to cover them. */
  lemma MaxVersionCoversRecorded(before: seq<Record>, ss: seq<Script>, appliedAt: Value)
    requires forall s :: s in ss ==> s.version > MaxVersion(before)
    ensures var rows := before + RowsFor(ss, |before|, appliedAt);
            && MaxVersion(before) <= MaxVersion(rows)
            && forall s :: s in ss ==> s.version <= MaxVersion(rows)
  {
    var added := RowsFor(ss, |before|, appliedAt);
    forall k | 0 <= k < |ss| ensures VersionOf(added[k]) == ss[k].version {
      RecordedVersion(ss, |before|, appliedAt, k);
    }
    MaxVersionOfAppended(before, added, ss);
  }

  /** After a `migrate` that succeeds, nothing is pending: the next `migrate`
      issues no schema call and leaves the database as it is. */
  lemma MigrateTwiceAppliesNothing(st: State, reg: Entries<int, Script>, first: Value, second: Value)
    requires !st.db.InTransaction() && Migrate(st, reg, first).result.Ok?
    ensures var once := Migrate(st, reg, first).state;
            var twice := Migrate(once, reg, second);
            && twice.result.Ok?
            && twice.state.db == once.db
            && Pending(reg, twice.state.mgr.currentVersion) == []
  {
    MigrateAppliesPending(st, reg, first);
    var b := Bootstrap(st).state;
    var pending := Pending(reg, b.mgr.currentVersion);
    var before := Rows(b.db.Committed(), st.mgr.table);
    assert Completed(pending, Up) == pending;
    var once := Migrate(st, reg, first).state;
    var rows := Rows(once.db.Committed(), st.mgr.table);
    MaxVersionCoversRecorded(before, pending, first);
    var again := Bootstrap(once).state;
    assert again.db == once.db;
    assert again.mgr.currentVersion == MaxVersion(rows);
    NothingPendingAbove(reg, MaxVersion(rows));
  }

  /** No registered script is pending above a version no script exceeds. */
  lemma NothingPendingAbove(reg: Entries<int, Script>, v: int)
    requires forall s :: s in GetMigrations(reg) ==> s.version <= v
    ensures Pending(reg, v) == []
  {
    NoMembersEmpty(Pending(reg, v));
  }

  /** A row recorded for a registered script is valid. */
  lemma RecordedRowValid(reg: Entries<int, Script>, ss: seq<Script>, n: nat, appliedAt: Value, k: nat)
    requires WellKeyed(reg) && k < |ss| && ss[k] in GetMigrations(reg)
    ensures RowValid(GetMigrations(reg), RowsFor(ss, n, appliedAt)[k])
  {
    RowsForAt(ss, n, appliedAt, k);
    StoredRowFields(ss[k], appliedAt, n + k + 1);
    FindScriptUnique(reg, ss[k]);
  }

  /** Appending rows recorded for registered scripts keeps every row valid. */
  lemma RecordingKeepsValid(reg: Entries<int, Script>, before: seq<Record>, ss: seq<Script>, appliedAt: Value)
    requires WellKeyed(reg)
    requires forall i :: 0 <= i < |before| ==> RowValid(GetMigrations(reg), before[i])
    requires forall s :: s in ss ==> s in GetMigrations(reg)
    ensures var rows := before + RowsFor(ss, |before|, appliedAt);
            forall i :: 0 <= i < |rows| ==> RowValid(GetMigrations(reg), rows[i])
  {
    var added := RowsFor(ss, |before|, appliedAt);
    var rows := before + added;
    forall i | 0 <= i < |rows| ensures RowValid(GetMigrations(reg), rows[i]) {
      if i >= |before| {
        RecordedRowValid(reg, ss, |before|, appliedAt, i - |before|);
        assert rows[i] == added[i - |before|];
      } else {
        assert rows[i] == before[i];
      }
    }
  }

  /** The scripts a `migrate` from `st` applies: the pending ones up to the
      first whose `up` throws. */
  function Applied(st: State, reg: Entries<int, Script>): (ss: seq<Script>)
    ensures forall s :: s in ss ==> s in GetMigrations(reg)
  {
    var pending := Pending(reg, Bootstrap(st).state.mgr.currentVersion);
    var done := Completed(pending, Up);
    assert forall s :: s in done ==> s in pending;
    done
  }

  /** A `migrate` adds to the tracking table exactly one row per script it
      applies, and ends outside a transaction. */
  lemma MigrateRecordsApplied(st: State, reg: Entries<int, Script>, appliedAt: Value)
    requires !st.db.InTransaction()
    ensures var r := Migrate(st, reg, appliedAt).state;
            var before := Rows(st.db.Committed(), st.mgr.table);
            && !r.db.InTransaction() && r.mgr.table == st.mgr.table
            && Rows(r.db.Committed(), st.mgr.table) == before + RowsFor(Applied(st, reg), |before|, appliedAt)
  {
    MigrateAppliesPending(st, reg, appliedAt);
  }

  /** A `migrate` keeps a valid tracking table valid: every row it adds
      records a registered script with that script's checksum. */
  lemma ValidateAfterMigrate(st: State, reg: Entries<int, Script>, appliedAt: Value)
    requires WellKeyed(reg) && !st.db.InTransaction() && Validate(st, reg) == Ok(true)
    ensures Validate(Migrate(st, reg, appliedAt).state, reg) == Ok(true)
  {
    MigrateRecordsApplied(st, reg, appliedAt);
    var before := Rows(st.db.Committed(), st.mgr.table);
    RecordingKeepsValid(reg, before, Applied(st, reg), appliedAt);
  }
}

=== FILE: models.dfy ===
/** `Model` (src/models/Model.ts): the static table name and connection
    lookup, dirty tracking, and the `save`/`update`/`delete`/`paginate`
    operations against the database.

    An instance is its own enumerable properties (`own`), which include the
    two bookkeeping properties every instance gets from its field
    initialisers, `_instanceEvents` and `_originalState`, together with the
    contents of the object `_originalState` points to (`original`). Dates
    and freshly copied objects are fresh addresses passed in by the caller.
    The class-level event emitter is reduced to the names of the events an
    operation emits, in order. */
module Models {
  import opened Basics
  import opened Values
  import opened ErrorUtils
  import opened Outcomes
  import opened Storage
  import opened Adapters
  import Database
  import opened Pagination

  /** The static side of a model class: its name, a `table` override if the
      subclass declares one, and the `timestamps` and `softDeletes` flags.
      `deletedAtField` is what `getDeletedAtFieldName()` returns, `None` when
      the class does not define that method. */
  datatype ModelClass = ModelClass(name: string, tableOverride: Option<string>, timestamps: bool,
                                   softDeletes: bool, deletedAtField: Option<string>)

  /** A class as declared with no overrides: timestamps on, no soft deletes. */
  function PlainClass(name: string): ModelClass {
    ModelClass(name, None, true, false, None)
  }

  /** `static get table()`: the class name in lower case plus "s", unless overridden. */
  function Table(cls: ModelClass): (t: string)
    ensures cls.tableOverride.Some? ==> t == cls.tableOverride.value
    ensures cls.tableOverride.None? ==>
              |t| == |cls.name| + 1 && t[|cls.name|] == 's'
              && forall i :: 0 <= i < |cls.name| ==> t[i] == LowerChar(cls.name[i])
  {
    if cls.tableOverride.Some? then cls.tableOverride.value else Lower(cls.name) + "s"
  }

  /** Derived table names ignore letter case: `User` and `USER` share `users`,
      and a derived name is never empty and holds no upper-case letter. */
  lemma DerivedTableIgnoresCase(a: ModelClass, b: ModelClass)
    requires a.tableOverride.None? && b.tableOverride.None?
    requires Lower(a.name) == Lower(b.name)
    ensures Table(a) == Table(b)
    ensures Table(a) != "" && forall i :: 0 <= i < |Table(a)| ==> !('A' <= Table(a)[i] <= 'Z')
  {
    LowerIdempotent(a.name);
    assert Table(a) == Lower(a.name) + "s";
  }

  /** The two static connection slots: the class's own (`connection`, as the
      class sees it, own or inherited) and `Model.defaultConnection`. */
  datatype Connections = Connections(connection: Option<Adapter>, defaultConnection: Option<Adapter>)

  const NotConfigured := "Database not configured. Call Model.setDatabase() first."

  /** `static get database()`: the class connection, else the global
      default, else an error. */
  function ResolveDatabase(c: Connections): (r: Result<Adapter>)
    ensures r.Err? <==> c.connection.None? && c.defaultConnection.None?
    ensures r.Err? ==> r == Fail(NotConfigured)
    ensures r.Ok? ==> Some(r.value) == c.connection || (c.connection.None? && Some(r.value) == c.defaultConnection)
  {
    if c.connection.Some? then Ok(c.connection.value)
    else if c.defaultConnection.Some? then Ok(c.defaultConnection.value)
    else Fail(NotConfigured)
  }

  /** `Model.setDatabase(db)`. */
  function SetDatabase(c: Connections, db: Adapter): Connections {
    c.(defaultConnection := Some(db))
  }

  /** `setConnection(db)` on the class. */
  function SetConnection(c: Connections, db: Adapter): Connections {
    c.(connection := Some(db))
  }

  /** A class connection always wins; the global default is used only by
      classes without one. */
  lemma ConnectionPrecedence(c: Connections, db: Adapter)
    ensures ResolveDatabase(SetConnection(c, db)) == Ok(db)
    ensures ResolveDatabase(SetDatabase(c, db)) == (if c.connection.Some? then Ok(c.connection.value) else Ok(db))
  {
  }

  /** The database objects are shared: a write through the resolved database
      is seen through the same slot afterwards. */
  function Store(c: Connections, db: Adapter): (r: Connections)
    ensures ResolveDatabase(c).Ok? ==> ResolveDatabase(r) == Ok(db)
    ensures ResolveDatabase(c).Err? ==> r == c
  {
    if c.connection.Some? then c.(connection := Some(db))
    else if c.defaultConnection.Some? then c.(defaultConnection := Some(db))
    else c
  }

  const EventsKey := "_instanceEvents"
  const OriginalKey := "_originalState"

  /** The two properties the class adds to every instance for itself. */
  predicate Bookkeeping(k: string) {
    k == EventsKey || k == OriginalKey
  }

  /** An instance: its own properties and the contents of `_originalState`. */
  datatype Instance = Instance(own: Record, original: Record)

  /** `new Model(data)`: the bookkeeping properties, then the data's fields,
      and `_originalState` a fresh copy of the data (the initial empty
      object when no data is given). `events` and `snapshot` are the
      addresses of the fresh emitter and original-state objects. */
  function New(data: Option<Record>, events: nat, snapshot: nat): (m: Instance)
    ensures Get(m.own, OriginalKey) == Obj(snapshot)
    ensures m.original == data.GetOr(map[])
    ensures forall k :: !Bookkeeping(k) ==> Get(m.own, k) == Get(data.GetOr(map[]), k)
  {
    var base := map[EventsKey := Obj(events), OriginalKey := Obj(snapshot)];
    match data
    case None => Instance(base, map[])
    case Some(d) => Instance((base + d)[OriginalKey := Obj(snapshot)], d)
  }

  /** `getDiff()` as written: every own property whose value is not `===`
      the original's, the bookkeeping properties included. */
  function GetDiffAsWritten(m: Instance): (diff: Record)
    ensures forall k :: k in diff <==> k in m.own && m.own[k] != Get(m.original, k)
    ensures forall k :: k in diff ==> diff[k] == m.own[k]
  {
    map k | k in m.own && m.own[k] != Get(m.original, k) :: m.own[k]
  }

  /** `isDirty()` as written: `Object.keys(getDiff()).length > 0`. */
  predicate IsDirtyAsWritten(m: Instance) {
    GetDiffAsWritten(m) != map[]
  }

  /** As written, a freshly constructed instance is already dirty: its
      `_originalState` property is an object the original state does not
      contain, so that key is always in the diff. */
  lemma NewIsDirtyAsWritten(data: Option<Record>, events: nat, snapshot: nat)
    requires data.None? || Get(data.value, OriginalKey) != Obj(snapshot)
    ensures OriginalKey in GetDiffAsWritten(New(data, events, snapshot))
    ensures IsDirtyAsWritten(New(data, events, snapshot))
  {
    var m := New(data, events, snapshot);
    assert OriginalKey in m.own;
  }

  /** `getDiff()` as evidently intended: the own data properties whose value
      is not `===` the original's. */
  function GetDiff(m: Instance): (diff: Record)
    ensures forall k :: k in diff <==> k in m.own && !Bookkeeping(k) && m.own[k] != Get(m.original, k)
    ensures forall k :: k in diff ==> diff[k] == m.own[k]
  {
    map k | k in m.own && !Bookkeeping(k) && m.own[k] != Get(m.original, k) :: m.own[k]
  }

  /** `isDirty()` over the intended diff: some data property differs from
      its original value. */
  predicate IsDirty(m: Instance)
  {
    GetDiff(m) != map[]
  }

  lemma IsDirtyIff(m: Instance)
    ensures IsDirty(m) <==> exists k :: k in m.own && !Bookkeeping(k) && m.own[k] != Get(m.original, k)
  {
    if exists k :: k in m.own && !Bookkeeping(k) && m.own[k] != Get(m.original, k) {
      var k :| k in m.own && !Bookkeeping(k) && m.own[k] != Get(m.original, k);
      assert k in GetDiff(m);
    }
  }

  /** A freshly constructed instance is clean. */
  lemma NewIsClean(data: Option<Record>, events: nat, snapshot: nat)
    ensures !IsDirty(New(data, events, snapshot))
  {
    var m := New(data, events, snapshot);
    IsDirtyIff(m);
    forall k | k in m.own && !Bookkeeping(k) ensures m.own[k] == Get(m.original, k) {
      assert Get(m.own, k) == Get(data.GetOr(map[]), k);
    }
  }

  /** Assigning a data property a value other than its original one makes
      the instance dirty, and that property appears in the diff. */
  lemma AssignMakesDirty(m: Instance, k: string, v: Value)
    requires !Bookkeeping(k) && v != Get(m.original, k)
    ensures var changed := m.(own := m.own[k := v]);
            IsDirty(changed) && k in GetDiff(changed) && GetDiff(changed)[k] == v
  {
    var changed := m.(own := m.own[k := v]);
    assert k in GetDiff(changed);
  }

  /** The outcome of an instance operation: the connections afterwards, the
      instance afterwards, the class events emitted in order, and the result. */
  datatype ModelRun<T> = ModelRun(conns: Connections, inst: Instance, emitted: seq<string>, result: Result<T>)

  /** The timestamp step of `save`: with timestamps on, `created_at` for an
      instance without a truthy id and `updated_at` always, both the same
      fresh date `now`. */
  function Stamp(cls: ModelClass, own: Record, now: nat): (r: Record)
    ensures !cls.timestamps ==> r == own
    ensures cls.timestamps ==> Get(r, "updated_at") == Obj(now)
    ensures cls.timestamps && !Truthy(Get(own, "id")) ==> Get(r, "created_at") == Obj(now)
    ensures forall k :: k != "created_at" && k != "updated_at" ==> Get(r, k) == Get(own, k)
    ensures Truthy(Get(own, "id")) ==> Get(r, "created_at") == Get(own, "created_at")
  {
    if !cls.timestamps then own
    else if !Truthy(Get(own, "id")) then own["created_at" := Obj(now)]["updated_at" := Obj(now)]
    else own["updated_at" := Obj(now)]
  }

  /** The instance after a successful write: `_originalState` becomes a
      fresh copy (at `snapshot`) of the properties as they then are. */
  function Resnapshot(own: Record, snapshot: nat): (m: Instance)
    ensures m.original == own
    ensures Get(m.own, OriginalKey) == Obj(snapshot)
    ensures forall k :: k != OriginalKey ==> Get(m.own, k) == Get(own, k)
  {
    Instance(own[OriginalKey := Obj(snapshot)], own)
  }

  /** A resnapshotted instance is clean. */
  lemma ResnapshotIsClean(own: Record, snapshot: nat)
    ensures !IsDirty(Resnapshot(own, snapshot))
  {
    var m := Resnapshot(own, snapshot);
    IsDirtyIff(m);
    forall k | k in m.own && !Bookkeeping(k) ensures m.own[k] == Get(m.original, k) {
      assert Get(m.own, k) == Get(own, k);
    }
  }

  /** `save()` for an instance with a truthy id: emits `updating`, updates
      the row with that id with the payload, resnapshots, emits `updated`.
      `payload` is the copy made before stamping. */
  function SaveUpdate(c: Connections, table: string, payload: Record, stamped: Record, snapshot: nat): (r: ModelRun<()>)
    requires Truthy(Get(payload, "id"))
    ensures ResolveDatabase(c).Err? ==> r.conns == c && r.result == Err(ErrorInstance(NotConfigured))
    ensures ResolveDatabase(c).Ok? ==>
              var u := Database.Update(ResolveDatabase(c).value, table, Get(payload, "id"), payload);
              r.conns == Store(c, u.state)
              && (r.result.Ok? <==> u.result.Ok?)
              && (r.result.Err? ==> r.result.error == u.result.error)
    ensures r.result.Ok? ==> r.inst == Resnapshot(stamped, snapshot) && r.emitted == ["updating", "updated"]
    ensures r.result.Err? ==> r.inst.own == stamped && r.emitted == ["updating"]
  {
    match ResolveDatabase(c)
    case Err(e) => ModelRun(c, Instance(stamped, map[]), ["updating"], Err(e))
    case Ok(db) =>
      var u := Database.Update(db, table, Get(payload, "id"), payload);
      match u.result
      case Err(e) => ModelRun(Store(c, u.state), Instance(stamped, map[]), ["updating"], Err(e))
      case Ok(_) => ModelRun(Store(c, u.state), Resnapshot(stamped, snapshot), ["updating", "updated"], Ok(()))
  }

  /** `save()` for an instance without a truthy id: emits `creating`,
      creates a row from the payload, adopts the id the adapter assigned,
      resnapshots, emits `created`. */
  function SaveCreate(c: Connections, table: string, payload: Record, stamped: Record, snapshot: nat): (r: ModelRun<()>)
    ensures ResolveDatabase(c).Err? ==>
              r.conns == c && r.result == Err(ErrorInstance(NotConfigured)) && r.emitted == ["creating"] && r.inst.own == stamped
    ensures ResolveDatabase(c).Ok? ==>
              var db := ResolveDatabase(c).value;
              var n := |Rows(db.View(), table)|;
              && r.result.Ok?
              && r.emitted == ["creating", "created"]
              && r.conns == Store(c, Database.Create(db, table, payload).state)
              && Rows(ResolveDatabase(r.conns).value.View(), table) == Rows(db.View(), table) + [WithId(payload, n + 1)]
              && r.inst == Resnapshot(stamped["id" := Num(n + 1)], snapshot)
  {
    match ResolveDatabase(c)
    case Err(e) => ModelRun(c, Instance(stamped, map[]), ["creating"], Err(e))
    case Ok(db) =>
      var created := Database.Create(db, table, payload);
      var withId := stamped["id" := Get(created.result.value, "id")];
      ModelRun(Store(c, created.state), Resnapshot(withId, snapshot), ["creating", "created"], Ok(()))
  }

  /** `save()`: the payload is the instance's properties copied before the
      timestamps are stamped; a truthy id updates that row, otherwise a row
      is created and its id adopted. On failure the class emits `error` and
      the error is rethrown as "Model save failed for <table>: …". The
      `touches` loop is not modelled. */
  function Save(c: Connections, cls: ModelClass, m: Instance, now: nat, snapshot: nat): (r: ModelRun<()>)
    ensures var stamped := Stamp(cls, m.own, now);
            && (r.result.Ok? ==> Get(r.inst.own, OriginalKey) == Obj(snapshot) && !IsDirty(r.inst))
            && (r.result.Err? ==> r.inst == m.(own := stamped) && |r.emitted| == 2 && r.emitted[1] == "error")
            && (r.result.Err? ==> exists e :: r.result.error == CreateError("Model save failed for " + Table(cls), e))
            && (ResolveDatabase(c).Err? ==>
                  r == ModelRun(c, m.(own := stamped),
                                [if Truthy(Get(m.own, "id")) then "updating" else "creating", "error"],
                                Err(CreateError("Model save failed for " + Table(cls), ErrorInstance(NotConfigured)))))
  {
    var payload := m.own;
    var stamped := Stamp(cls, m.own, now);
    var table := Table(cls);
    var attempt := if Truthy(Get(payload, "id")) then SaveUpdate(c, table, payload, stamped, snapshot)
                   else SaveCreate(c, table, payload, stamped, snapshot);
    if attempt.result.Ok? then
      ResnapshotIsClean(attempt.inst.original, snapshot);
      attempt
    else
      ModelRun(attempt.conns, m.(own := stamped), attempt.emitted + ["error"],
               Err(CreateError("Model save failed for " + table, attempt.result.error)))
  }

  /** Saving an instance without a truthy id appends exactly one row, built
      from the properties as they were before stamping, and gives the
      instance the id the adapter assigned: the row count plus one. With
      timestamps on, the instance carries `created_at` and `updated_at` but
      the stored row does not (unless they were already set). */
  lemma SaveCreates(c: Connections, cls: ModelClass, m: Instance, now: nat, snapshot: nat)
    requires !Truthy(Get(m.own, "id")) && ResolveDatabase(c).Ok?
    ensures var db := ResolveDatabase(c).value;
            var n := |Rows(db.View(), Table(cls))|;
            var r := Save(c, cls, m, now, snapshot);
            && r.result.Ok? && r.emitted == ["creating", "created"]
            && Rows(ResolveDatabase(r.conns).value.View(), Table(cls)) == Rows(db.View(), Table(cls)) + [WithId(m.own, n + 1)]
            && Get(r.inst.own, "id") == Num(n + 1)
            && (cls.timestamps && "created_at" !in m.own ==>
                  Get(r.inst.own, "created_at") == Obj(now)
                  && Get(WithId(m.own, n + 1), "created_at") == Undefined)
  {
    var stamped := Stamp(cls, m.own, now);
    var n := |Rows(ResolveDatabase(c).value.View(), Table(cls))|;
    assert Get(Resnapshot(stamped["id" := Num(n + 1)], snapshot).own, "created_at") == Get(stamped, "created_at");
  }

  /** Saving an instance with a truthy id writes the pre-stamp properties
      over the stored row with that id, and succeeds exactly when such a row
      exists; it never adds a row. */
  lemma SaveUpdates(c: Connections, cls: ModelClass, m: Instance, now: nat, snapshot: nat)
    requires Truthy(Get(m.own, "id")) && ResolveDatabase(c).Ok?
    ensures var db := ResolveDatabase(c).value;
            var rows := Rows(db.View(), Table(cls));
            var r := Save(c, cls, m, now, snapshot);
            && (r.result.Ok? <==> UpdateFirst(rows, Get(m.own, "id"), m.own).Some?)
            && (r.result.Ok? ==>
                  r.emitted == ["updating", "updated"]
                  && ResolveDatabase(r.conns).value.View() == db.View()[Table(cls) := UpdateFirst(rows, Get(m.own, "id"), m.own).value.0])
            && (r.result.Err? ==> r.emitted == ["updating", "error"] && ResolveDatabase(r.conns).value == db)
  {
  }

  /** `update(data)`: refuses an instance whose id is `undefined`; otherwise
      assigns the data and saves. Either failure emits `error` and is
      rethrown as "Failed to update <table> record: …". */
  function Update(c: Connections, cls: ModelClass, m: Instance, data: Record, now: nat, snapshot: nat): (r: ModelRun<()>)
    ensures Get(m.own, "id") == Undefined ==>
              r == ModelRun(c, m, ["error"],
                            Err(CreateError("Failed to update " + Table(cls) + " record", ErrorInstance("Cannot update unsaved record"))))
    ensures Get(m.own, "id") != Undefined ==>
              var s := Save(c, cls, m.(own := Merge(m.own, data)), now, snapshot);
              r.conns == s.conns && r.inst == s.inst
              && (r.result.Ok? <==> s.result.Ok?)
              && (r.result.Ok? ==> r.emitted == s.emitted)
              && (r.result.Err? ==> r.emitted == s.emitted + ["error"]
                                    && r.result.error == CreateError("Failed to update " + Table(cls) + " record", s.result.error))
  {
    var context := "Failed to update " + Table(cls) + " record";
    if Get(m.own, "id") == Undefined then
      ModelRun(c, m, ["error"], Err(CreateError(context, ErrorInstance("Cannot update unsaved record"))))
    else
      var s := Save(c, cls, m.(own := Merge(m.own, data)), now, snapshot);
      match s.result
      case Ok(_) => s
      case Err(e) => ModelRun(s.conns, s.inst, s.emitted + ["error"], Err(CreateError(context, e)))
  }

  /** `update` only tests for `undefined`: an instance whose id is `null`
      or `0` passes the check, and its save creates a new row. */
  lemma UpdateWithNullIdCreates(c: Connections, cls: ModelClass, m: Instance, data: Record, now: nat, snapshot: nat)
    requires Get(m.own, "id") == Null && "id" !in data && ResolveDatabase(c).Ok?
    ensures Update(c, cls, m, data, now, snapshot).emitted == ["creating", "created"]
  {
    var merged := m.(own := Merge(m.own, data));
    assert Get(merged.own, "id") == Null;
    SaveCreates(c, cls, merged, now, snapshot);
  }

  /** `prepareSoftDelete`: sets the class's deleted-at field to the fresh
      date `now` when the field name is non-empty. */
  function PrepareSoftDelete(cls: ModelClass, own: Record, now: nat): (r: Result<Record>)
    ensures cls.deletedAtField.None? ==> r.Err?
    ensures cls.deletedAtField.Some? && cls.deletedAtField.value != "" ==>
              r == Ok(own[cls.deletedAtField.value := Obj(now)])
    ensures cls.deletedAtField.Some? && cls.deletedAtField.value == "" ==> r == Ok(own)
  {
    match cls.deletedAtField
    case None => Fail("model.getDeletedAtFieldName is not a function")
    case Some(field) => if field != "" then Ok(own[field := Obj(now)]) else Ok(own)
  }

  /** `delete()`: refuses an instance without a truthy id before anything
      else; with soft deletes, stamps the deleted-at field first, and a class
      without `getDeletedAtFieldName` throws there, before any event; then emits
      `deleting`, deletes the row by the id read after the stamp, emits
      `deleted` and returns the adapter's answer. A failure emits `error` and
      is rethrown unchanged. */
  function Delete(c: Connections, cls: ModelClass, m: Instance, now: nat): (r: ModelRun<bool>)
    ensures !Truthy(Get(m.own, "id")) ==>
              r == ModelRun(c, m, [], Fail("Cannot delete a record without an ID."))
    ensures Truthy(Get(m.own, "id")) && (!cls.softDeletes || cls.deletedAtField.Some?) ==>
              r.inst.own == (if cls.softDeletes && cls.deletedAtField.value != ""
                             then m.own[cls.deletedAtField.value := Obj(now)] else m.own)
    ensures Truthy(Get(m.own, "id")) && ResolveDatabase(c).Ok? && (!cls.softDeletes || cls.deletedAtField.Some?) ==>
              var d := Database.Delete(ResolveDatabase(c).value, Table(cls), Get(r.inst.own, "id"));
              r.conns == Store(c, d.state) && r.result == d.result
              && r.emitted == (if d.result.Ok? then ["deleting", "deleted"] else ["deleting", "error"])
    ensures ResolveDatabase(c).Err? && Truthy(Get(m.own, "id")) && (!cls.softDeletes || cls.deletedAtField.Some?) ==>
              r.conns == c && r.result == Fail(NotConfigured) && r.emitted == ["deleting", "error"]
    ensures Truthy(Get(m.own, "id")) && cls.softDeletes && cls.deletedAtField.None? ==>
              r == ModelRun(c, m, [], Fail("model.getDeletedAtFieldName is not a function"))
  {
    var id := Get(m.own, "id");
    if !Truthy(id) then ModelRun(c, m, [], Fail("Cannot delete a record without an ID."))
    else
      var prepared := if cls.softDeletes then PrepareSoftDelete(cls, m.own, now) else Ok(m.own);
      match prepared
      case Err(e) => ModelRun(c, m, [], Err(e))
      case Ok(own) =>
        var inst := m.(own := own);
        match ResolveDatabase(c)
        case Err(e) => ModelRun(c, inst, ["deleting", "error"], Err(e))
        case Ok(db) =>
          var d := Database.Delete(db, Table(cls), Get(own, "id"));
          ModelRun(Store(c, d.state), inst, if d.result.Ok? then ["deleting", "deleted"] else ["deleting", "error"], d.result)
  }

  /** Soft deletion still deletes: the database ends exactly as after a plain
      delete, and only the instance differs, by its deleted-at field. A
      deleted-at field named "id" is the exception: see
      `SoftDeleteOnIdFieldKeepsRows`. */
  lemma SoftDeleteStillDeletes(c: Connections, cls: ModelClass, m: Instance, now: nat, field: string)
    requires Truthy(Get(m.own, "id")) && field != "" && field != "id"
    ensures var soft := cls.(softDeletes := true, deletedAtField := Some(field));
            var hard := cls.(softDeletes := false);
            var s := Delete(c, soft, m, now);
            var h := Delete(c, hard, m, now);
            s.conns == h.conns && s.result == h.result && s.emitted == h.emitted
            && s.inst.own == m.own[field := Obj(now)] && h.inst == m
  {
    var soft := cls.(softDeletes := true, deletedAtField := Some(field));
    var hard := cls.(softDeletes := false);
    assert Table(soft) == Table(hard);
  }

  /** A deleted-at field named "id" overwrites the id with the fresh date
      before `delete` reads it, so the row is looked up by that date. No
      stored row has the fresh date as its id, so the table keeps every row:
      the in-memory adapter answers false, the local-storage adapter true. */
  lemma SoftDeleteOnIdFieldKeepsRows(c: Connections, cls: ModelClass, m: Instance, now: nat)
    requires Truthy(Get(m.own, "id")) && ResolveDatabase(c).Ok?
    requires var rows := Rows(ResolveDatabase(c).value.View(), Table(cls));
             forall i :: 0 <= i < |rows| ==> !HasId(rows[i], Obj(now))
    ensures var db := ResolveDatabase(c).value;
            var s := Delete(c, cls.(softDeletes := true, deletedAtField := Some("id")), m, now);
            && s.inst.own == m.own["id" := Obj(now)]
            && (s.result.Ok? ==> Rows(ResolveDatabase(s.conns).value.View(), Table(cls)) == Rows(db.View(), Table(cls)))
            && (db.store.Memory? ==> s.result == Ok(false))
            && (db.store.Local? && Table(cls) in db.View() ==> s.result == Ok(true))
  {
    var db := ResolveDatabase(c).value;
    var soft := cls.(softDeletes := true, deletedAtField := Some("id"));
    assert Table(soft) == Table(cls);
    var rows := Rows(db.View(), Table(cls));
    FilterKeepsAll(rows, (r: Record) => !HasId(r, Obj(now)));
  }

  /** `static paginate(perPage = 15, page = 1)`: all rows of the table, the
      slice for the page, the row count, and the two arguments as given.
      `None` is an omitted argument. Items are the records each instance is
      built from. */
  function Paginate(c: Connections, cls: ModelClass, perPage: Option<int>, page: Option<int>): (r: Result<Paginator<Record>>)
    ensures r.Err? <==> ResolveDatabase(c).Err?
    ensures r.Err? ==> r == Fail(NotConfigured)
    ensures r.Ok? ==>
              var rows := Rows(ResolveDatabase(c).value.View(), Table(cls));
              && r.value.total == |rows|
              && r.value.perPage == perPage.GetOr(15) && r.value.currentPage == page.GetOr(1)
              && r.value.items == Slice(rows, (page.GetOr(1) - 1) * perPage.GetOr(15), page.GetOr(1) * perPage.GetOr(15))
  {
    var size := perPage.GetOr(15);
    var current := page.GetOr(1);
    match ResolveDatabase(c)
    case Err(e) => Err(e)
    case Ok(db) =>
      var rows := Database.All(db, Table(cls)).value;
      Ok(Paginator(Slice(rows, (current - 1) * size, current * size), |rows|, size, current))
  }

  /** With the defaults, the first page is the first fifteen rows (all of
      them when there are fewer). */
  lemma PaginateDefaults(c: Connections, cls: ModelClass)
    requires ResolveDatabase(c).Ok?
    ensures var rows := Rows(ResolveDatabase(c).value.View(), Table(cls));
            var p := Paginate(c, cls, None, None).value;
            p.items == rows[..if |rows| < 15 then |rows| else 15]
            && (HasMorePages(p) <==> |rows| > 15)
  {
    var p := Paginate(c, cls, None, None).value;
    HasMorePagesIff(p);
  }

  /** Walking the pages a paginator reports, from page 1 to its last page,
      visits every row of the table once, in stored order. */
  lemma PaginatePagesCoverTable(c: Connections, cls: ModelClass, perPage: int)
    requires ResolveDatabase(c).Ok? && perPage > 0
    ensures var rows := Rows(ResolveDatabase(c).value.View(), Table(cls));
            var p := Paginate(c, cls, Some(perPage), Some(1)).value;
            p.items == Page(rows, perPage, 1)
            && LastPage(p) >= 0 && PagesUpTo(rows, perPage, LastPage(p)) == rows
  {
    var rows := Rows(ResolveDatabase(c).value.View(), Table(cls));
    var p := Paginate(c, cls, Some(perPage), Some(1)).value;
    assert p.total == |rows| && p.perPage == perPage && p.items == Page(rows, perPage, 1);
    assert LastPage(p) == LastPage(Paginator(rows, |rows|, perPage, 1));
    PagesCoverAll(rows, perPage);
  }
}

=== FILE: orm_config.dfy ===
/** `HugOrmConfig` (src/HugOrmConfig.ts) and `resolveMigrationTableName`
    (src/utils/resolveMigrationTableName.ts). The logger is not modelled. */
module OrmConfig {
  import opened Basics
  import opened Adapters

  /** The adapter, whether `bootstrap` migrates, and the optional tracking
      table name (`None` for `undefined`). */
  datatype Config = Config(adapter: Adapter, autoMigrate: bool, migrationTable: Option<string>)

  const DefaultMigrationTable := "migrations"

  /** `config.migrationTable || 'migrations'`: a missing or empty name falls
      back to the default; any other name is used as given. */
  function ResolveMigrationTableName(config: Config): (name: string)
    ensures name != ""
    ensures config.migrationTable.Some? && config.migrationTable.value != "" ==> name == config.migrationTable.value
    ensures config.migrationTable.None? || config.migrationTable.value == "" ==> name == DefaultMigrationTable
  {
    match config.migrationTable
    case Some(table) => if table != "" then table else DefaultMigrationTable
    case None => DefaultMigrationTable
  }

  /** Resolving is a fixed point: writing the resolved name back into the
      configuration resolves to the same name. */
  lemma ResolveIsStable(config: Config)
    ensures ResolveMigrationTableName(config.(migrationTable := Some(ResolveMigrationTableName(config))))
            == ResolveMigrationTableName(config)
  {
  }
}

=== FILE: outcomes.dfy ===
/** Results of operations that can throw, and of state transitions that can
    throw after (or without) changing the state. */
module Outcomes {
  import opened ErrorUtils

  /** A resolved promise with `value`, or a rejected one with `error`. */
  datatype Result<T> = Ok(value: T) | Err(error: Thrown)

  /** A state transition's final state together with its outcome. */
  datatype Run<S, T> = Run(state: S, result: Result<T>)

  /** `throw new Error(message)`. */
  function Fail<T>(message: string): Result<T> {
    Err(ErrorInstance(message))
  }

  /** The `catch (error) { throw createError(context, error) }` around a call. */
  function Wrap<T>(context: string, r: Result<T>): (w: Result<T>)
    ensures w.Ok? <==> r.Ok?
    ensures r.Ok? ==> w.value == r.value
    ensures r.Err? ==> w.error == ErrorInstance(context + ": " + MessageText(r.error))
  {
    match r
    case Ok(v) => Ok(v)
    case Err(e) => Err(CreateError(context, e))
  }
}

=== FILE: pagination.dfy ===
/** `Paginator` (src/pagination/Paginator.ts) and the `slice` arithmetic that
    `Model.paginate` feeds it. Counts and page numbers are integral; a page
    size of zero or less (which in JavaScript yields `Infinity` or `NaN`)
    is outside the model. */
module Pagination {

  /** The constructor keeps its four arguments as they are. */
  datatype Paginator<T> = Paginator(items: seq<T>, total: int, perPage: int, currentPage: int)

  /** `Math.ceil(total / perPage)` for a positive page size. */
  function LastPage<T>(p: Paginator<T>): (last: int)
    requires p.perPage > 0
    ensures (last - 1) * p.perPage < p.total <= last * p.perPage
  {
    -((-p.total) / p.perPage)
  }

  /** The ceiling is unique: the least page count whose pages hold `total`. */
  lemma LastPageIsLeast<T>(p: Paginator<T>, k: int)
    requires p.perPage > 0
    requires p.total <= k * p.perPage
    ensures LastPage(p) <= k
  {
    var last := LastPage(p);
    if last > k {
      assert (last - 1) * p.perPage >= k * p.perPage by {
        assert last - 1 >= k;
        MultiplyMonotone(k, last - 1, p.perPage);
      }
    }
  }

  lemma MultiplyMonotone(a: int, b: int, c: int)
    requires a <= b && c > 0
    ensures a * c <= b * c
  {
  }

  /** `currentPage < lastPage`. */
  predicate HasMorePages<T>(p: Paginator<T>)
    requires p.perPage > 0
  {
    p.currentPage < LastPage(p)
  }

  /** There are more pages exactly when the pages up to the current one do
      not yet hold every item. */
  lemma HasMorePagesIff<T>(p: Paginator<T>)
    requires p.perPage > 0
    ensures HasMorePages(p) <==> p.currentPage * p.perPage < p.total
  {
    var last := LastPage(p);
    if p.currentPage < last {
      MultiplyMonotone(p.currentPage, last - 1, p.perPage);
    } else {
      MultiplyMonotone(last, p.currentPage, p.perPage);
    }
  }

  /** With no items there is no page and no further page from page 0 on. */
  lemma EmptyHasNoPages<T>(p: Paginator<T>)
    requires p.perPage > 0 && p.total == 0 && p.currentPage >= 0
    ensures LastPage(p) == 0
    ensures !HasMorePages(p)
  {
    LastPageIsLeast(p, 0);
  }

  /** How `slice` reads a relative index against a length. */
  function RelativeIndex(i: int, len: nat): (r: nat)
    ensures r <= len
    ensures 0 <= i <= len ==> r == i
  {
    if i < 0 then (if len + i < 0 then 0 else len + i) else if i > len then len else i
  }

  /** `array.slice(start, end)`: negative indices count from the end, both
      are clamped to the array, and an empty range gives `[]`. */
  function Slice<T>(s: seq<T>, start: int, end: int): (r: seq<T>)
    ensures |r| <= |s|
    ensures 0 <= start <= end ==>
              var from := if start < |s| then start else |s|;
              var to := if end < |s| then end else |s|;
              r == s[from..to]
  {
    var from := RelativeIndex(start, |s|);
    var to := RelativeIndex(end, |s|);
    if from < to then s[from..to] else []
  }

  /** Page `page` of `perPage` items: `slice((page - 1) * perPage, page * perPage)`. */
  function Page<T>(s: seq<T>, perPage: int, page: int): seq<T> {
    Slice(s, (page - 1) * perPage, page * perPage)
  }

  /** Pages 1 to `k` in order. */
  function PagesUpTo<T>(s: seq<T>, perPage: int, k: nat): seq<T> {
    if k == 0 then [] else PagesUpTo(s, perPage, k - 1) + Page(s, perPage, k)
  }

  /** The first `k` pages are the first `k * perPage` items (or all of them). */
  lemma {:induction false} PagesUpToPrefix<T>(s: seq<T>, perPage: int, k: nat)
    requires perPage > 0
    ensures PagesUpTo(s, perPage, k) == s[..if k * perPage < |s| then k * perPage else |s|]
  {
    if k > 0 {
      PagesUpToPrefix(s, perPage, k - 1);
      var lo := (k - 1) * perPage;
      var hi := k * perPage;
      assert hi == lo + perPage;
      MultiplyMonotone(0, k - 1, perPage);
      var a := if lo < |s| then lo else |s|;
      var b := if hi < |s| then hi else |s|;
      assert Page(s, perPage, k) == s[a..b];
      assert s[..a] + s[a..b] == s[..b];
    }
  }

  /** Reading pages 1 to `lastPage` in turn yields every item once, in order. */
  lemma PagesCoverAll<T>(s: seq<T>, perPage: int)
    requires perPage > 0
    ensures var last := LastPage(Paginator(s, |s|, perPage, 1));
            last >= 0 && PagesUpTo(s, perPage, last) == s
  {
    var last := LastPage(Paginator(s, |s|, perPage, 1));
    PagesUpToPrefix(s, perPage, last);
    assert s[..|s|] == s;
  }
}

=== FILE: relationships.dfy ===
/** The relationship resolvers (the files under src/relationships): read-only functions
    from a source record and the related model's database to one record, no
    record, or a list. The related model is passed in explicitly; what a
    resolve asks of it is kept as a trace of reads and a count of supplier
    calls. A related model's `find` is its database's `find` on its table,
    and its `where` is its database's `where` on its table. */
module Relationships {
  import opened Basics
  import opened Values
  import opened Outcomes
  import opened Storage
  import opened Adapters
  import Database

  /** A model class as a resolver sees it: its database and its table. */
  datatype RelatedModel = RelatedModel(db: Adapter, table: string)

  /** One read a resolve performs. */
  datatype Read =
    | FindRead(table: string, id: Value)
    | WhereRead(table: string, conds: Record)
      /** a read of the rows whose id is one of `ids` */
    | IdsInRead(table: string, ids: seq<Value>)

  /** A resolve's reads in order, how often it called the related-model
      supplier, and what it resolved to. */
  datatype Resolution<T> = Resolution(lookups: seq<Read>, supplierCalls: nat, result: Result<T>)

  /** `modelClass.find(id)`. */
  function Find(m: RelatedModel, id: Value): Result<Option<Record>> {
    Database.Find(m.db, m.table, id)
  }

  /** `modelClass.where(conditions)`. */
  function WhereModel(m: RelatedModel, conds: Record): Result<seq<Record>> {
    Database.Where(m.db, m.table, conds)
  }

  /** The rows of the related model's table. */
  function TableRows(m: RelatedModel): seq<Record> {
    Rows(m.db.View(), m.table)
  }

  /** `HasOne.resolve`: reads the key from the source's own foreign-key
      field and finds the related record by it, with no short-circuit. */
  function HasOne(source: Record, foreignKey: string, related: RelatedModel): (r: Resolution<Option<Record>>)
    ensures r.supplierCalls == 1 && |r.lookups| == 1
    ensures r.lookups[0] == FindRead(related.table, Get(source, foreignKey))
    ensures r.result.Ok? <==> related.table in related.db.TableSource()
    ensures r.result.Ok? && r.result.value.Some? ==>
              r.result.value.value in related.db.TableSource()[related.table]
              && Get(r.result.value.value, "id") == Get(source, foreignKey)
    ensures r.result.Ok? && r.result.value.Some? ==>
              var rows := related.db.TableSource()[related.table];
              exists i :: 0 <= i < |rows| && rows[i] == r.result.value.value
                          && forall j :: 0 <= j < i ==> !HasId(rows[j], Get(source, foreignKey))
    ensures r.result.Ok? && r.result.value.None? ==>
              forall x :: x in related.db.TableSource()[related.table] ==> Get(x, "id") != Get(source, foreignKey)
  {
    var id := Get(source, foreignKey);
    Resolution([FindRead(related.table, id)], 1, Find(related, id))
  }

  /** `HasMany.resolve`: the related rows whose foreign key is the source's id. */
  function HasMany(source: Record, foreignKey: string, related: RelatedModel): (r: Resolution<seq<Record>>)
    ensures r.supplierCalls == 1
    ensures r.lookups == [WhereRead(related.table, map[foreignKey := Get(source, "id")])]
    ensures r.result.Ok?
    ensures forall x :: x in r.result.value <==> x in TableRows(related) && Get(x, foreignKey) == Get(source, "id")
  {
    var conds := map[foreignKey := Get(source, "id")];
    assert forall x :: Matches(x, conds) <==> Get(x, foreignKey) == Get(source, "id");
    Resolution([WhereRead(related.table, conds)], 1, WhereModel(related, conds))
  }

  /** `HasMany.resolve` keeps the table's order: it is the stored rows
      filtered by the foreign key, and an empty list when nothing matches. */
  lemma HasManyIsFilter(source: Record, foreignKey: string, related: RelatedModel)
    ensures HasMany(source, foreignKey, related).result.value
            == Filter(TableRows(related), (x: Record) => Matches(x, map[foreignKey := Get(source, "id")]))
    ensures (forall i :: 0 <= i < |TableRows(related)| ==> Get(TableRows(related)[i], foreignKey) != Get(source, "id"))
            ==> HasMany(source, foreignKey, related).result.value == []
  {
    var r := HasMany(source, foreignKey, related).result.value;
    if r != [] {
      assert r[0] in r;
    }
  }

  /** `BelongsTo.resolve`: a falsy foreign-key value resolves to null with no
      lookup; otherwise the related record is found by that value. */
  function BelongsTo(source: Record, foreignKey: string, related: RelatedModel): (r: Resolution<Option<Record>>)
    ensures !Truthy(Get(source, foreignKey)) ==> r == Resolution([], 0, Ok(None))
  {
    var foreignValue := Get(source, foreignKey);
    if !Truthy(foreignValue) then Resolution([], 0, Ok(None))
    else Resolution([FindRead(related.table, foreignValue)], 1, Find(related, foreignValue))
  }

  /** For a truthy key, `BelongsTo` looks up exactly what `HasOne` does for
      the same configuration; for a falsy one `HasOne` still performs the
      lookup that `BelongsTo` skips. */
  lemma BelongsToAgreesWithHasOne(source: Record, foreignKey: string, related: RelatedModel)
    ensures Truthy(Get(source, foreignKey)) ==> BelongsTo(source, foreignKey, related) == HasOne(source, foreignKey, related)
    ensures !Truthy(Get(source, foreignKey)) ==>
              BelongsTo(source, foreignKey, related).lookups == [] && |HasOne(source, foreignKey, related).lookups| == 1
  {
  }

  /** `pivotRecords.map(record => record[relatedKey])`. */
  function KeysOf(rows: seq<Record>, key: string): (ks: seq<Value>)
    ensures |ks| == |rows|
    ensures forall i :: 0 <= i < |rows| ==> ks[i] == Get(rows[i], key)
  {
    if |rows| == 0 then [] else [Get(rows[0], key)] + KeysOf(rows[1..], key)
  }

  /** The pivot rows of the source: `where(pivotTable, { [foreignKey]: source.id })`
      on the related model's database. */
  function PivotRows(source: Record, pivotTable: string, foreignKey: string, related: RelatedModel): (r: Result<seq<Record>>)
    ensures r.Ok?
    ensures forall x :: x in r.value <==> x in Rows(related.db.View(), pivotTable) && Get(x, foreignKey) == Get(source, "id")
  {
    var conds := map[foreignKey := Get(source, "id")];
    assert forall x :: Matches(x, conds) <==> Get(x, foreignKey) == Get(source, "id");
    Database.Where(related.db, pivotTable, conds)
  }

  /** `BelongsToMany.resolve` as written: the second read passes the whole
      list of related ids as the `id` condition. The list is a fresh array
      object, `Obj(listAddr)`, and `where` compares with `===`. */
  function BelongsToManyAsWritten(source: Record, pivotTable: string, foreignKey: string, relatedKey: string,
                                  related: RelatedModel, listAddr: nat): (r: Resolution<seq<Record>>)
    ensures r.supplierCalls == 1 && |r.lookups| == 2
    ensures r.lookups[0] == WhereRead(pivotTable, map[foreignKey := Get(source, "id")])
    ensures r.lookups[1] == WhereRead(related.table, map["id" := Obj(listAddr)])
  {
    var pivot := PivotRows(source, pivotTable, foreignKey, related).value;
    var relatedIds := KeysOf(pivot, relatedKey);
    Resolution([WhereRead(pivotTable, map[foreignKey := Get(source, "id")]), WhereRead(related.table, map["id" := Obj(listAddr)])],
               1, WhereModel(related, map["id" := Obj(listAddr)]))
  }

  /** No row's id is ever the fresh array, so the as-written resolve finds
      nothing whenever the related rows carry numeric ids, however many
      pivot rows point at them. */
  lemma BelongsToManyAsWrittenFindsNothing(source: Record, pivotTable: string, foreignKey: string, relatedKey: string,
                                           related: RelatedModel, listAddr: nat)
    requires forall x :: x in TableRows(related) ==> Get(x, "id").Num?
    ensures BelongsToManyAsWritten(source, pivotTable, foreignKey, relatedKey, related, listAddr).result == Ok([])
  {
    var r := BelongsToManyAsWritten(source, pivotTable, foreignKey, relatedKey, related, listAddr).result.value;
    assert forall x :: x !in r;
    NoMembersEmpty(r);
  }

  /** A concrete case: user 1 is linked to role 7 through the pivot table,
      role 7 exists, and the as-written resolve still returns no role. */
  lemma BelongsToManyMissesLinkedRow(listAddr: nat)
    ensures var role := map["id" := Num(7)];
            var link := map["user_id" := Num(1), "role_id" := Num(7)];
            var db := OpenLocal(map["roles" := [role], "role_user" := [link]]);
            var related := RelatedModel(db, "roles");
            var user := map["id" := Num(1)];
            && BelongsToManyAsWritten(user, "role_user", "user_id", "role_id", related, listAddr).result == Ok([])
            && BelongsToMany(user, "role_user", "user_id", "role_id", related).result == Ok([role])
  {
    var role := map["id" := Num(7)];
    var link := map["user_id" := Num(1), "role_id" := Num(7)];
    var db := OpenLocal(map["roles" := [role], "role_user" := [link]]);
    var related := RelatedModel(db, "roles");
    var user := map["id" := Num(1)];
    BelongsToManyAsWrittenFindsNothing(user, "role_user", "user_id", "role_id", related, listAddr);
    var pivot := PivotRows(user, "role_user", "user_id", related).value;
    assert Rows(db.View(), "role_user") == [link];
    assert link in pivot;
    assert |pivot| <= 1;
    assert pivot == [link];
    assert KeysOf(pivot, "role_id") == [Num(7)];
    assert TableRows(related) == [role];
    var found := WithIdIn(TableRows(related), [Num(7)]);
    assert role in found;
    assert found[0] in TableRows(related);
    assert found == [found[0]];
  }

  /** The rows whose `id` is one of `ids`, in their order: the filter that
      `where({ id: { in: ids } })` performs. */
  function WithIdIn(rows: seq<Record>, ids: seq<Value>): (r: seq<Record>)
    ensures |r| <= |rows|
    ensures forall x :: x in r <==> x in rows && Get(x, "id") in ids
  {
    Filter(rows, (x: Record) => Get(x, "id") in ids)
  }

  /** Keeping the rows whose id a pivot row of `id` points at keeps exactly
      the rows linked to `id` through the pivot table. */
  lemma LinkedRows(rows: seq<Record>, pivot: seq<Record>, pivotAll: seq<Record>,
                   foreignKey: string, relatedKey: string, id: Value)
    requires forall p :: p in pivot <==> p in pivotAll && Get(p, foreignKey) == id
    ensures forall x :: x in WithIdIn(rows, KeysOf(pivot, relatedKey)) <==>
              x in rows && exists p :: p in pivotAll && Get(p, foreignKey) == id && Get(p, relatedKey) == Get(x, "id")
  {
    var relatedIds := KeysOf(pivot, relatedKey);
    forall x ensures x in WithIdIn(rows, relatedIds) <==>
                     x in rows && exists p :: p in pivotAll && Get(p, foreignKey) == id && Get(p, relatedKey) == Get(x, "id")
    {
      if x in WithIdIn(rows, relatedIds) {
        var i :| 0 <= i < |relatedIds| && relatedIds[i] == Get(x, "id");
        assert pivot[i] in pivot;
      }
      if x in rows && exists p :: p in pivotAll && Get(p, foreignKey) == id && Get(p, relatedKey) == Get(x, "id") {
        var p :| p in pivotAll && Get(p, foreignKey) == id && Get(p, relatedKey) == Get(x, "id");
        var i :| 0 <= i < |pivot| && pivot[i] == p;
        assert relatedIds[i] == Get(x, "id");
      }
    }
  }

  /** `BelongsToMany.resolve` as evidently intended: the related rows whose id
      is one of the ids the pivot rows point at, in table order. */
  function BelongsToMany(source: Record, pivotTable: string, foreignKey: string, relatedKey: string,
                         related: RelatedModel): (r: Resolution<seq<Record>>)
    ensures r.supplierCalls == 1 && |r.lookups| == 2
    ensures r.lookups[0] == WhereRead(pivotTable, map[foreignKey := Get(source, "id")])
    ensures r.lookups[1].IdsInRead? && r.lookups[1].table == related.table
    ensures r.result.Ok?
    ensures forall x :: x in r.result.value <==>
              x in TableRows(related)
              && exists p :: p in Rows(related.db.View(), pivotTable) && Get(p, foreignKey) == Get(source, "id")
                             && Get(p, relatedKey) == Get(x, "id")
  {
    var pivot := PivotRows(source, pivotTable, foreignKey, related).value;
    var relatedIds := KeysOf(pivot, relatedKey);
    var found := WithIdIn(TableRows(related), relatedIds);
    LinkedRows(TableRows(related), pivot, Rows(related.db.View(), pivotTable), foreignKey, relatedKey, Get(source, "id"));
    Resolution([WhereRead(pivotTable, map[foreignKey := Get(source, "id")]),
                IdsInRead(related.table, relatedIds)], 1, Ok(found))
  }

  /** `MorphTo.resolve`: the discriminator picks a model from the registry
      the supplier returns (property names are strings, so the value is
      read through `String`); an unknown discriminator resolves to null
      with no lookup, and a known one to that model's `find(id)`. */
  function MorphTo(source: Record, morphType: string, morphId: string, models: map<string, RelatedModel>): (r: Resolution<Option<Record>>)
    ensures r.supplierCalls == 1
    ensures Text(Get(source, morphType)) !in models ==> r.lookups == [] && r.result == Ok(None)
    ensures Text(Get(source, morphType)) in models ==>
              var m := models[Text(Get(source, morphType))];
              r.lookups == [FindRead(m.table, Get(source, morphId))] && r.result == Find(m, Get(source, morphId))
  {
    var targetType := Text(Get(source, morphType));
    var targetId := Get(source, morphId);
    if targetType !in models then Resolution([], 1, Ok(None))
    else
      var m := models[targetType];
      Resolution([FindRead(m.table, targetId)], 1, Find(m, targetId))
  }

  /** A known discriminator resolves exactly as `HasOne` on the id field would
      against the registered model. */
  lemma MorphToIsHasOneOnTarget(source: Record, morphType: string, morphId: string, models: map<string, RelatedModel>)
    requires Text(Get(source, morphType)) in models
    ensures var m := models[Text(Get(source, morphType))];
            MorphTo(source, morphType, morphId, models).result == HasOne(source, morphId, m).result
  {
  }

  /** `MorphMany.resolve`: the related rows whose type field is the source's
      class name in lower case and whose id field is the source's id. The
      related model is used directly, with no supplier call. */
  function MorphMany(source: Record, className: string, morphType: string, morphId: string, related: RelatedModel): (r: Resolution<seq<Record>>)
    ensures r.supplierCalls == 0
    ensures r.result.Ok?
    ensures morphType != morphId ==>
              forall x :: x in r.result.value <==>
                x in TableRows(related) && Get(x, morphType) == Str(Lower(className)) && Get(x, morphId) == Get(source, "id")
  {
    var conds := map[morphType := Str(Lower(className)), morphId := Get(source, "id")];
    assert morphType != morphId ==>
             forall x :: Matches(x, conds) <==> Get(x, morphType) == Str(Lower(className)) && Get(x, morphId) == Get(source, "id");
    Resolution([WhereRead(related.table, conds)], 0, WhereModel(related, conds))
  }

  /** The discriminator is the class name, not the table name: a class
      `User` with table `people` still looks for type "user". */
  lemma MorphManyUsesClassName(source: Record, related: RelatedModel)
    ensures MorphMany(source, "User", "commentable_type", "commentable_id", related).lookups
            == [WhereRead(related.table, map["commentable_type" := Str("user"), "commentable_id" := Get(source, "id")])]
  {
    assert Lower("User") == "user";
  }
}

=== FILE: schema.dfy ===
/** `Blueprint` and `Schema` (src/migrations/Schema.ts): a blueprint
    accumulates column, index and dropped-index definitions; `Schema.create`
    and `Schema.table` turn one into a migration script whose `up` and
    `down` issue schema-changing adapter calls. `Date.now()`, the script's
    version, is a clock input. */
module Schema {
  import opened Basics
  import opened Ddl
  import opened ErrorUtils
  import opened Adapters
  import opened Scripts

  datatype Blueprint = Blueprint(columns: seq<ColumnDef>, indices: seq<IndexDef>, dropIndices: seq<DropIndexDef>)

  const EmptyBlueprint := Blueprint([], [], [])

  /** `id(name = 'id')`: an auto-incrementing primary key column. */
  function Id(bp: Blueprint, name: Option<string>): (r: Blueprint)
    ensures r.columns == bp.columns + [ColumnDef(name.GetOr("id"), Increments, None, Some(true), None, None)]
    ensures r.indices == bp.indices && r.dropIndices == bp.dropIndices
  {
    bp.(columns := bp.columns + [ColumnDef(name.GetOr("id"), Increments, None, Some(true), None, None)])
  }

  /** `string(name, length = 255)`. */
  function StringColumn(bp: Blueprint, name: string, length: Option<int>): (r: Blueprint)
    ensures r.columns == bp.columns + [ColumnDef(name, StringType, None, None, None, Some(length.GetOr(255)))]
    ensures r.indices == bp.indices && r.dropIndices == bp.dropIndices
  {
    bp.(columns := bp.columns + [ColumnDef(name, StringType, None, None, None, Some(length.GetOr(255)))])
  }

  /** `integer(name)`. */
  function IntegerColumn(bp: Blueprint, name: string): (r: Blueprint)
    ensures r.columns == bp.columns + [ColumnDef(name, IntegerType, None, None, None, None)]
    ensures r.indices == bp.indices && r.dropIndices == bp.dropIndices
  {
    bp.(columns := bp.columns + [ColumnDef(name, IntegerType, None, None, None, None)])
  }

  /** `index(options)`. */
  function Index(bp: Blueprint, options: IndexDef): (r: Blueprint)
    ensures r.indices == bp.indices + [options]
    ensures r.columns == bp.columns && r.dropIndices == bp.dropIndices
  {
    bp.(indices := bp.indices + [options])
  }

  /** `dropIndex(options)`. */
  function DropIndexDefinition(bp: Blueprint, options: DropIndexDef): (r: Blueprint)
    ensures r.dropIndices == bp.dropIndices + [options]
    ensures r.columns == bp.columns && r.indices == bp.indices
  {
    bp.(dropIndices := bp.dropIndices + [options])
  }

  /** One call a `Schema` callback makes on its blueprint. */
  datatype BuilderCall =
    | IdCall(idName: Option<string>)
    | StringCall(name: string, length: Option<int>)
    | IntegerCall(name: string)
    | IndexCall(options: IndexDef)
    | DropIndexCall(drop: DropIndexDef)

  function ApplyCall(bp: Blueprint, c: BuilderCall): Blueprint {
    match c
    case IdCall(name) => Id(bp, name)
    case StringCall(name, length) => StringColumn(bp, name, length)
    case IntegerCall(name) => IntegerColumn(bp, name)
    case IndexCall(options) => Index(bp, options)
    case DropIndexCall(drop) => DropIndexDefinition(bp, drop)
  }

  /** Running the callback: its calls in order, on a new blueprint. */
  function Build(calls: seq<BuilderCall>): Blueprint
    decreases |calls|
  {
    if |calls| == 0 then EmptyBlueprint else ApplyCall(Build(calls[..|calls| - 1]), calls[|calls| - 1])
  }

  /** The column a call defines, if it defines one. */
  function ColumnOf(c: BuilderCall): seq<ColumnDef> {
    match c
    case IdCall(name) => [ColumnDef(name.GetOr("id"), Increments, None, Some(true), None, None)]
    case StringCall(name, length) => [ColumnDef(name, StringType, None, None, None, Some(length.GetOr(255)))]
    case IntegerCall(name) => [ColumnDef(name, IntegerType, None, None, None, None)]
    case _ => []
  }

  function IndexOf(c: BuilderCall): seq<IndexDef> {
    if c.IndexCall? then [c.options] else []
  }

  function DropOf(c: BuilderCall): seq<DropIndexDef> {
    if c.DropIndexCall? then [c.drop] else []
  }

  /** Each list, read independently off the calls in call order. */
  function ColumnsOf(calls: seq<BuilderCall>): seq<ColumnDef> {
    if |calls| == 0 then [] else ColumnOf(calls[0]) + ColumnsOf(calls[1..])
  }

  function IndicesOf(calls: seq<BuilderCall>): seq<IndexDef> {
    if |calls| == 0 then [] else IndexOf(calls[0]) + IndicesOf(calls[1..])
  }

  function DropsOf(calls: seq<BuilderCall>): seq<DropIndexDef> {
    if |calls| == 0 then [] else DropOf(calls[0]) + DropsOf(calls[1..])
  }

  lemma {:induction false} ColumnsOfSnoc(calls: seq<BuilderCall>, c: BuilderCall)
    ensures ColumnsOf(calls + [c]) == ColumnsOf(calls) + ColumnOf(c)
    decreases |calls|
  {
    if |calls| == 0 {
      assert calls + [c] == [c];
    } else {
      assert (calls + [c])[1..] == calls[1..] + [c];
      ColumnsOfSnoc(calls[1..], c);
    }
  }

  lemma {:induction false} IndicesOfSnoc(calls: seq<BuilderCall>, c: BuilderCall)
    ensures IndicesOf(calls + [c]) == IndicesOf(calls) + IndexOf(c)
    decreases |calls|
  {
    if |calls| == 0 {
      assert calls + [c] == [c];
    } else {
      assert (calls + [c])[1..] == calls[1..] + [c];
      IndicesOfSnoc(calls[1..], c);
    }
  }

  lemma {:induction false} DropsOfSnoc(calls: seq<BuilderCall>, c: BuilderCall)
    ensures DropsOf(calls + [c]) == DropsOf(calls) + DropOf(c)
    decreases |calls|
  {
    if |calls| == 0 {
      assert calls + [c] == [c];
    } else {
      assert (calls + [c])[1..] == calls[1..] + [c];
      DropsOfSnoc(calls[1..], c);
    }
  }

  /** Every builder method appends to its own list, so each list holds its
      definitions in call order and nothing else. */
  lemma {:induction false} BuildCollectsInCallOrder(calls: seq<BuilderCall>)
    ensures Build(calls) == Blueprint(ColumnsOf(calls), IndicesOf(calls), DropsOf(calls))
    decreases |calls|
  {
    if |calls| > 0 {
      var init := calls[..|calls| - 1];
      BuildCollectsInCallOrder(init);
      ColumnsOfSnoc(init, calls[|calls| - 1]);
      IndicesOfSnoc(init, calls[|calls| - 1]);
      DropsOfSnoc(init, calls[|calls| - 1]);
      assert init + [calls[|calls| - 1]] == calls;
    }
  }

  // --- the calls `up` and `down` issue ---

  function AddColumns(table: string, cols: seq<ColumnDef>): (r: seq<DdlCall>)
    ensures |r| == |cols|
    ensures forall i :: 0 <= i < |cols| ==> r[i] == AddColumn(table, cols[i])
  {
    if |cols| == 0 then [] else [AddColumn(table, cols[0])] + AddColumns(table, cols[1..])
  }

  function AddIndices(table: string, idx: seq<IndexDef>): (r: seq<DdlCall>)
    ensures |r| == |idx|
    ensures forall i :: 0 <= i < |idx| ==> r[i] == AddIndex(table, idx[i])
  {
    if |idx| == 0 then [] else [AddIndex(table, idx[0])] + AddIndices(table, idx[1..])
  }

  /** `dropIndex(table, name)` for each definition, in the order given. */
  function DropIndices(table: string, drops: seq<DropIndexDef>): (r: seq<DdlCall>)
    ensures |r| == |drops|
    ensures forall i :: 0 <= i < |drops| ==> r[i] == DropIndex(table, drops[i].name)
  {
    if |drops| == 0 then [] else [DropIndex(table, drops[0].name)] + DropIndices(table, drops[1..])
  }

  function DropColumns(table: string, cols: seq<ColumnDef>): (r: seq<DdlCall>)
    ensures |r| == |cols|
    ensures forall i :: 0 <= i < |cols| ==> r[i] == DropColumn(table, cols[i].name)
  {
    if |cols| == 0 then [] else [DropColumn(table, cols[0].name)] + DropColumns(table, cols[1..])
  }

  /** A body that awaits `calls` in order. */
  function Steps(calls: seq<DdlCall>): (r: seq<Step>)
    ensures |r| == |calls| && forall i :: 0 <= i < |calls| ==> r[i] == Call(calls[i])
  {
    if |calls| == 0 then [] else [Call(calls[0])] + Steps(calls[1..])
  }

  /** The position of the first call that is not `createTable`, or the
      number of calls when there is none. */
  function FirstMissing(calls: seq<DdlCall>): (k: nat)
    ensures k <= |calls|
    ensures forall i :: 0 <= i < k ==> calls[i].CreateTable?
    ensures k < |calls| ==> !calls[k].CreateTable?
  {
    if |calls| == 0 || !calls[0].CreateTable? then 0 else 1 + FirstMissing(calls[1..])
  }

  /** On either adapter a body of calls issues exactly the leading
      `createTable` calls. */
  lemma {:induction false} StepsTrace(calls: seq<DdlCall>)
    ensures Trace(Steps(calls)) == calls[..FirstMissing(calls)]
  {
    if |calls| > 0 && calls[0].CreateTable? {
      var r := Steps(calls);
      var rest := calls[1..];
      StepsTrace(rest);
      assert r[1..] == Steps(rest);
      assert Trace(r) == [calls[0]] + Trace(Steps(rest));
      assert calls[..FirstMissing(calls)] == [calls[0]] + rest[..FirstMissing(rest)];
    }
  }

  /** On either adapter a body of calls throws exactly when it holds a call
      other than `createTable`, and then throws the `TypeError` of the first
      such call. */
  lemma StepsOnAdapters(calls: seq<DdlCall>)
    ensures Trace(Steps(calls)) == calls[..FirstMissing(calls)]
    ensures Raises(Steps(calls)) <==> exists i :: 0 <= i < |calls| && !calls[i].CreateTable?
    ensures Raises(Steps(calls)) ==> FirstError(Steps(calls)) == NotAFunction(calls[FirstMissing(calls)])
  {
    StepsTrace(calls);
    TraceStopsAtThrow(Steps(calls));
    var k := FirstMissing(calls);
    if k < |calls| {
      assert StepError(Steps(calls)[k]) == Some(NotAFunction(calls[k]));
    }
  }

  /** A body whose first call is not `createTable` throws at once. */
  lemma ThrowsAtFirstCall(calls: seq<DdlCall>)
    requires |calls| > 0 && !calls[0].CreateTable?
    ensures Trace(Steps(calls)) == [] && Raises(Steps(calls))
    ensures FirstError(Steps(calls)) == NotAFunction(calls[0])
  {
    StepsOnAdapters(calls);
  }

  /** The calls of `create`'s `up`. */
  function CreateUp(table: string, bp: Blueprint): (r: seq<DdlCall>)
    ensures |r| == 1 + |bp.columns| + |bp.indices|
    ensures r[0] == CreateTable(table, bp.columns)
    ensures forall i :: 0 <= i < |bp.columns| ==> r[1 + i] == AddColumn(table, bp.columns[i])
    ensures forall i :: 0 <= i < |bp.indices| ==> r[1 + |bp.columns| + i] == AddIndex(table, bp.indices[i])
  {
    [CreateTable(table, bp.columns)] + AddColumns(table, bp.columns) + AddIndices(table, bp.indices)
  }

  /** The calls of `create`'s `down` on a blueprint whose lists are in call
      order: drop the table, then the dropped indices and the columns, each
      newest first. */
  function CreateDown(table: string, bp: Blueprint): (r: seq<DdlCall>)
    ensures |r| == 1 + |bp.dropIndices| + |bp.columns|
    ensures r[0] == DropTable(table)
    ensures forall i :: 0 <= i < |bp.dropIndices| ==> r[|bp.dropIndices| - i] == DropIndex(table, bp.dropIndices[i].name)
    ensures forall i :: 0 <= i < |bp.columns| ==>
              r[|bp.dropIndices| + |bp.columns| - i] == DropColumn(table, bp.columns[i].name)
  {
    DownOrder(table, bp);
    [DropTable(table)] + DropIndices(table, Reverse(bp.dropIndices)) + DropColumns(table, Reverse(bp.columns))
  }

  /** Where each drop lands in `create`'s `down`. */
  lemma DownOrder(table: string, bp: Blueprint)
    ensures var r := [DropTable(table)] + DropIndices(table, Reverse(bp.dropIndices)) + DropColumns(table, Reverse(bp.columns));
            && |r| == 1 + |bp.dropIndices| + |bp.columns|
            && (forall i :: 0 <= i < |bp.dropIndices| ==> r[|bp.dropIndices| - i] == DropIndex(table, bp.dropIndices[i].name))
            && (forall i :: 0 <= i < |bp.columns| ==>
                  r[|bp.dropIndices| + |bp.columns| - i] == DropColumn(table, bp.columns[i].name))
  {
    var d := bp.dropIndices;
    var c := bp.columns;
    var drops := DropIndices(table, Reverse(d));
    var cols := DropColumns(table, Reverse(c));
    var r := [DropTable(table)] + drops + cols;
    forall i | 0 <= i < |d| ensures r[|d| - i] == DropIndex(table, d[i].name) {
      var j := |d| - 1 - i;
      assert r[1 + j] == drops[j];
      assert Reverse(d)[j] == d[i];
    }
    forall i | 0 <= i < |c| ensures r[|d| + |c| - i] == DropColumn(table, c[i].name) {
      var j := |c| - 1 - i;
      assert r[1 + |drops| + j] == cols[j];
      assert Reverse(c)[j] == c[i];
    }
  }

  /** The calls of `table`'s `up`. */
  function AlterUp(table: string, bp: Blueprint): (r: seq<DdlCall>)
    ensures CreateUp(table, bp) == [CreateTable(table, bp.columns)] + r
  {
    AddColumns(table, bp.columns) + AddIndices(table, bp.indices)
  }

  /** The calls of `table`'s `down`. */
  function AlterDown(table: string, bp: Blueprint): (r: seq<DdlCall>)
    ensures CreateDown(table, bp) == [DropTable(table)] + r
  {
    DropIndices(table, Reverse(bp.dropIndices)) + DropColumns(table, Reverse(bp.columns))
  }

  /** The `TypeError` of the first call of `up` that neither adapter
      defines: `addColumn` when there is a column, else `addIndex`. */
  function UpError(bp: Blueprint): Thrown {
    ErrorInstance(if |bp.columns| > 0 then "adapter.addColumn is not a function" else "adapter.addIndex is not a function")
  }

  /** A leading `createTable` call goes through and leaves the rest of the
      body to decide whether and what it throws. */
  lemma StepsCons(c: DdlCall, rest: seq<DdlCall>)
    requires c.CreateTable?
    ensures Trace(Steps([c] + rest)) == [c] + Trace(Steps(rest))
    ensures Raises(Steps([c] + rest)) <==> Raises(Steps(rest))
    ensures Raises(Steps(rest)) ==> FirstError(Steps([c] + rest)) == FirstError(Steps(rest))
  {
    var calls := [c] + rest;
    assert calls[1..] == rest;
    RaisesCons(Steps(calls));
  }

  /** On either adapter `table`'s `up` throws at its first call, and runs
      cleanly only when it has nothing to do. */
  lemma AlterUpOnAdapters(table: string, bp: Blueprint)
    ensures var r := Steps(AlterUp(table, bp));
            && Trace(r) == []
            && (Raises(r) <==> |bp.columns| + |bp.indices| > 0)
            && (Raises(r) ==> FirstError(r) == UpError(bp))
  {
    var cols := AddColumns(table, bp.columns);
    var idx := AddIndices(table, bp.indices);
    var up := cols + idx;
    if |up| > 0 {
      if |cols| > 0 {
        assert up[0] == AddColumn(table, bp.columns[0]);
      } else {
        assert up[0] == AddIndex(table, bp.indices[0]);
      }
      ThrowsAtFirstCall(up);
    }
  }

  /** A body of index drops then column drops issues nothing on either
      adapter, and throws exactly when it has a call. */
  lemma DropsThrow(table: string, drops: seq<DropIndexDef>, cols: seq<ColumnDef>)
    ensures var r := Steps(DropIndices(table, drops) + DropColumns(table, cols));
            Trace(r) == [] && (Raises(r) <==> |drops| + |cols| > 0)
  {
    var down := DropIndices(table, drops) + DropColumns(table, cols);
    if |drops| + |cols| > 0 {
      assert !down[0].CreateTable?;
      ThrowsAtFirstCall(down);
    } else {
      assert down == [];
    }
  }

  /** What such a body throws: the `TypeError` of `dropIndex` when there is
      an index to drop, else that of `dropColumn`. */
  lemma DropsError(table: string, drops: seq<DropIndexDef>, cols: seq<ColumnDef>)
    requires |drops| + |cols| > 0
    ensures var r := Steps(DropIndices(table, drops) + DropColumns(table, cols));
            Raises(r) && FirstError(r) == ErrorInstance(
              if |drops| > 0 then "adapter.dropIndex is not a function" else "adapter.dropColumn is not a function")
  {
    var down := DropIndices(table, drops) + DropColumns(table, cols);
    if |drops| > 0 {
      assert down[0] == DropIndex(table, drops[0].name);
    } else {
      assert down[0] == DropColumn(table, cols[0].name);
    }
    ThrowsAtFirstCall(down);
  }

  /** On either adapter `table`'s `down` throws at its first call,
      `dropIndex` when there is a dropped index, else `dropColumn`, and runs
      cleanly only when it has nothing to do. */
  lemma AlterDownOnAdapters(table: string, bp: Blueprint)
    ensures var r := Steps(AlterDown(table, bp));
            && Trace(r) == []
            && (Raises(r) <==> |bp.dropIndices| + |bp.columns| > 0)
            && (Raises(r) ==> FirstError(r) == ErrorInstance(
                  if |bp.dropIndices| > 0 then "adapter.dropIndex is not a function" else "adapter.dropColumn is not a function"))
  {
    DropsThrow(table, Reverse(bp.dropIndices), Reverse(bp.columns));
    if |bp.dropIndices| + |bp.columns| > 0 {
      DropsError(table, Reverse(bp.dropIndices), Reverse(bp.columns));
    }
  }

  /** On either adapter `create`'s `up` creates the table and then throws at
      the first column or index. */
  lemma CreateUpOnAdapters(table: string, bp: Blueprint)
    ensures var r := Steps(CreateUp(table, bp));
            && Trace(r) == [CreateTable(table, bp.columns)]
            && (Raises(r) <==> |bp.columns| + |bp.indices| > 0)
            && (Raises(r) ==> FirstError(r) == UpError(bp))
  {
    AlterUpOnAdapters(table, bp);
    StepsCons(CreateTable(table, bp.columns), AlterUp(table, bp));
  }

  /** On either adapter `create`'s `down` throws at once, at `dropTable`. */
  lemma CreateDownOnAdapters(table: string, bp: Blueprint)
    ensures var r := Steps(CreateDown(table, bp));
            && Trace(r) == [] && Raises(r)
            && FirstError(r) == ErrorInstance("adapter.dropTable is not a function")
  {
    ThrowsAtFirstCall(CreateDown(table, bp));
  }

  /** `Schema.create(table, callback)` made at time `now`. The result is an
      object literal, so its constructor is `Object` and its text is
      `[object Object]`. Its `up` and `down` attempt the calls of `CreateUp`
      and `CreateDown`; on either adapter `up` creates the table and throws
      at the first column or index, and `down` throws at once. */
  function Create(table: string, calls: seq<BuilderCall>, now: int): (s: Script)
    ensures s.version == now && s.name == "create_" + table + "_table"
    ensures s.ctorName == "Object" && s.text == "[object Object]"
    ensures var bp := Blueprint(ColumnsOf(calls), IndicesOf(calls), DropsOf(calls));
            && s.up == Steps(CreateUp(table, bp)) && s.down == Steps(CreateDown(table, bp))
            && Trace(s.up) == [CreateTable(table, bp.columns)]
            && (Raises(s.up) <==> |bp.columns| + |bp.indices| > 0)
            && (Raises(s.up) ==> FirstError(s.up) == UpError(bp))
            && Trace(s.down) == [] && Raises(s.down)
            && FirstError(s.down) == ErrorInstance("adapter.dropTable is not a function")
  {
    var bp := Build(calls);
    BuildCollectsInCallOrder(calls);
    CreateUpOnAdapters(table, bp);
    CreateDownOnAdapters(table, bp);
    Script(now, "create_" + table + "_table", "Object", "[object Object]", Steps(CreateUp(table, bp)), Steps(CreateDown(table, bp)))
  }

  /** `Schema.table(table, callback)` made at time `now`. Its `up` and
      `down` attempt the calls of `AlterUp` and `AlterDown`; on either
      adapter each throws at its first call and runs cleanly only when it
      has nothing to do. */
  function Alter(table: string, calls: seq<BuilderCall>, now: int): (s: Script)
    ensures s.version == now && s.name == "alter_" + table + "_table"
    ensures s.ctorName == "Object" && s.text == "[object Object]"
    ensures var bp := Blueprint(ColumnsOf(calls), IndicesOf(calls), DropsOf(calls));
            && s.up == Steps(AlterUp(table, bp)) && s.down == Steps(AlterDown(table, bp))
            && Trace(s.up) == [] && Trace(s.down) == []
            && (Raises(s.up) <==> |bp.columns| + |bp.indices| > 0)
            && (Raises(s.up) ==> FirstError(s.up) == UpError(bp))
            && (Raises(s.down) <==> |bp.dropIndices| + |bp.columns| > 0)
            && (Raises(s.down) ==> FirstError(s.down) == ErrorInstance(
                  if |bp.dropIndices| > 0 then "adapter.dropIndex is not a function" else "adapter.dropColumn is not a function"))
  {
    var bp := Build(calls);
    BuildCollectsInCallOrder(calls);
    AlterUpOnAdapters(table, bp);
    AlterDownOnAdapters(table, bp);
    Script(now, "alter_" + table + "_table", "Object", "[object Object]", Steps(AlterUp(table, bp)), Steps(AlterDown(table, bp)))
  }

  // --- `down` as written: `reverse()` flips the shared lists in place ---

  /** `create`'s `down` as written: the calls it issues, and the blueprint it
      leaves behind with both reversed lists flipped. */
  function CreateDownAsWritten(table: string, bp: Blueprint): (Blueprint, seq<DdlCall>) {
    var drops := Reverse(bp.dropIndices);
    var cols := Reverse(bp.columns);
    (bp.(dropIndices := drops, columns := cols),
     [DropTable(table)] + DropIndices(table, drops) + DropColumns(table, cols))
  }

  /** On a blueprint with columns `a` then `b`, the first `down` drops `b`
      then `a`, but a second `down` drops `a` then `b`, and an `up` run
      after the first `down` adds `b` before `a`. */
  lemma SecondDownFlipsOrder(table: string, a: ColumnDef, b: ColumnDef)
    requires a.name != b.name
    ensures var bp := Blueprint([a, b], [], []);
            var (bp1, first) := CreateDownAsWritten(table, bp);
            var (_, second) := CreateDownAsWritten(table, bp1);
            first == [DropTable(table), DropColumn(table, b.name), DropColumn(table, a.name)]
            && second == [DropTable(table), DropColumn(table, a.name), DropColumn(table, b.name)]
            && CreateUp(table, bp1)[1] == AddColumn(table, b)
            && first == CreateDown(table, bp) && second != CreateDown(table, bp)
  {
    var bp := Blueprint([a, b], [], []);
    var bp1 := CreateDownAsWritten(table, bp).0;
    assert bp1.columns == [b, a];
    assert Reverse(bp1.columns) == [a, b];
  }
}

=== FILE: scripts.dfy ===
/** A registered migration script (src/models/MigrationScript.ts) and what
    running its `up` or `down` against an adapter does. A script body is a
    sequence of steps: schema-changing calls on the adapter and throws. */
module Scripts {
  import opened Basics
  import opened Outcomes
  import opened ErrorUtils
  import opened Ddl
  import opened Adapters

  datatype Step = Call(call: DdlCall) | Raise(error: Thrown)

  /** `version` and `name` are the script's own properties; `ctorName` is
      `constructor.name` and `text` is `toString()`, the two values the
      tracking table stores. */
  datatype Script = Script(
    version: int,
    name: string,
    ctorName: string,
    text: string,
    up: seq<Step>,
    down: seq<Step>)

  /** What a step throws on either adapter, if anything: its own error, or
      the `TypeError` of a schema-changing method the adapter does not define. */
  function StepError(s: Step): Option<Thrown> {
    match s
    case Raise(e) => Some(e)
    case Call(call) => if call.CreateTable? then None else Some(NotAFunction(call))
  }

  /** Some step throws. */
  predicate Raises(steps: seq<Step>) {
    exists i :: 0 <= i < |steps| && StepError(steps[i]).Some?
  }

  /** A body throws iff its first step or the rest of it does. */
  lemma RaisesCons(steps: seq<Step>)
    requires |steps| > 0
    ensures Raises(steps) <==> StepError(steps[0]).Some? || Raises(steps[1..])
  {
    if Raises(steps) {
      var i :| 0 <= i < |steps| && StepError(steps[i]).Some?;
      if i > 0 {
        assert steps[1..][i - 1] == steps[i];
      }
    }
    if Raises(steps[1..]) {
      var i :| 0 <= i < |steps[1..]| && StepError(steps[1..][i]).Some?;
      assert steps[i + 1] == steps[1..][i];
    }
  }

  /** The first thrown error. */
  function FirstError(steps: seq<Step>): Thrown
    requires Raises(steps)
  {
    RaisesCons(steps);
    if StepError(steps[0]).Some? then StepError(steps[0]).value
    else FirstError(steps[1..])
  }

  /** The calls that go through before the first throw. That the trace
      stops exactly at the first throwing step, and holds only `createTable`
      calls, is `TraceStopsAtThrow`. */
  function Trace(steps: seq<Step>): (calls: seq<DdlCall>)
    ensures |calls| <= |steps|
    ensures forall i :: 0 <= i < |calls| ==> steps[i] == Call(calls[i])
  {
    if |steps| == 0 || StepError(steps[0]).Some? then []
    else [steps[0].call] + Trace(steps[1..])
  }

  /** Only `createTable` calls go through; a body throws exactly when its
      trace stops short of its last step, and then the step it stops at is
      the one whose error it throws. */
  lemma {:induction false} TraceStopsAtThrow(steps: seq<Step>)
    ensures forall i :: 0 <= i < |Trace(steps)| ==> Trace(steps)[i].CreateTable?
    ensures Raises(steps) <==> |Trace(steps)| < |steps|
    ensures Raises(steps) ==> StepError(steps[|Trace(steps)|]) == Some(FirstError(steps))
  {
    if |steps| > 0 {
      RaisesCons(steps);
      if StepError(steps[0]).None? {
        TraceStopsAtThrow(steps[1..]);
        assert Trace(steps) == [steps[0].call] + Trace(steps[1..]);
      }
    }
  }

  /** Awaiting each step in order; the first throw ends the run. */
  function RunSteps(a: Adapter, steps: seq<Step>): (r: Run<Adapter, ()>)
    ensures r.result.Ok? <==> !Raises(steps)
    ensures r.result.Err? ==> Raises(steps) && r.result.error == FirstError(steps)
    ensures r.state.ddlLog == a.ddlLog + Trace(steps)
    ensures r.state.InTransaction() == a.InTransaction()
    ensures Extends(a.View(), r.state.View()) && Extends(a.Committed(), r.state.Committed())
    decreases |steps|
  {
    if |steps| == 0 then Run(a, Ok(()))
    else
      RaisesCons(steps);
      match steps[0]
      case Raise(e) => Run(a, Err(e))
      case Call(call) =>
        var issued := Issue(a, call);
        if issued.result.Err? then Run(a, Err(issued.result.error))
        else RunSteps(issued.state, steps[1..])
  }
}

=== FILE: tables.dfy ===
/** The table-level semantics both storage adapters share: a store maps a
    table name to its rows in insertion order, and rows are plain records
    carrying an `id` field. */
module Storage {
  import opened Basics
  import opened Values

  type Tables = map<string, seq<Record>>

  /** `target[table] || []`. */
  function Rows(t: Tables, name: string): seq<Record> {
    if name in t then t[name] else []
  }

  /** `if (!data[table]) data[table] = []`: adds an empty table when absent. */
  function EnsureTable(t: Tables, name: string): (r: Tables)
    ensures name in r
    ensures name !in t ==> r[name] == []
    ensures forall x :: x in t ==> x in r && r[x] == t[x]
    ensures forall x :: x in r ==> x in t || x == name
  {
    if name in t then t else t[name := []]
  }

  /** `record.id === id`. */
  predicate HasId(r: Record, id: Value) {
    StrictEquals(Get(r, "id"), id)
  }

  /** `records.findIndex(record => record.id === id)`, with -1 as `None`. */
  function IndexOfId(rows: seq<Record>, id: Value): (r: Option<nat>)
    ensures r.Some? ==> r.value < |rows| && HasId(rows[r.value], id)
    ensures r.Some? ==> forall j :: 0 <= j < r.value ==> !HasId(rows[j], id)
    ensures r.None? ==> forall j :: 0 <= j < |rows| ==> !HasId(rows[j], id)
  {
    if |rows| == 0 then None
    else if HasId(rows[0], id) then Some(0)
    else match IndexOfId(rows[1..], id)
      case None => None
      case Some(i) => Some(i + 1)
  }

  /** `records.find(record => record.id === id) || null`: the first row with the id. */
  function FindById(rows: seq<Record>, id: Value): (r: Option<Record>)
    ensures r.Some? ==> exists i :: 0 <= i < |rows| && rows[i] == r.value && HasId(rows[i], id)
                                   && forall j :: 0 <= j < i ==> !HasId(rows[j], id)
    ensures r.None? <==> forall j :: 0 <= j < |rows| ==> !HasId(rows[j], id)
  {
    match IndexOfId(rows, id)
    case None => None
    case Some(i) => Some(rows[i])
  }

  /** `rows.filter(keep)`. */
  function Filter(rows: seq<Record>, keep: Record -> bool): (r: seq<Record>)
    ensures |r| <= |rows|
    ensures forall x :: x in r <==> x in rows && keep(x)
  {
    if |rows| == 0 then []
    else if keep(rows[0]) then [rows[0]] + Filter(rows[1..], keep)
    else Filter(rows[1..], keep)
  }

  /** Filtering keeps stored order: it distributes over concatenation. */
  lemma {:induction false} FilterConcat(a: seq<Record>, b: seq<Record>, keep: Record -> bool)
    ensures Filter(a + b, keep) == Filter(a, keep) + Filter(b, keep)
    decreases |a|
  {
    if |a| > 0 {
      assert (a + b)[1..] == a[1..] + b;
      FilterConcat(a[1..], b, keep);
    } else {
      assert a + b == b;
    }
  }

  /** A filter drops a row exactly when some row fails the test. */
  lemma {:induction false} FilterShrinks(rows: seq<Record>, keep: Record -> bool)
    ensures |Filter(rows, keep)| < |rows| <==> exists i :: 0 <= i < |rows| && !keep(rows[i])
    decreases |rows|
  {
    if |rows| > 0 {
      FilterShrinks(rows[1..], keep);
      if !keep(rows[0]) {
        assert !keep(rows[0]);
      } else if exists i :: 0 <= i < |rows| && !keep(rows[i]) {
        var i :| 0 <= i < |rows| && !keep(rows[i]);
        assert i > 0 && !keep(rows[1..][i - 1]);
      } else {
        assert forall i :: 0 <= i < |rows[1..]| ==> keep(rows[1..][i]) by {
          forall i | 0 <= i < |rows[1..]| ensures keep(rows[1..][i]) {
            assert rows[1..][i] == rows[i + 1];
          }
        }
      }
    }
  }

  /** A filter that keeps every row is the identity. */
  lemma {:induction false} FilterKeepsAll(rows: seq<Record>, keep: Record -> bool)
    requires forall i :: 0 <= i < |rows| ==> keep(rows[i])
    ensures Filter(rows, keep) == rows
    decreases |rows|
  {
    if |rows| > 0 {
      FilterKeepsAll(rows[1..], keep);
    }
  }

  /** The `where` test: every key of the conditions holds a strictly equal value. */
  predicate Matches(r: Record, conds: Record) {
    forall k :: k in conds ==> StrictEquals(Get(r, k), conds[k])
  }

  /** `records.filter(record => Object.keys(conditions).every(key => record[key] === conditions[key]))`. */
  function Where(rows: seq<Record>, conds: Record): seq<Record> {
    Filter(rows, (r: Record) => Matches(r, conds))
  }

  /** Rows matching the conditions, in stored order; no conditions keeps all rows. */
  lemma WhereSpec(rows: seq<Record>, conds: Record)
    ensures forall x :: x in Where(rows, conds) <==> x in rows && Matches(x, conds)
    ensures conds == map[] ==> Where(rows, conds) == rows
  {
    if conds == map[] {
      FilterKeepsAll(rows, (r: Record) => Matches(r, conds));
    }
  }

  /** `records.filter(record => record.id !== id)`. */
  function WithoutId(rows: seq<Record>, id: Value): seq<Record> {
    Filter(rows, (r: Record) => !HasId(r, id))
  }

  /** `{ ...data, id: n }`. */
  function WithId(data: Record, n: int): (r: Record)
    ensures Get(r, "id") == Num(n)
    ensures forall k :: k != "id" ==> Get(r, k) == Get(data, k)
  {
    data["id" := Num(n)]
  }

  /** `{ ...record, ...data }` and `Object.assign(record, data)`: fields of `data` win. */
  function Merge(record: Record, data: Record): (r: Record)
    ensures forall k :: k in data ==> Get(r, k) == data[k]
    ensures forall k :: k !in data ==> Get(r, k) == Get(record, k)
  {
    record + data
  }

  /** The shared `create` step: auto-create the table, then append the
      record with `id` = row count before the append, plus one. */
  function Insert(t: Tables, name: string, data: Record): (r: (Tables, Record))
    ensures name in r.0 && r.0[name] == Rows(t, name) + [r.1]
    ensures r.1 == WithId(data, |Rows(t, name)| + 1)
    ensures forall x :: x != name ==> (x in r.0 <==> x in t) && Rows(r.0, x) == Rows(t, x)
  {
    var rows := Rows(t, name);
    var record := WithId(data, |rows| + 1);
    (t[name := rows + [record]], record)
  }

  /** The shared `update` step on one table's rows: merge `data` over the
      first row with the id; `None` when no row has it. */
  function UpdateFirst(rows: seq<Record>, id: Value, data: Record): (r: Option<(seq<Record>, Record)>)
    ensures r.None? <==> forall j :: 0 <= j < |rows| ==> !HasId(rows[j], id)
    ensures r.Some? ==> |r.value.0| == |rows|
    ensures r.Some? ==>
              (exists i :: 0 <= i < |rows| && HasId(rows[i], id)
                && (forall j :: 0 <= j < i ==> !HasId(rows[j], id))
                && r.value.1 == Merge(rows[i], data) && r.value.0 == rows[i := r.value.1])
  {
    match IndexOfId(rows, id)
    case None => None
    case Some(i) =>
      var updated := Merge(rows[i], data);
      Some((rows[i := updated], updated))
  }

  /** A data write an adapter accepts: `create`, `update` or `delete`. */
  datatype Write =
    | CreateOp(table: string, data: Record)
    | UpdateOp(table: string, id: Value, data: Record)
    | DeleteOp(table: string, id: Value)

  /** Ids assigned as "row count + 1" repeat after a deletion: with rows
      1 and 2, deleting 1 and creating again assigns 2 a second time. */
  lemma IdsRepeatAfterDelete(name: string, a: Record, b: Record, c: Record)
    ensures var t1 := Insert(map[], name, a).0;
            var t2 := Insert(t1, name, b).0;
            var t3 := t2[name := WithoutId(Rows(t2, name), Num(1))];
            var created := Insert(t3, name, c).1;
            Get(created, "id") == Num(2) && HasId(Rows(t3, name)[0], Num(2))
  {
    var t1 := Insert(map[], name, a).0;
    var t2 := Insert(t1, name, b).0;
    var rows := Rows(t2, name);
    assert rows == [WithId(a, 1), WithId(b, 2)];
    assert Get(rows[0], "id") == Num(1);
    assert Get(rows[1], "id") == Num(2);
    var keep := (r: Record) => !HasId(r, Num(1));
    assert rows[1..] == [WithId(b, 2)];
    assert rows[1..][1..] == [];
    assert Filter(rows[1..][1..], keep) == [];
    assert Filter(rows[1..], keep) == [WithId(b, 2)];
    assert Filter(rows, keep) == [WithId(b, 2)];
  }
}

=== FILE: values.dfy ===
/** The JavaScript values that flow through records, conditions and errors.

    Numbers are integral (no fractions, NaN or infinities). Every object —
    arrays, dates, emitters, nested records — is an opaque reference `Obj(addr)`:
    `===` on objects is identity, so it compares addresses, and on the
    primitive cases it is structural. Hence strict equality is exactly `==`
    on this datatype. */
module Values {
  import opened Basics

  datatype Value =
    | Undefined
    | Null
    | Bool(b: bool)
    | Num(n: int)
    | Str(s: string)
    | Obj(addr: nat)

  /** A plain object: own enumerable property name to value. A key that is
      absent reads as `undefined`. */
  type Record = map<string, Value>

  /** Property read `r[key]`. */
  function Get(r: Record, key: string): Value {
    if key in r then r[key] else Undefined
  }

  /** JavaScript truthiness. */
  predicate Truthy(v: Value) {
    match v
    case Undefined => false
    case Null => false
    case Bool(b) => b
    case Num(n) => n != 0
    case Str(s) => s != ""
    case Obj(_) => true
  }

  /** The falsy values are exactly `undefined`, `null`, `false`, `0` and `''`. */
  lemma FalsyValues(v: Value)
    ensures !Truthy(v) <==> v in {Undefined, Null, Bool(false), Num(0), Str("")}
  {
  }

  /** `a === b`: identity on objects, value equality on primitives. */
  predicate StrictEquals(a: Value, b: Value) {
    a == b
  }

  /** `String(v)`; every object renders as a plain object does. */
  function Text(v: Value): string {
    match v
    case Undefined => "undefined"
    case Null => "null"
    case Bool(b) => if b then "true" else "false"
    case Num(n) => IntToString(n)
    case Str(s) => s
    case Obj(_) => "[object Object]"
  }
}
